=== FILE: README.md ===
# Exam grading: task monitoring, session service and grading UI logic

This project is a Dafny model of the core of an exam-grading web application.
Teachers create a grading session, add students with their exam PDFs, and send
each PDF to an external grading server. The server answers with a task id.
Grading progress comes back in two ways. A server-side monitor polls the
external task status. Live log panels in the browser also receive status
messages over one WebSocket per task.

The model covers:

- **Task monitor** (`TaskMonitor`): the external-status mapping, the
  per-student reconciliation and its database writes, the batch of ten, the
  recheck of the touched sessions, and the single-task check.
- **Grading-session service** (`SessionService`): the session status
  decision table, the status write, the statistics over completed
  percentages, and the grading write with its score and feedback rows.
- **Validation** (`Validation`): the session and feedback schemas, as lists
  of failed checks.
- **Log panels** (`LogView`, `TaskLogStream`, `SessionLogStream`): how a wire
  message becomes an entry, the pause buffer, tab filtering, the text export,
  which sockets are opened, and the status updates the session panel sends.
- **Sessions list** (`SessionsPage`): search and filters, deletion, the
  status label and the badge.
- **Status polling hook** (`StatusPolling`): change detection and the stop
  on COMPLETED.
- **Student upload step** (`StudentUpload`) and **new-session wizard**
  (`NewSessionWizard`): the steps, the temporary-id remapping, and the start
  of grading.

Shared foundations:

- `Wrappers`: `Option` and `Result`.
- `Seqs`: subsequence, filter, dedupe.
- `Text`: ASCII case mapping, substring search, line splitting.
- `Statuses`: the status enums.
- `Store`: the database as maps from ids to rows, plus the table scan order.

Effects become parameters:

- the clock is `now: int`;
- whether the log table accepts writes is `sinkUp: bool`;
- the external status fetch is an oracle `fetch: string -> Result<TaskResult, string>`;
- JSON parsing of the rubric is `parses`;
- `toLocaleTimeString` is `fmt`;
- the grading upload answers are an oracle indexed by student position.

Numbers are `real`, because JavaScript numbers are doubles and no rounding is
modelled.

Three behaviours of the code are easy to misread, and the model keeps them as
the code has them:

- The monitor stores the payload's `total_score` and `max_score` as given. It
  does not recompute them from the question rows it writes.
  `TaskMonitor.MonitorTotalsMayDisagree` shows that the two can differ.
- A session set to IN_PROGRESS gets `startedAt := now` on every such write,
  including when `startedAt` is already set.
- The monitor reads only the `result` field of the task answer. It stores no
  raw grading output.

## Model

| member | source | states |
|---|---|---|
| TaskMonitor.MapStatus | src/lib/services/task-monitor.service.ts:156-176 | SUCCESS/COMPLETED give COMPLETED and FAILURE/ERROR give FAILED, from any status. PROGRESS/PROCESSING_PDF move only PENDING to PROCESSING. Every other word leaves the status as it is. |
| TaskMonitor.MapStatusIdempotent | src/lib/services/task-monitor.service.ts:156-176 | Mapping the same external status twice gives the same status as mapping it once. |
| TaskMonitor.MapStatusChanges | src/lib/services/task-monitor.service.ts:156-176 | Mapping never yields PENDING from another status. PROCESSING is reached only from PENDING. Any change needs a recognised word. A FAILURE report overwrites COMPLETED. |
| TaskMonitor.ConfidenceOrNull | src/lib/services/task-monitor.service.ts:282 | A stored confidence is null exactly when the item's is absent or 0; otherwise it is the item's value. |
| TaskMonitor.ItemScoreRows | src/lib/services/task-monitor.service.ts:266-274 | One question-score row per feedback item, in order, with its question id, score and maximum. |
| TaskMonitor.ItemFeedbackRows | src/lib/services/task-monitor.service.ts:276-285 | One feedback row per item, in order: type GENERAL, confidence as `confidence \|\| null`, keywords as given. |
| TaskMonitor.ApplyResult | src/lib/services/task-monitor.service.ts:238-292 | A missing student is an error. Otherwise the student gets the payload totals and their percentage. The score and feedback rows are replaced by the item rows. Every other student, row, session and log is unchanged. |
| TaskMonitor.WriteStatus | src/lib/services/task-monitor.service.ts:178-187 | Only the student's status changes, and `gradedAt` becomes now when the new status is COMPLETED. A missing student is an error. |
| TaskMonitor.Expected | src/lib/services/task-monitor.service.ts:74-199 | A result entry carries the student's id, task and old status. It has an error exactly when the fetch failed. It is marked updated exactly when the status changed. A failed fetch keeps the old status. |
| TaskMonitor.ExpectedNotBoth | src/lib/services/task-monitor.service.ts:74-112 | No entry is both updated and an error. |
| TaskMonitor.CheckedSlot | src/lib/services/task-monitor.service.ts:156-292 | The reference for one student's check, computed on the student's row, score rows and feedback rows alone. The id, name, task and session never change. From the snapshot's status the row moves to the entry's new status. `gradedAt` changes only to now, and only with a COMPLETED write. Without a success word the score and feedback rows stay. |
| TaskMonitor.ResultsWrite | src/lib/services/task-monitor.service.ts:166-171 | Without a success word and a payload nothing is written. With them, the student gets the payload's totals, its guarded percentage and one score row and one feedback row per item. Every other student, score row, feedback row, session and log is unchanged. |
| TaskMonitor.CheckWrites | src/lib/services/task-monitor.service.ts:156-187 | The results write followed by the status write leaves the student exactly the slot `CheckedSlot` gives. Every other student, score row, feedback row, session and log is unchanged. |
| TaskMonitor.CheckStudent | src/lib/services/task-monitor.service.ts:142-199 | It fails exactly when the fetch fails, with the fetch's error, and then writes nothing. Otherwise the entry is `Expected` and the student's row, score rows and feedback rows become `CheckedSlot` of the old ones. Every other student, score row, feedback row, session and log is unchanged. |
| TaskMonitor.ReconcileIdempotent | src/lib/services/task-monitor.service.ts:156-187 | Reconciling the written student again with the same answer reports no update. |
| TaskMonitor.EligibleIds | src/lib/services/task-monitor.service.ts:49-55 | Exactly the students with a task id and status PENDING or PROCESSING, in table order. |
| TaskMonitor.SelectedIds | src/lib/services/task-monitor.service.ts:27-66 | The first min(10, eligible) eligible students. |
| TaskMonitor.SelectedDistinct | src/lib/services/task-monitor.service.ts:49-66 | The batch holds no student twice. |
| TaskMonitor.CountsBounded | src/lib/services/task-monitor.service.ts:70-112 | The updated and error counts together never exceed the number of entries. |
| TaskMonitor.BatchStep | src/lib/services/task-monitor.service.ts:74-112 | The entry is `Expected`. The student holds what its check leaves, or its old slot when the fetch failed. Nobody else and no session changes. One log line is appended exactly for a change or a failure when the log table accepts it: INFO for a change, ERROR for a failure, on the student's session. |
| TaskMonitor.ReconcileBatch | src/lib/services/task-monitor.service.ts:70-112 | Each student in the batch gets the entry computed from its own snapshot and answer alone. An error in one student does not stop the others. Each batch student holds what its own check leaves (`CheckedInto`), with its entry's new status. Every other student, score row and feedback row, the order and the sessions are unchanged. The counts match the entries. The old log is kept as a prefix, and one line per change and per failure is appended when the log table accepts writes. |
| TaskMonitor.RecheckSessions | src/lib/services/task-monitor.service.ts:114-125 | Rechecking sessions touches only those sessions. Students, rows and every other session are unchanged. Each listed session that exists ends with the record one recheck against the students gives (`SessionService.RecheckedSession`), however often it is listed. An unknown session is skipped. |
| TaskMonitor.SessionIdsOf | src/lib/services/task-monitor.service.ts:115-117 | The session id of each batch student, position by position. |
| TaskMonitor.RunBatch | src/lib/services/task-monitor.service.ts:70-132 | The report has one entry per batch student, in order, with `processed` the batch size and `updated + errors <= processed`. Each batch student holds what its own check leaves, and every other student, score row and feedback row is unchanged. |
| TaskMonitor.AffectedSessions | src/lib/services/task-monitor.service.ts:114-117 | The sessions of the batch students, each once, and every batch student's session among them. |
| TaskMonitor.AffectedSessionsOrdered | src/lib/services/task-monitor.service.ts:114-125 | The affected sessions come in the order of their first student in the batch, the iteration order of the `Set`. |
| TaskMonitor.CheckAllPendingTasks | src/lib/services/task-monitor.service.ts:34-137 | `processed` is the batch size. There is one entry per batch student, in order. `updated + errors <= processed`. Each batch student holds what its own check leaves, with its entry's status. Every other student, score row and feedback row, and the order, are unchanged. The rechecked sessions are distinct, include every batch student's session, and come in order of first occurrence in the batch. Each of them ends with the record a recheck against the reconciled students gives. Every other session is unchanged. |
| TaskMonitor.FindByTask | src/lib/services/task-monitor.service.ts:305-312 | Returns a student holding the task id, or none when no student in the table holds it. |
| TaskMonitor.ReportAfterCheck | src/lib/services/task-monitor.service.ts:320-339 | Without an update the report carries the new status and nothing more is written. With one, the student's session is replaced by its rechecked record, or a failed recheck gives an ERROR report. Students, score rows and feedback rows stay as the check wrote them. |
| TaskMonitor.CheckHolder | src/lib/services/task-monitor.service.ts:318-339 | A failed fetch gives an ERROR report and no write. Otherwise students, score rows and feedback rows are those `CheckWrites` gives, and the report carries the entry's status and update flag. The session is rechecked only after an update. |
| TaskMonitor.CheckHolderWrites | src/lib/services/task-monitor.service.ts:318-323 | The student holding the task gets what its check leaves, or keeps its slot when the fetch fails. Every other student, score row and feedback row is unchanged. |
| TaskMonitor.CheckSpecificTask | src/lib/services/task-monitor.service.ts:297-340 | The first student in table order holding the task gets what its check leaves. Every other student, score row and feedback row is unchanged. An unknown task or a failed fetch gives an ERROR report with the message and no write. A status of ERROR always comes with an error message and never with an update. A report without error is about the first student in table order holding the task: it carries that student's new status, which is also the stored one. Without an update, or on an error, no session changes. With an update, exactly that student's session is replaced by its rechecked record. |
| TaskMonitor.MonitorTotalsMayDisagree | src/lib/services/task-monitor.service.ts:247-285 | A payload whose total differs from the sum of its item scores leaves a stored total that disagrees with the stored question rows. |
| SessionService.SessionDecisionTable | src/lib/services/grading-session.service.ts:373-390 | Every student COMPLETED or FAILED (at least one student) gives COMPLETED. Otherwise, any PROCESSING or COMPLETED student gives IN_PROGRESS. Otherwise the status stays. |
| SessionService.CountPositiveIff | src/lib/services/grading-session.service.ts:374-376 | A status count is positive exactly when some student has that status. |
| SessionService.ResolvedCountIff | src/lib/services/grading-session.service.ts:374-386 | Completed plus failed equals the total exactly when every status is terminal. |
| SessionService.UpdateSessionStatus | src/lib/services/grading-session.service.ts:83-109 | A missing session is an error. Otherwise only that session changes: the new status, `updatedAt`, `startedAt` for IN_PROGRESS and `completedAt` for COMPLETED. One INFO "Session status changed to X" system log row is added when the log table accepts it. |
| SessionService.MaxOf | src/lib/services/grading-session.service.ts:267 | `Math.max` over the percentages: a member that bounds all of them from above. |
| SessionService.MinOf | src/lib/services/grading-session.service.ts:268 | `Math.min` over the percentages: a member that bounds all of them from below. |
| SessionService.MeanBounds | src/lib/services/grading-session.service.ts:266-268 | The average lies between the lowest and the highest percentage. |
| SessionService.MeanTimesCount | src/lib/services/grading-session.service.ts:266 | The average times the count is the sum. |
| SessionService.PassingRate | src/lib/services/grading-session.service.ts:269 | The rate lies in [0, 100]. The rate times the count is 100 times the number of percentages of at least 50. |
| SessionService.Statistics | src/lib/services/grading-session.service.ts:261-269 | None exactly when there is no percentage. Otherwise lowest <= average <= highest, with the extremes drawn from the percentages and bounding all of them, and a passing rate in [0, 100]. |
| SessionService.CompletedPercentages | src/lib/services/grading-session.service.ts:250-265 | Exactly the percentages of the COMPLETED students that have one, and no more values than students. |
| SessionService.CompletedPercentagesInOrder | src/lib/services/grading-session.service.ts:250-265 | One value per COMPLETED student with a percentage, the i-th being the i-th such student's in table order, repeats included. |
| SessionService.CalculateSessionStatistics | src/lib/services/grading-session.service.ts:248-286 | With no completed percentage nothing is written. Otherwise only the session's statistics change, to those of its completed percentages. A missing session is an error. |
| SessionService.CheckAndUpdateSessionStatus | src/lib/services/grading-session.service.ts:356-409 | A missing session is an error. When the recomputed status equals the stored one, nothing is written. Otherwise the session gets the recomputed status at time now. |
| SessionService.RecheckFrame | src/lib/services/grading-session.service.ts:356-409 | A recheck changes no student, no score or feedback row, and no other session. |
| SessionService.RecheckStatistics | src/lib/services/grading-session.service.ts:391-397 | Statistics change only on a transition to COMPLETED. On that transition, with completed percentages present, they become the statistics of those percentages. |
| SessionService.RecheckIdempotent | src/lib/services/grading-session.service.ts:356-404 | A second recheck right after the first writes nothing. |
| SessionService.RecheckWritesSession | src/lib/services/grading-session.service.ts:356-409 | A recheck of an existing session succeeds and replaces exactly that session's record. The new record is the one `RecheckedSession` gives from the students and that session alone: unchanged when the decision table keeps the status; otherwise restamped, with statistics on a move into COMPLETED. |
| SessionService.RecheckedSessionStable | src/lib/services/grading-session.service.ts:356-404 | Rechecking a rechecked record again, at any later time, leaves it as it is. |
| SessionService.ScoreRows | src/lib/services/grading-session.service.ts:184-193 | One question-score row per score input, in order. |
| SessionService.FeedbackRows | src/lib/services/grading-session.service.ts:215-226 | One feedback row per validated feedback input, in order, with type, confidence and keywords. |
| SessionService.GradedRow | src/lib/services/grading-session.service.ts:171-207 | The written student row: task id and status set, `gradedAt` set only for COMPLETED. Non-empty scores set the totals and their percentage; empty scores keep the old totals. Identity, name and session are kept. |
| SessionService.UpdateStudentGrading | src/lib/services/grading-session.service.ts:161-246 | A missing student is the reported error. Otherwise the student row is `GradedRow`. Non-empty scores and non-empty feedback replace their rows; empty lists keep the old rows. |
| SessionService.GradingFrame | src/lib/services/grading-session.service.ts:169-229 | A grading write leaves every other student, their rows and all sessions unchanged. |
| SessionService.GradingTotalsMatchRows | src/lib/services/grading-session.service.ts:180-207 | After a write with scores, the stored totals are the sums over the stored rows and the percentage is their ratio. |
| Store.Percentage | src/lib/services/grading-session.service.ts:198 | The percentage times the maximum is 100 times the total when the maximum is positive. It is 0 otherwise, so there is no division by zero. |
| Store.PercentageBounded | src/lib/services/task-monitor.service.ts:252 | A total between 0 and the maximum gives a percentage in [0, 100]. |
| Store.SessionStudents | src/lib/services/grading-session.service.ts:358-368 | Every listed student belongs to the session, and every student of the session found in the table is listed. |
| Store.SessionStudentsInOrder | src/lib/services/grading-session.service.ts:358-368 | One row per session member in table order, the i-th being the row of the i-th matching id, repeats included. |
| Store.AddLog | src/lib/services/grading-session.service.ts:288-313 | Appends the row when the log table accepts it. Otherwise the failure is swallowed and the database is unchanged. |
| Statuses.GradingNameInjective | src/lib/services/task-monitor.service.ts:327 | Distinct grading statuses have distinct reported names. |
| Validation.SessionIssues | src/lib/validations/grading-session.ts:3-16 | An issue is reported exactly when its check fails. String bounds are counted in UTF-16 code units. |
| Validation.ValidateSession | src/lib/validations/grading-session.ts:3-16 | Accepts exactly the inputs with a title of 1..255 UTF-16 code units, a subject of 1..100, a year of exactly 4, 1..1000 students and a parsable rubric, returning them unchanged. Otherwise reports at least one issue. |
| Text.Utf16LengthIsCount | src/lib/validations/grading-session.ts:4-6 | The code-unit length these bounds use equals the character count exactly when no character lies outside the Basic Multilingual Plane. |
| Validation.ParseFeedbackType | src/lib/validations/grading-session.ts:31 | Accepts exactly the four feedback type names. |
| Validation.FeedbackIssues | src/lib/validations/grading-session.ts:26-34 | A feedback issue is reported exactly when its check fails. |
| Validation.ValidateFeedback | src/lib/validations/grading-session.ts:26-34 | Accepts exactly the items with question id and text, score >= 0, maximum >= 1, a known type if given, and a confidence in [0, 1] if given. Type defaults to GENERAL and keywords to []. The other fields are kept. |
| LogView.FromWire | src/components/task-log-stream.tsx:86-106 | A new-format message (status, timestamp and message all present) gives the classified level, the status as context and the formatted time. Otherwise the message's own level and context are kept and the time is the formatted timestamp or now. The panel's tags are attached. |
| LogView.Receive | src/components/task-log-stream.tsx:107-111 | A paused panel holds the entry back and a live one displays it. Everything received, displayed or held, grows by exactly that entry. |
| LogView.Notice | src/components/task-log-stream.tsx:74-138 | A connection notice is displayed at once, ahead of any held-back entry, paused or not. |
| LogView.TogglePause | src/components/task-log-stream.tsx:158-164 | The flag flips and nothing received is lost or reordered. Resuming empties the buffer. |
| LogView.PausedReceiveAll | src/components/task-log-stream.tsx:107-108 | While paused, a run of entries only extends the buffer. |
| LogView.LiveReceiveAll | src/components/task-log-stream.tsx:109-110 | While live, a run of entries is displayed in order. |
| LogView.PauseThenResume | src/components/task-log-stream.tsx:107-164 | Pausing, receiving and resuming shows exactly what a never-paused panel shows. |
| LogView.ExportLine | src/components/task-log-stream.tsx:174 | An entry has a download line exactly when it has a level. |
| LogView.ExportLines | src/components/task-log-stream.tsx:174 | There are download lines exactly when every entry has a level: one per entry, in order. |
| LogView.ExportSplits | src/components/task-log-stream.tsx:174 | Splitting the export at newlines gives back one `[time] [LEVEL] message` line per entry, provided the fields are single lines. |
| TaskLogStream.LevelFromStatus | src/components/task-log-stream.tsx:205-211 | Error exactly when ERROR, FAILED or MISSING occurs. Otherwise Warning exactly when WARNING occurs. Otherwise Success exactly when COMPLETED or SUCCESS occurs. The empty status is Info. |
| TaskLogStream.ErrorOutranksSuccess | src/components/task-log-stream.tsx:207-209 | A status mentioning both ERROR and SUCCESS is an error. |
| TaskLogStream.ParseMessage | src/components/task-log-stream.tsx:86-112 | Exactly a parsable message yields an entry, which carries no task or student tag. |
| TaskLogStream.ParsedErrorLevel | src/components/task-log-stream.tsx:91-97 | A new-format entry is at error level exactly when its status names a failure, and its context is the status. |
| TaskLogStream.OnMessageAsWritten | src/components/task-log-stream.tsx:86-150 | The handler as written: the pause flag it sees is the one from when the socket opened. It buffers by that flag, not the current one. |
| TaskLogStream.OnMessage | src/components/task-log-stream.tsx:86-113 | The corrected handler buffers by the current pause flag. It keeps the panel consistent and adds exactly the parsed entry. |
| TaskLogStream.StalePauseStillDisplays | src/components/task-log-stream.tsx:107-150 | A panel paused after its socket opened still displays new entries under the handler as written, but not under the corrected one. |
| TaskLogStream.StalePauseStrandsEntries | src/components/task-log-stream.tsx:107-150 | A socket opened while paused keeps buffering after resume, which leaves a live panel with held-back entries. The corrected handler does not. |
| TaskLogStream.FilterLogs | src/components/task-log-stream.tsx:166-171 | The errors tab shows exactly the error and warning entries, in order. The system tab shows exactly the system entries. Any other tab shows everything. The result has one entry per shown entry of the input, repeats included. |
| SessionLogStream.LevelsAgree | src/components/session-log-stream.tsx:347-353 | The session panel classifies every status exactly as the task panel does. |
| SessionLogStream.StatusDispatch | src/components/session-log-stream.tsx:184-227 | COMPLETED/SUCCESS update to COMPLETED, FAILED/ERROR to FAILED, and PROCESSING/PROCESSING_PDF to PROCESSING. Nothing else sends an update, and none is ever PENDING. |
| SessionLogStream.VocabularyDisagreement | src/components/session-log-stream.tsx:184-227 | FAILURE and PROGRESS move the monitor but not the panel. FAILED and PROCESSING move the panel but not the monitor. |
| SessionLogStream.VocabulariesAgreeOnShared | src/components/session-log-stream.tsx:184-227 | On COMPLETED, SUCCESS, ERROR and PROCESSING_PDF the panel and the monitor agree. |
| SessionLogStream.Persisted | src/components/session-log-stream.tsx:165-176 | The saved log copies level and message. Its context is the entry's when present and "grading" otherwise, never empty. |
| SessionLogStream.HandleMessage | src/components/session-log-stream.tsx:133-242 | An unparsable message changes nothing. A parsed one is saved, dispatched as above and received under the pause flag given, as one step, tagged with the task and student. |
| SessionLogStream.FilterLogs | src/components/session-log-stream.tsx:296-301 | On a known tab, exactly the entries the tab shows for the selected student (if any), in order, one per shown entry of the input. An unknown tab shows everything. |
| SessionLogStream.NoStudentFiltersLikeTaskPanel | src/components/session-log-stream.tsx:296-301 | With no student selected, the filter equals the task panel's. |
| SessionLogStream.PresentNames | src/components/session-log-stream.tsx:295 | Exactly the non-empty student names of the tasks. |
| SessionLogStream.PresentNamesCount | src/components/session-log-stream.tsx:295 | There are exactly as many present names as tasks with a non-empty name, repeats included. |
| SessionLogStream.PresentNamesOfNamed | src/components/session-log-stream.tsx:295 | One name per task with a non-empty name, the i-th being the i-th such task's, repeats included. |
| SessionLogStream.StudentNames | src/components/session-log-stream.tsx:295 | The student list: distinct, non-empty, every named task's student included. It keeps first-appearance order: it is a subsequence of the present names, and its names are ordered by where each first occurs. |
| SessionLogStream.OpenPass | src/components/session-log-stream.tsx:103-116 | Opens a socket once for every task without one. |
| SessionLogStream.SocketsToOpen | src/components/session-log-stream.tsx:97-116 | Opens nothing unless the session is in progress or pending. Otherwise every task either already has a socket or gets one, and no id gets two in one pass. |
| SessionLogStream.RerunEffect | src/components/session-log-stream.tsx:90-276 | A re-run of the socket effect closes exactly the old sockets that are OPEN. The new registry holds a connecting socket for every task id of a live session and for nothing else. |
| SessionLogStream.RerunForgetsRegistry | src/components/session-log-stream.tsx:268-276 | The cleanup empties the registry, so what a re-run opens does not depend on the sockets held before it. |
| SessionLogStream.ConnectingSocketDoubled | src/components/session-log-stream.tsx:270-275 | A socket still connecting at a re-run is not closed, and its task gets a second socket. |
| SessionsPage.FilteredSessions | src/app/grading-sessions/page.tsx:152-164 | Exactly the sessions that match search, status and subject, in their original order. |
| SessionsPage.SearchIff | src/app/grading-sessions/page.tsx:153-154 | The search matches exactly when the lower-cased query occurs in the lower-cased title or subject. |
| SessionsPage.SearchIgnoresQueryCase | src/app/grading-sessions/page.tsx:153-154 | Upper-casing letters of the query does not change the search. |
| SessionsPage.NoFilterListsAll | src/app/grading-sessions/page.tsx:152-164 | An empty query with both filters at "all" lists every session. |
| SessionsPage.DeleteSession | src/app/grading-sessions/page.tsx:77-111 | Without confirmation or a successful response the list is unchanged. Otherwise exactly the sessions with other ids remain, in order. |
| SessionsPage.DeleteAbsentIsNoop | src/app/grading-sessions/page.tsx:97 | Deleting an id not in the list changes nothing. |
| SessionsPage.DeleteIdempotent | src/app/grading-sessions/page.tsx:97 | Deleting twice is deleting once. |
| SessionsPage.FormatStatus | src/app/grading-sessions/page.tsx:134-149 | A status is relabelled only when its lower-case form is one of the five known keys. |
| SessionsPage.FormatStatusNames | src/app/grading-sessions/page.tsx:134-149 | Every database status gets a label of its own, distinct from its raw name. |
| SessionsPage.FormatStatusIgnoresCase | src/app/grading-sessions/page.tsx:135 | Two spellings of a known status that differ only in case get the same label. |
| SessionsPage.LabelIsFixed | src/app/grading-sessions/page.tsx:134-149 | A label formats to itself. |
| SessionsPage.FormatStatusIdempotent | src/app/grading-sessions/page.tsx:134-149 | Formatting twice is formatting once. |
| SessionsPage.BadgeVariant | src/app/grading-sessions/page.tsx:121-132 | "default" exactly for completed and "secondary" exactly for in_progress, in any case. Otherwise "outline". |
| SessionsPage.BadgeVariantNames | src/app/grading-sessions/page.tsx:121-132 | Of the database statuses, only COMPLETED and IN_PROGRESS stand out. |
| StatusPolling.Check | src/hooks/use-session-status-polling.ts:31-59 | A poll reports a change exactly when it got a status different from the last one, and then remembers it. COMPLETED is signalled exactly on a change to COMPLETED, and it stops the polling. A failed poll changes nothing. |
| StatusPolling.RepeatIsSilent | src/hooks/use-session-status-polling.ts:42 | Polling the same status twice reports nothing the second time. |
| StatusPolling.CheckAllRemembersLatest | src/hooks/use-session-status-polling.ts:42-43 | After a run of polls, the remembered status is the last one received. |
| StatusPolling.FailedPollsChangeNothing | src/hooks/use-session-status-polling.ts:34-37 | Failed polls leave the hook as it was. |
| StatusPolling.StartPolling | src/hooks/use-session-status-polling.ts:87-91 | Polling runs afterwards exactly when it already ran, or when enabled with a session id. |
| StatusPolling.StopPolling | src/hooks/use-session-status-polling.ts:80-85 | Polling stops and the remembered status is kept. |
| StatusPolling.StartStopIdempotent | src/hooks/use-session-status-polling.ts:80-91 | Starting twice is starting once, and so is stopping. |
| StatusPolling.Mount | src/hooks/use-session-status-polling.ts:61-78 | Disabled or without a session id, nothing happens. Otherwise the first check runs and polling continues unless it saw COMPLETED. |
| StatusPolling.MountOnCompleted | src/hooks/use-session-status-polling.ts:42-70 | A session already COMPLETED at mount signals the change, then completion, and polling stops. |
| StudentUpload.NameChange | src/components/student-upload-step.tsx:26-28 | Only the students with that id get the new name. The list keeps its length and order. |
| StudentUpload.NameChangeLastWins | src/components/student-upload-step.tsx:26-28 | Of two renames of one student, the last wins. |
| StudentUpload.FileUpload | src/components/student-upload-step.tsx:30-45 | A non-PDF file is rejected and nothing changes. Otherwise the file, or none, is set on that student. |
| StudentUpload.RemoveFile | src/components/student-upload-step.tsx:68-70 | Only that student loses the file. |
| StudentUpload.UploadsKeepOnlyPdfs | src/components/student-upload-step.tsx:30-38 | If every attached file is a PDF before an upload, that still holds after it. |
| StudentUpload.NextStudent | src/components/student-upload-step.tsx:56-60 | Moves one on exactly when a later student exists. |
| StudentUpload.PreviousStudent | src/components/student-upload-step.tsx:62-66 | Moves one back exactly when not at the first student. |
| StudentUpload.NavigationInBounds | src/components/student-upload-step.tsx:56-66 | Navigation stays within the list. Where a move happens, previous and next undo each other. |
| StudentUpload.NextEnabledMoves | src/components/student-upload-step.tsx:160-164 | When the Next button is enabled, pressing it moves on. |
| NewSessionWizard.SessionRequestOf | src/app/grading-sessions/new/page.tsx:80-99 | With a session id the request is a PATCH; otherwise it is a POST. |
| NewSessionWizard.TempId | src/app/grading-sessions/new/page.tsx:128 | Temporary ids start with "student-". |
| NewSessionWizard.FreshStudents | src/app/grading-sessions/new/page.tsx:127-131 | As many empty students as requested (none for a non-positive count), with temporary ids. |
| NewSessionWizard.ConfigStep | src/app/grading-sessions/new/page.tsx:44-136 | Advances exactly when all fields are filled, the rubric parses and the request succeeds. Otherwise the wizard is unchanged with the fitting notice. On success: step 2, the session id kept or set, and the list rebuilt only when empty or of the wrong size. |
| NewSessionWizard.ConfigStepSizesList | src/app/grading-sessions/new/page.tsx:126-133 | After step 1 the list has exactly the requested number of students. |
| NewSessionWizard.FindCreated | src/app/grading-sessions/new/page.tsx:193-195 | The first created record that matches the student by temporary id or by name, or none if none matches. |
| NewSessionWizard.Remapped | src/app/grading-sessions/new/page.tsx:192-201 | Only the id can change, and only to the id of a matching created record. An unmatched student is unchanged. |
| NewSessionWizard.RemapAll | src/app/grading-sessions/new/page.tsx:192-201 | Each student is remapped independently, in order. |
| NewSessionWizard.StudentsStep | src/app/grading-sessions/new/page.tsx:138-216 | Advances to step 3 with the remapped list exactly when every student has a name and file, a session exists and the save succeeds. Otherwise the wizard is unchanged with the fitting notice. |
| NewSessionWizard.NextStep | src/app/grading-sessions/new/page.tsx:44-225 | Dispatches on the step. Step 3 before grading asks to start grading. The step moves by at most one and grading-started is untouched. |
| NewSessionWizard.PreviousStep | src/app/grading-sessions/new/page.tsx:227-230 | Once grading has started, going back does nothing. Otherwise it goes one step back. |
| NewSessionWizard.Graded | src/app/grading-sessions/new/page.tsx:241-327 | A student without a file is skipped. An accepted upload gives PENDING with its task id. A rejected upload gives "Error" and a network failure "Error - Network", both without a task id. |
| NewSessionWizard.TaskIdWrite | src/app/grading-sessions/new/page.tsx:281-315 | The task id is written to the database exactly for started uploads with a task id and a non-empty database id, never for a temporary id. |
| NewSessionWizard.StartGrading | src/app/grading-sessions/new/page.tsx:232-354 | Every student is graded by its own upload answer. Grading counts as started exactly when some upload started, and only then does the wizard advance. The database writes are exactly those of the students, in order. |
| NewSessionWizard.NoWritesForTempIds | src/app/grading-sessions/new/page.tsx:286 | No task-id write targets a temporary id. |
| NewSessionWizard.WritesBounded | src/app/grading-sessions/new/page.tsx:283-343 | At most one write per student, and any write implies that grading started. |
| NewSessionWizard.StepsKeepReachable | src/app/grading-sessions/new/page.tsx:44-230 | Next, and Previous when enabled, keep the wizard at step 1 or later, and past the review step once grading started. |
| NewSessionWizard.StartGradingReachable | src/app/grading-sessions/new/page.tsx:332-343 | Starting grading from the review step ends at step 4 when it starts, keeping the wizard reachable. |

## Left out

- The HTTP fetch of the task status, with its missing-URL error, timeout and HTTP errors, becomes the `fetch` oracle. Its error text is the oracle's.
- WebSocket connection and reconnection timers, scrolling, toasts, `console` output, React rendering and the API routes are not modelled.
- `getMonitoringStats`, `createSession`, `getSession`, `updateSession`, `addStudent`, `getSessionLogs`, `getUserSessions` and `getActiveSessionsForStatusCheck` are plain database reads or writes outside this model.
- `MAX_RETRIES` is declared in the monitor but never used, so it has no counterpart.
- The text of the batch's per-student log lines ("status updated from", "Failed to check task status") is computed by `BatchStep` but stated by no contract. The contracts state how many lines are appended, their level and their session.
- TaskMonitor.CheckStudent: requires the student's row to exist. Every caller reads the snapshot from the table just before, so the case where the row has vanished is not modelled.
- Concurrent runs of the batch, and a crash in the middle of one, are not modelled. Each database write is one atomic step.
- Floating-point rounding is not modelled. Numbers are exact reals.
- The text of the connection notices, and the ISO time they use, are left to the caller of `LogView.Notice`.
- The request payloads of the session panel's status updates (`result`, `error`) and the `details`/`metadata` field of a saved log are not modelled. Only the chosen status and the saved level, message, context and student are.
- Loading historical logs into the session panel is not modelled.
- The sockets' own life (connecting, opening, closing by the server) is outside the model. `RerunEffect` takes their states at the moment of a re-run as given. Because the cleanup closes only OPEN sockets, a socket still CONNECTING survives it, and its task can end up with two live sockets. The model states this and does not correct it.
- SessionLogStream.HandleMessage: the handler is modelled as one atomic step under the pause flag it is given. In the source it is async: it awaits the log request (165-181) and the status requests (184-227) before reading its closure's `isPaused` (229). An entry whose message arrives before a resume can therefore land in the buffer of a panel that is no longer paused, and concurrent messages are shown in the order their requests complete. Neither interleaving is modelled.
- In the old wire format an entry spreads every field of the message. The model keeps level, context and message; an absent message becomes "".
- `parseInt` of the student count and a count that is not a number are not modelled. The count is an integer.
- The submitting, creating and persisting button flags appear only through `PreviousEnabled`.
- SessionService.GradingFrame: the frame follows directly from the definition, so it carries no proof of its own.
- TaskMonitor.CheckSpecificTask: when the student row was written but the session recheck then fails, the report is ERROR with no update even though the row changed. The model states this as the source does.
- TaskMonitor.ConfidenceOrNull: a confidence of 0 is stored as null, as the source's `|| null` does. This is kept as written, not corrected.
- SessionLogStream.FilterLogs: an unknown tab shows every entry even with a student selected, as in the source.

## Findings

| source | as written | input that shows it | evidently intended | confidence | as-written member | corrected member |
|---|---|---|---|---|---|---|
| src/components/task-log-stream.tsx:107-150 | The message handler reads `isPaused` from the render that opened the socket, because the effect depends only on the task id and the connect flag. Pausing afterwards does not hold messages back. A socket opened while paused keeps buffering after resume, and the buffered entries stay hidden until the panel is paused and resumed again. | Pause the panel after it has connected, then receive one new-format message: it is displayed anyway. Or connect while paused, resume, then receive a message: it goes to the buffer of a live panel. | Buffer exactly while the panel is currently paused, as the session panel does for sockets opened after the toggle. | not executed | TaskLogStream.OnMessageAsWritten (shown by TaskLogStream.StalePauseStillDisplays and TaskLogStream.StalePauseStrandsEntries) | TaskLogStream.OnMessage |

=== FILE: grading_session_service.dfy ===
/**
  The session side of grading: the decision table that derives a session's
  status from its students, the timestamps stamped on a status change, the
  statistics computed when a session completes, and the grading write for one
  student. Every operation that throws in the service returns `Err`.
 */
module SessionService {
  import opened Wrappers
  import opened Statuses
  import opened Store
  import Validation
  import Seqs

  // ---------------------------------------------------------------------------
  // Decision table

  function CountStatus(s: seq<GradingStatus>, g: GradingStatus): (n: nat)
    ensures n <= |s|
  {
    if |s| == 0 then 0 else (if s[0] == g then 1 else 0) + CountStatus(s[1..], g)
  }

  /** The status `checkAndUpdateSessionStatus` computes from the current one and the students'. */
  function NextSessionStatus(current: SessionStatus, statuses: seq<GradingStatus>): SessionStatus {
    var total := |statuses|;
    var completed := CountStatus(statuses, GradingStatus.Completed);
    var failed := CountStatus(statuses, GradingStatus.Failed);
    var processing := CountStatus(statuses, GradingStatus.Processing);
    if completed == total && total > 0 then SessionStatus.Completed
    else if completed + failed == total && total > 0 then SessionStatus.Completed
    else if processing > 0 || completed > 0 then SessionStatus.InProgress
    else current
  }

  /** Every student has a terminal status, and there is at least one. */
  predicate AllResolved(s: seq<GradingStatus>) {
    |s| > 0 && forall i :: 0 <= i < |s| ==> s[i].IsTerminal()
  }

  /** Some student is processing or completed. */
  predicate AnyStarted(s: seq<GradingStatus>) {
    exists i :: 0 <= i < |s| && (s[i] == GradingStatus.Processing || s[i] == GradingStatus.Completed)
  }

  lemma {:induction false} CountPositiveIff(s: seq<GradingStatus>, g: GradingStatus)
    ensures CountStatus(s, g) > 0 <==> exists i :: 0 <= i < |s| && s[i] == g
    decreases |s|
  {
    if |s| > 0 {
      CountPositiveIff(s[1..], g);
      if exists i :: 0 <= i < |s| && s[i] == g {
        var i :| 0 <= i < |s| && s[i] == g;
        if i > 0 {
          assert s[1..][i - 1] == g;
        }
      }
      if exists i :: 0 <= i < |s[1..]| && s[1..][i] == g {
        var i :| 0 <= i < |s[1..]| && s[1..][i] == g;
        assert s[i + 1] == g;
      }
    }
  }

  lemma {:induction false} ResolvedCountIff(s: seq<GradingStatus>)
    ensures CountStatus(s, GradingStatus.Completed) + CountStatus(s, GradingStatus.Failed) == |s|
      <==> forall i :: 0 <= i < |s| ==> s[i].IsTerminal()
    decreases |s|
  {
    if |s| > 0 {
      ResolvedCountIff(s[1..]);
      if forall i :: 0 <= i < |s| ==> s[i].IsTerminal() {
        assert forall i :: 0 <= i < |s[1..]| ==> s[1..][i].IsTerminal() by {
          forall i | 0 <= i < |s[1..]| ensures s[1..][i].IsTerminal() {
            assert s[1..][i] == s[i + 1];
          }
        }
      }
      if CountStatus(s, GradingStatus.Completed) + CountStatus(s, GradingStatus.Failed) == |s| {
        var c1 := CountStatus(s[1..], GradingStatus.Completed);
        var f1 := CountStatus(s[1..], GradingStatus.Failed);
        assert c1 + f1 <= |s[1..]| by {
          CountsDisjoint(s[1..]);
        }
        assert s[0].IsTerminal();
        assert c1 + f1 == |s[1..]|;
        forall i | 0 <= i < |s| ensures s[i].IsTerminal() {
          if i > 0 {
            assert s[1..][i - 1] == s[i];
          }
        }
      }
    }
  }

  /** Completed and failed students are counted apart, so together at most all of them. */
  lemma {:induction false} CountsDisjoint(s: seq<GradingStatus>)
    ensures CountStatus(s, GradingStatus.Completed) + CountStatus(s, GradingStatus.Failed) <= |s|
    decreases |s|
  {
    if |s| > 0 {
      CountsDisjoint(s[1..]);
    }
  }

  /**
    The decision table: a session whose students are all terminal is
    COMPLETED; otherwise one with a processing or completed student is
    IN_PROGRESS, whatever its current status; otherwise (also with no
    students) the status is left as it is.
   */
  lemma SessionDecisionTable(current: SessionStatus, s: seq<GradingStatus>)
    ensures AllResolved(s) ==> NextSessionStatus(current, s) == SessionStatus.Completed
    ensures !AllResolved(s) && AnyStarted(s) ==> NextSessionStatus(current, s) == SessionStatus.InProgress
    ensures !AllResolved(s) && !AnyStarted(s) ==> NextSessionStatus(current, s) == current
  {
    ResolvedCountIff(s);
    CountsDisjoint(s);
    CountPositiveIff(s, GradingStatus.Processing);
    CountPositiveIff(s, GradingStatus.Completed);
    if AnyStarted(s) {
      var i :| 0 <= i < |s| && (s[i] == GradingStatus.Processing || s[i] == GradingStatus.Completed);
      if s[i] == GradingStatus.Processing {
        assert CountStatus(s, GradingStatus.Processing) > 0;
      } else {
        assert CountStatus(s, GradingStatus.Completed) > 0;
      }
    }
  }

  // ---------------------------------------------------------------------------
  // Status write

  /** `updateSessionStatus`: writes the status, stamps the transition, then logs it. */
  function UpdateSessionStatus(db: Db, sid: string, status: SessionStatus, now: int, sinkUp: bool): (r: Result<Db, string>)
    ensures r.Err? <==> sid !in db.sessions
    ensures r.Ok? ==>
      var old_ := db.sessions[sid];
      && sid in r.value.sessions
      && var s := r.value.sessions[sid];
      && s.status == status
      && s.updatedAt == now
      && s.startedAt == (if status == SessionStatus.InProgress then Some(now) else old_.startedAt)
      && s.completedAt == (if status == SessionStatus.Completed then Some(now) else old_.completedAt)
      && s.id == old_.id && s.stats == old_.stats
      && r.value.sessions == db.sessions[sid := s]
      && r.value.(sessions := db.sessions, logs := db.logs) == db
      && (sinkUp ==> r.value.logs == db.logs + [LogRow(sid, Info, "Session status changed to " + status.Name(), "system", None)])
      && (!sinkUp ==> r.value.logs == db.logs)
  {
    if sid !in db.sessions then Err("Failed to update session status")
    else
      var s := db.sessions[sid];
      var stamped := s.(
        status := status,
        updatedAt := now,
        startedAt := if status == SessionStatus.InProgress then Some(now) else s.startedAt,
        completedAt := if status == SessionStatus.Completed then Some(now) else s.completedAt);
      var db1 := db.(sessions := db.sessions[sid := stamped]);
      Ok(AddLog(db1, LogRow(sid, Info, "Session status changed to " + status.Name(), "system", None), sinkUp).0)
  }

  // ---------------------------------------------------------------------------
  // Statistics

  function Sum(ps: seq<real>): real {
    if |ps| == 0 then 0.0 else ps[0] + Sum(ps[1..])
  }

  function MaxOf(ps: seq<real>): (m: real)
    requires |ps| > 0
    ensures m in ps
    ensures forall p :: p in ps ==> p <= m
  {
    if |ps| == 1 then ps[0]
    else
      var rest := MaxOf(ps[1..]);
      assert forall p :: p in ps ==> p == ps[0] || p in ps[1..];
      if ps[0] >= rest then ps[0] else rest
  }

  function MinOf(ps: seq<real>): (m: real)
    requires |ps| > 0
    ensures m in ps
    ensures forall p :: p in ps ==> m <= p
  {
    if |ps| == 1 then ps[0]
    else
      var rest := MinOf(ps[1..]);
      assert forall p :: p in ps ==> p == ps[0] || p in ps[1..];
      if ps[0] <= rest then ps[0] else rest
  }

  /** Number of passing percentages (at least 50). */
  function CountPassing(ps: seq<real>): (n: nat)
    ensures n <= |ps|
  {
    if |ps| == 0 then 0 else (if ps[0] >= 50.0 then 1 else 0) + CountPassing(ps[1..])
  }

  /** A sum of values of at least `lo` is at least `n lo`. */
  lemma {:induction false} SumAtLeast(ps: seq<real>, lo: real)
    requires forall p :: p in ps ==> lo <= p
    ensures (|ps| as real) * lo <= Sum(ps)
    decreases |ps|
  {
    if |ps| > 0 {
      var rest := ps[1..];
      assert forall p :: p in rest ==> p in ps;
      SumAtLeast(rest, lo);
      assert ps[0] in ps;
      var m := |rest| as real;
      assert (m + 1.0) * lo == m * lo + lo;
    }
  }

  /** A sum of values of at most `hi` is at most `n hi`. */
  lemma {:induction false} SumAtMost(ps: seq<real>, hi: real)
    requires forall p :: p in ps ==> p <= hi
    ensures Sum(ps) <= (|ps| as real) * hi
    decreases |ps|
  {
    if |ps| > 0 {
      var rest := ps[1..];
      assert forall p :: p in rest ==> p in ps;
      SumAtMost(rest, hi);
      assert ps[0] in ps;
      var m := |rest| as real;
      assert (m + 1.0) * hi == m * hi + hi;
    }
  }

  lemma DivideBounds(n: real, lo: real, total: real, hi: real)
    requires n > 0.0
    requires n * lo <= total <= n * hi
    ensures lo <= total / n <= hi
  {
    var q := total / n;
    assert q * n == total;
    assert (q - lo) * n >= 0.0;
    assert (hi - q) * n >= 0.0;
  }

  /** The mean of values in `[lo, hi]` lies in `[lo, hi]`. */
  lemma MeanBetween(ps: seq<real>, lo: real, hi: real)
    requires |ps| > 0
    requires forall p :: p in ps ==> lo <= p <= hi
    ensures lo <= Sum(ps) / (|ps| as real) <= hi
  {
    SumAtLeast(ps, lo);
    SumAtMost(ps, hi);
    DivideBounds(|ps| as real, lo, Sum(ps), hi);
  }

  lemma QuotientTimesDivisor(a: real, n: real)
    requires n > 0.0
    ensures (a / n) * n == a
  {
  }

  /** The mean lies between the least and the greatest value. */
  lemma AverageBetween(ps: seq<real>)
    requires |ps| > 0
    ensures MinOf(ps) <= Sum(ps) / (|ps| as real) <= MaxOf(ps)
  {
    MeanBetween(ps, MinOf(ps), MaxOf(ps));
  }

  /** A share of `count` out of `n`, as a percentage, lies in [0, 100]. */
  lemma RateBounds(count: nat, n: nat)
    requires 0 < n && count <= n
    ensures 0.0 <= (count as real / n as real) * 100.0 <= 100.0
    ensures ((count as real / n as real) * 100.0) * (n as real) == 100.0 * (count as real)
  {
    DivideBounds(n as real, 0.0, count as real, 1.0);
    var q := count as real / n as real;
    assert q * (n as real) == count as real;
    assert (q * 100.0) * (n as real) == 100.0 * (q * (n as real));
  }

  /** The average of a non-empty list. */
  function Mean(ps: seq<real>): real
    requires |ps| > 0
  {
    Sum(ps) / (|ps| as real)
  }

  /** The average lies between the least and the greatest value. */
  lemma MeanBounds(ps: seq<real>)
    requires |ps| > 0
    ensures MinOf(ps) <= Mean(ps) <= MaxOf(ps)
  {
    AverageBetween(ps);
  }

  /** The average times the count gives back the sum. */
  lemma MeanTimesCount(ps: seq<real>)
    requires |ps| > 0
    ensures Mean(ps) * (|ps| as real) == Sum(ps)
  {
    QuotientTimesDivisor(Sum(ps), |ps| as real);
  }

  /** The share of passing values, as a percentage. */
  function PassingRate(ps: seq<real>): (rate: real)
    requires |ps| > 0
    ensures 0.0 <= rate <= 100.0
    ensures rate * (|ps| as real) == 100.0 * (CountPassing(ps) as real)
  {
    RateBounds(CountPassing(ps), |ps|);
    (CountPassing(ps) as real / |ps| as real) * 100.0
  }

  /**
    `calculateSessionStatistics` over the chosen percentages: nothing for no
    percentages; otherwise average, highest, lowest and the share passing.
   */
  function Statistics(ps: seq<real>): (r: Option<Stats>)
    ensures r.None? <==> |ps| == 0
    ensures r.Some? ==>
      && r.value.lowest <= r.value.average <= r.value.highest
      && r.value.lowest in ps && r.value.highest in ps
      && (forall p :: p in ps ==> r.value.lowest <= p <= r.value.highest)
      && 0.0 <= r.value.passingRate <= 100.0
      && r.value.average == Mean(ps) && r.value.passingRate == PassingRate(ps)
  {
    if |ps| == 0 then None
    else
      MeanBounds(ps);
      Some(Stats(Mean(ps), MaxOf(ps), MinOf(ps), PassingRate(ps)))
  }

  /** The percentages statistics are taken over: completed students that have one, in table order. */
  function CompletedPercentages(students: seq<Student>): (ps: seq<real>)
    ensures |ps| <= |students|
    ensures forall p :: p in ps <==> exists s :: s in students && s.status == GradingStatus.Completed && s.percentage == Some(p)
  {
    if |students| == 0 then []
    else
      var rest := CompletedPercentages(students[1..]);
      assert forall s :: s in students <==> s == students[0] || s in students[1..];
      var s := students[0];
      if s.status == GradingStatus.Completed && s.percentage.Some? then [s.percentage.value] + rest else rest
  }

  /** A student whose percentage enters the statistics. */
  predicate GradedWithPercentage(s: Student) {
    s.status == GradingStatus.Completed && s.percentage.Some?
  }

  /**
    `CompletedPercentages` has one value per completed student with a
    percentage, the i-th being the i-th such student's, repeats included.
   */
  lemma {:induction false} CompletedPercentagesInOrder(students: seq<Student>)
    ensures var ps, done := CompletedPercentages(students), Seqs.Filter(students, GradedWithPercentage);
      && |ps| == |done| == Seqs.CountIf(students, GradedWithPercentage)
      && forall i :: 0 <= i < |ps| ==> done[i].percentage == Some(ps[i])
    decreases |students|
  {
    if |students| > 0 {
      CompletedPercentagesInOrder(students[1..]);
      var rest, done' := CompletedPercentages(students[1..]), Seqs.Filter(students[1..], GradedWithPercentage);
      if GradedWithPercentage(students[0]) {
        assert CompletedPercentages(students) == [students[0].percentage.value] + rest;
        assert Seqs.Filter(students, GradedWithPercentage) == [students[0]] + done';
      } else {
        assert CompletedPercentages(students) == rest;
        assert Seqs.Filter(students, GradedWithPercentage) == done';
      }
    }
  }

  function SessionPercentages(db: Db, sid: string): seq<real> {
    CompletedPercentages(SessionStudents(db.order, db.students, sid))
  }

  /** `calculateSessionStatistics`: with no completed percentage nothing is written. */
  function CalculateSessionStatistics(db: Db, sid: string): (r: Result<Db, string>)
    ensures |SessionPercentages(db, sid)| == 0 ==> r == Ok(db)
    ensures |SessionPercentages(db, sid)| > 0 ==> (r.Err? <==> sid !in db.sessions)
    ensures |SessionPercentages(db, sid)| > 0 && r.Ok? ==>
      && sid in r.value.sessions
      && r.value.sessions == db.sessions[sid := db.sessions[sid].(stats := Statistics(SessionPercentages(db, sid)))]
      && r.value.(sessions := db.sessions) == db
  {
    var ps := SessionPercentages(db, sid);
    if |ps| == 0 then Ok(db)
    else if sid !in db.sessions then Err("Failed to calculate session statistics")
    else Ok(db.(sessions := db.sessions[sid := db.sessions[sid].(stats := Statistics(ps))]))
  }

  // ---------------------------------------------------------------------------
  // Session recheck

  /** The status the decision table gives session `sid` in `db`. */
  function Recomputed(db: Db, sid: string): SessionStatus
    requires sid in db.sessions
  {
    NextSessionStatus(db.sessions[sid].status, StatusesOf(SessionStudents(db.order, db.students, sid)))
  }

  /**
    `checkAndUpdateSessionStatus`: recompute; write only on a change; on a
    change into COMPLETED also recompute the statistics.
   */
  function CheckAndUpdateSessionStatus(db: Db, sid: string, now: int, sinkUp: bool): (r: Result<Db, string>)
    ensures r.Err? <==> sid !in db.sessions
    ensures r.Ok? && Recomputed(db, sid) == db.sessions[sid].status ==> r.value == db
    ensures r.Ok? && Recomputed(db, sid) != db.sessions[sid].status ==>
      && sid in r.value.sessions
      && r.value.sessions[sid].status == Recomputed(db, sid)
      && r.value.sessions[sid].updatedAt == now
  {
    if sid !in db.sessions then Err("Failed to check and update session status")
    else
      var next := Recomputed(db, sid);
      if next == db.sessions[sid].status then Ok(db)
      else
        var db1 := UpdateSessionStatus(db, sid, next, now, sinkUp).value;
        if next == SessionStatus.Completed then
          assert SessionPercentages(db1, sid) == SessionPercentages(db, sid);
          var db2 := CalculateSessionStatistics(db1, sid);
          assert db2.Ok?;
          db2
        else Ok(db1)
  }

  /** A recheck touches only the session it rechecks, and appends at most its log line. */
  lemma RecheckFrame(db: Db, sid: string, now: int, sinkUp: bool)
    requires CheckAndUpdateSessionStatus(db, sid, now, sinkUp).Ok?
    ensures var r := CheckAndUpdateSessionStatus(db, sid, now, sinkUp).value;
      && r.order == db.order && r.students == db.students
      && r.scores == db.scores && r.feedback == db.feedback
      && r.sessions.Keys == db.sessions.Keys
      && (forall k :: k in db.sessions && k != sid ==> r.sessions[k] == db.sessions[k])
  {
    var next := Recomputed(db, sid);
    if next != db.sessions[sid].status {
      var db1 := UpdateSessionStatus(db, sid, next, now, sinkUp).value;
      assert db1.order == db.order && db1.students == db.students;
    }
  }

  /**
    Statistics are written only when a recheck moves the session into
    COMPLETED, and then they are the statistics of the session's completed
    percentages (when there is at least one).
   */
  lemma RecheckStatistics(db: Db, sid: string, now: int, sinkUp: bool)
    requires CheckAndUpdateSessionStatus(db, sid, now, sinkUp).Ok?
    ensures var r := CheckAndUpdateSessionStatus(db, sid, now, sinkUp).value;
      && sid in r.sessions
      && (r.sessions[sid].stats != db.sessions[sid].stats ==>
            Recomputed(db, sid) == SessionStatus.Completed && db.sessions[sid].status != SessionStatus.Completed)
      && (Recomputed(db, sid) == SessionStatus.Completed && db.sessions[sid].status != SessionStatus.Completed
          && |SessionPercentages(db, sid)| > 0 ==>
            r.sessions[sid].stats == Statistics(SessionPercentages(db, sid)))
  {
    var next := Recomputed(db, sid);
    if next != db.sessions[sid].status {
      var db1 := UpdateSessionStatus(db, sid, next, now, sinkUp).value;
      assert db1.sessions[sid].stats == db.sessions[sid].stats;
      assert SessionPercentages(db1, sid) == SessionPercentages(db, sid);
    }
  }

  /**
    Rechecking a session is idempotent: a second recheck of the store the
    first one produced writes nothing, so no duplicate status log either.
   */
  lemma RecheckIdempotent(db: Db, sid: string, now: int, later: int, sinkUp: bool)
    requires CheckAndUpdateSessionStatus(db, sid, now, sinkUp).Ok?
    ensures var db1 := CheckAndUpdateSessionStatus(db, sid, now, sinkUp).value;
      CheckAndUpdateSessionStatus(db1, sid, later, sinkUp) == Ok(db1)
  {
    var db1 := CheckAndUpdateSessionStatus(db, sid, now, sinkUp).value;
    var statuses := StatusesOf(SessionStudents(db.order, db.students, sid));
    assert StatusesOf(SessionStudents(db1.order, db1.students, sid)) == statuses;
    var next := NextSessionStatus(db.sessions[sid].status, statuses);
    assert NextSessionStatus(next, statuses) == next;
  }

  /**
    The record a session holds after a recheck, stated from the table's
    students and the session alone: unchanged when the decision table keeps
    its status; otherwise restamped and, on a move into COMPLETED with some
    completed percentage, given their statistics.
   */
  function RecheckedSession(order: seq<string>, students: map<string, Student>, sid: string, s: Session, now: int): Session {
    var members := SessionStudents(order, students, sid);
    var next := NextSessionStatus(s.status, StatusesOf(members));
    if next == s.status then s
    else
      var ps := CompletedPercentages(members);
      s.(status := next, updatedAt := now,
         startedAt := if next == SessionStatus.InProgress then Some(now) else s.startedAt,
         completedAt := if next == SessionStatus.Completed then Some(now) else s.completedAt,
         stats := if next == SessionStatus.Completed && |ps| > 0 then Statistics(ps) else s.stats)
  }

  /** `RecheckWritesSession` for a recheck that changes the status into something but COMPLETED. */
  lemma RecheckWritesStarted(db: Db, sid: string, now: int, sinkUp: bool)
    requires sid in db.sessions
    requires Recomputed(db, sid) != db.sessions[sid].status && Recomputed(db, sid) != SessionStatus.Completed
    ensures CheckAndUpdateSessionStatus(db, sid, now, sinkUp).Ok?
    ensures CheckAndUpdateSessionStatus(db, sid, now, sinkUp).value.sessions
      == db.sessions[sid := RecheckedSession(db.order, db.students, sid, db.sessions[sid], now)]
  {
    var db1 := UpdateSessionStatus(db, sid, Recomputed(db, sid), now, sinkUp).value;
    assert CheckAndUpdateSessionStatus(db, sid, now, sinkUp) == Ok(db1);
  }

  /** `RecheckWritesSession` for a recheck that moves the session into COMPLETED. */
  lemma RecheckWritesCompleted(db: Db, sid: string, now: int, sinkUp: bool)
    requires sid in db.sessions
    requires Recomputed(db, sid) != db.sessions[sid].status && Recomputed(db, sid) == SessionStatus.Completed
    ensures CheckAndUpdateSessionStatus(db, sid, now, sinkUp).Ok?
    ensures CheckAndUpdateSessionStatus(db, sid, now, sinkUp).value.sessions
      == db.sessions[sid := RecheckedSession(db.order, db.students, sid, db.sessions[sid], now)]
  {
    var s1 := RecheckedSession(db.order, db.students, sid, db.sessions[sid], now);
    var db1 := UpdateSessionStatus(db, sid, SessionStatus.Completed, now, sinkUp).value;
    var stamped := db1.sessions[sid];
    var ps := SessionPercentages(db, sid);
    assert SessionPercentages(db1, sid) == ps;
    var db2 := CalculateSessionStatistics(db1, sid);
    assert CheckAndUpdateSessionStatus(db, sid, now, sinkUp) == db2;
    if |ps| > 0 {
      assert db2.value.sessions == db1.sessions[sid := s1];
    } else {
      assert s1 == stamped;
    }
  }

  /**
    A recheck of `sid` replaces exactly that session's record, by the record
    `RecheckedSession` gives; so what it writes depends on nothing but the
    students and that session.
   */
  lemma RecheckWritesSession(db: Db, sid: string, now: int, sinkUp: bool)
    requires sid in db.sessions
    ensures CheckAndUpdateSessionStatus(db, sid, now, sinkUp).Ok?
    ensures CheckAndUpdateSessionStatus(db, sid, now, sinkUp).value.sessions
      == db.sessions[sid := RecheckedSession(db.order, db.students, sid, db.sessions[sid], now)]
  {
    var next := Recomputed(db, sid);
    if next == db.sessions[sid].status {
      assert db.sessions[sid := db.sessions[sid]] == db.sessions;
    } else if next == SessionStatus.Completed {
      RecheckWritesCompleted(db, sid, now, sinkUp);
    } else {
      RecheckWritesStarted(db, sid, now, sinkUp);
    }
  }

  /** A rechecked record is a fixed point: rechecking it again, at any time, keeps it. */
  lemma RecheckedSessionStable(order: seq<string>, students: map<string, Student>, sid: string, s: Session, now: int, later: int)
    ensures var s1 := RecheckedSession(order, students, sid, s, now);
      RecheckedSession(order, students, sid, s1, later) == s1
  {
    var statuses := StatusesOf(SessionStudents(order, students, sid));
    var next := NextSessionStatus(s.status, statuses);
    assert NextSessionStatus(next, statuses) == next;
  }

  // ---------------------------------------------------------------------------
  // Grading write for one student

  datatype ScoreInput = ScoreInput(questionId: string, score: real, maxScore: real)

  /** `scores.reduce((sum, s) => sum + s.score, 0)`. */
  function TotalOf(scores: seq<ScoreInput>): real {
    if |scores| == 0 then 0.0 else TotalOf(scores[..|scores| - 1]) + scores[|scores| - 1].score
  }

  /** `scores.reduce((sum, s) => sum + s.maxScore, 0)`. */
  function MaxTotalOf(scores: seq<ScoreInput>): real {
    if |scores| == 0 then 0.0 else MaxTotalOf(scores[..|scores| - 1]) + scores[|scores| - 1].maxScore
  }

  /** The question-score rows created for `scores`, one per input, in order. */
  function ScoreRows(scores: seq<ScoreInput>): (rows: seq<QuestionScore>)
    ensures |rows| == |scores|
    ensures forall i :: 0 <= i < |scores| ==>
      rows[i] == QuestionScore(scores[i].questionId, scores[i].score, scores[i].maxScore)
  {
    seq(|scores|, i requires 0 <= i < |scores| => QuestionScore(scores[i].questionId, scores[i].score, scores[i].maxScore))
  }

  /** The feedback rows created for `feedback`, one per input, in order. */
  function FeedbackRows(feedback: seq<Validation.FeedbackInput>): (rows: seq<Feedback>)
    ensures |rows| == |feedback|
    ensures forall i :: 0 <= i < |feedback| ==>
      rows[i] == Feedback(feedback[i].questionId, feedback[i].feedback, feedback[i].kind,
                          feedback[i].confidence, Some(feedback[i].keywords))
  {
    seq(|feedback|, i requires 0 <= i < |feedback| =>
      Feedback(feedback[i].questionId, feedback[i].feedback, feedback[i].kind,
               feedback[i].confidence, Some(feedback[i].keywords)))
  }

  /** Sum of the scores of stored rows. */
  function RowTotal(rows: seq<QuestionScore>): real {
    if |rows| == 0 then 0.0 else RowTotal(rows[..|rows| - 1]) + rows[|rows| - 1].score
  }

  /** Sum of the maxima of stored rows. */
  function RowMaxTotal(rows: seq<QuestionScore>): real {
    if |rows| == 0 then 0.0 else RowMaxTotal(rows[..|rows| - 1]) + rows[|rows| - 1].maxScore
  }

  /** The student row after a grading write: task, status, grading time and, given scores, the totals. */
  function GradedRow(s: Student, taskId: string, status: GradingStatus, scores: seq<ScoreInput>, now: int): (s': Student)
    ensures s'.taskId == Some(taskId) && s'.status == status
    ensures s'.gradedAt == (if status == GradingStatus.Completed then Some(now) else s.gradedAt)
    ensures s'.id == s.id && s'.name == s.name && s'.sessionId == s.sessionId
    ensures |scores| > 0 ==>
      && s'.totalScore == Some(TotalOf(scores))
      && s'.maxScore == Some(MaxTotalOf(scores))
      && s'.percentage == Some(Percentage(TotalOf(scores), MaxTotalOf(scores)))
    ensures |scores| == 0 ==>
      s'.totalScore == s.totalScore && s'.maxScore == s.maxScore && s'.percentage == s.percentage
  {
    var s1 := s.(taskId := Some(taskId), status := status,
                 gradedAt := if status == GradingStatus.Completed then Some(now) else s.gradedAt);
    if |scores| > 0 then
      var total := TotalOf(scores);
      var max := MaxTotalOf(scores);
      s1.(totalScore := Some(total), maxScore := Some(max), percentage := Some(Percentage(total, max)))
    else s1
  }

  /** The activity-log line a grading write appends. */
  function GradingLogRow(s: Student, studentId: string, status: GradingStatus): LogRow {
    var level := if status == GradingStatus.Completed then LogLevel.Success else Info;
    LogRow(s.sessionId, level, "Student " + s.name + " grading status: " + status.Name(), "grading", Some(studentId))
  }

  /**
    `updateStudentGrading`: the student row gets the task, status and (when
    completed) the grading time; non-empty scores replace the question-score
    rows and the totals, non-empty feedback replaces the feedback rows.
    A missing student is the error the source reports.
   */
  function UpdateStudentGrading(
    db: Db, studentId: string, taskId: string, status: GradingStatus,
    scores: seq<ScoreInput>, feedback: seq<Validation.FeedbackInput>, now: int, sinkUp: bool): (r: Result<Db, string>)
    ensures r.Err? <==> studentId !in db.students
    ensures r.Ok? ==>
      && studentId in r.value.students
      && r.value.students[studentId] == GradedRow(db.students[studentId], taskId, status, scores, now)
      && (|scores| > 0 ==> ScoresOf(r.value, studentId) == ScoreRows(scores))
      && (|scores| == 0 ==> ScoresOf(r.value, studentId) == ScoresOf(db, studentId))
      && (|feedback| > 0 ==> FeedbackOf(r.value, studentId) == FeedbackRows(feedback))
      && (|feedback| == 0 ==> FeedbackOf(r.value, studentId) == FeedbackOf(db, studentId))
  {
    if studentId !in db.students then Err("Failed to update student grading")
    else
      var s := db.students[studentId];
      var scoreTable := if |scores| > 0 then db.scores[studentId := ScoreRows(scores)] else db.scores;
      var feedbackTable := if |feedback| > 0 then db.feedback[studentId := FeedbackRows(feedback)] else db.feedback;
      var db1 := db.(students := db.students[studentId := GradedRow(s, taskId, status, scores, now)],
                     scores := scoreTable, feedback := feedbackTable);
      Ok(AddLog(db1, GradingLogRow(s, studentId, status), sinkUp).0)
  }

  /** A grading write leaves every other student, their rows and the sessions alone. */
  lemma GradingFrame(
    db: Db, studentId: string, taskId: string, status: GradingStatus,
    scores: seq<ScoreInput>, feedback: seq<Validation.FeedbackInput>, now: int, sinkUp: bool)
    requires UpdateStudentGrading(db, studentId, taskId, status, scores, feedback, now, sinkUp).Ok?
    ensures var r := UpdateStudentGrading(db, studentId, taskId, status, scores, feedback, now, sinkUp).value;
      && r.order == db.order && r.sessions == db.sessions
      && r.students.Keys == db.students.Keys
      && (forall k :: k in db.students && k != studentId ==> r.students[k] == db.students[k])
      && (forall k :: k != studentId ==> ScoresOf(r, k) == ScoresOf(db, k) && FeedbackOf(r, k) == FeedbackOf(db, k))
  {
  }

  lemma {:induction false} TotalsOfRows(scores: seq<ScoreInput>)
    ensures RowTotal(ScoreRows(scores)) == TotalOf(scores)
    ensures RowMaxTotal(ScoreRows(scores)) == MaxTotalOf(scores)
    decreases |scores|
  {
    if |scores| > 0 {
      var init := scores[..|scores| - 1];
      TotalsOfRows(init);
      assert ScoreRows(scores)[..|scores| - 1] == ScoreRows(init);
    }
  }

  /**
    After a grading write with scores, the stored totals are the sums over the
    stored question-score rows, and the percentage is their ratio.
   */
  lemma GradingTotalsMatchRows(
    db: Db, studentId: string, taskId: string, status: GradingStatus,
    scores: seq<ScoreInput>, feedback: seq<Validation.FeedbackInput>, now: int, sinkUp: bool)
    requires |scores| > 0
    requires UpdateStudentGrading(db, studentId, taskId, status, scores, feedback, now, sinkUp).Ok?
    ensures var db' := UpdateStudentGrading(db, studentId, taskId, status, scores, feedback, now, sinkUp).value;
      var s := db'.students[studentId];
      var rows := ScoresOf(db', studentId);
      && s.totalScore == Some(RowTotal(rows))
      && s.maxScore == Some(RowMaxTotal(rows))
      && s.percentage == Some(Percentage(RowTotal(rows), RowMaxTotal(rows)))
  {
    TotalsOfRows(scores);
  }
}

=== FILE: log_view.dfy ===
/**
  What the two live log panels share: the entry record, the wire message a
  grading-status socket delivers, the pause buffer and the text export.
 */
module LogView {
  import opened Wrappers
  import opened Text
  import opened Statuses

  /**
    One displayed log line. `level` and `context` are optional because an
    old-format wire message is spread into the entry as it is.
   */
  datatype LogEntry = LogEntry(
    timestamp: string,
    message: string,
    level: Option<string>,
    context: Option<string>,
    taskId: Option<string>,
    studentName: Option<string>)

  /** The fields of a parsed socket message the panels look at. */
  datatype WireMessage = WireMessage(
    status: Option<string>,
    timestamp: Option<string>,
    message: Option<string>,
    level: Option<string>,
    context: Option<string>)

  /** The backend's new format carries a status, a timestamp and a message. */
  predicate IsNewFormat(data: WireMessage) {
    Truthy(data.status) && Truthy(data.timestamp) && Truthy(data.message)
  }

  /**
    The entry built from a wire message. `classify` is the panel's
    status-to-level helper, `fmt` stands for `toLocaleTimeString` of a parsed
    date and `nowText` for the current time so formatted; the task id and
    student name are the panel's tags for the socket.
   */
  function FromWire(
    data: WireMessage, classify: string -> LogLevel, fmt: string -> string, nowText: string,
    taskId: Option<string>, studentName: Option<string>): (e: LogEntry)
    ensures e.taskId == taskId && e.studentName == studentName
    ensures IsNewFormat(data) ==>
      && e.level == Some(classify(data.status.value).Lower())
      && e.context == data.status
      && e.message == data.message.value
      && e.timestamp == fmt(data.timestamp.value)
    ensures !IsNewFormat(data) ==>
      && e.level == data.level
      && e.context == data.context
      && e.message == data.message.GetOr("")
      && e.timestamp == (if Truthy(data.timestamp) then fmt(data.timestamp.value) else nowText)
  {
    if IsNewFormat(data) then
      LogEntry(fmt(data.timestamp.value), data.message.value,
               Some(classify(data.status.value).Lower()), data.status, taskId, studentName)
    else
      var ts := if Truthy(data.timestamp) then fmt(data.timestamp.value) else nowText;
      LogEntry(ts, data.message.GetOr(""), data.level, data.context, taskId, studentName)
  }

  /** The displayed list, the entries held back while paused, and the pause flag. */
  datatype Stream = Stream(logs: seq<LogEntry>, buffer: seq<LogEntry>, paused: bool) {

    /** Nothing waits in the buffer while the panel is live. */
    predicate Valid() {
      !paused ==> buffer == []
    }

    /** Everything received so far, displayed or held back, in order. */
    function Content(): seq<LogEntry> {
      logs + buffer
    }
  }

  /** A freshly mounted panel. */
  const Fresh := Stream([], [], false)

  /** An incoming entry: held back while paused, displayed otherwise. */
  function Receive(st: Stream, e: LogEntry): (r: Stream)
    ensures r.paused == st.paused
    ensures st.paused ==> r.logs == st.logs
    ensures !st.paused ==> r.buffer == st.buffer
    ensures st.Valid() ==> r.Valid() && r.Content() == st.Content() + [e]
  {
    if st.paused then st.(buffer := st.buffer + [e]) else st.(logs := st.logs + [e])
  }

  /**
    A connection notice (connected, disconnected, connection error) is
    displayed at once, paused or not, ahead of any held-back entry.
   */
  function Notice(st: Stream, e: LogEntry): (r: Stream)
    ensures r.paused == st.paused && r.buffer == st.buffer
    ensures r.Content() == st.logs + [e] + st.buffer
    ensures r.Valid() == st.Valid()
  {
    st.(logs := st.logs + [e])
  }

  /** The pause button: resuming displays the held-back entries in arrival order. */
  function TogglePause(st: Stream): (r: Stream)
    ensures r.paused == !st.paused
    ensures r.Content() == st.Content()
    ensures r.Valid()
    ensures !st.paused ==> r.logs == st.logs
    ensures st.paused ==> r.buffer == []
  {
    if st.paused then Stream(st.logs + st.buffer, [], false) else st.(paused := true)
  }

  /** Entries received one after the other. */
  function ReceiveAll(st: Stream, es: seq<LogEntry>): Stream
    decreases |es|
  {
    if |es| == 0 then st else ReceiveAll(Receive(st, es[0]), es[1..])
  }

  /** While paused, a run of entries only grows the buffer. */
  lemma {:induction false} PausedReceiveAll(st: Stream, es: seq<LogEntry>)
    requires st.paused
    ensures ReceiveAll(st, es) == Stream(st.logs, st.buffer + es, true)
    decreases |es|
  {
    if |es| > 0 {
      var next := Receive(st, es[0]);
      PausedReceiveAll(next, es[1..]);
      assert st.buffer + [es[0]] + es[1..] == st.buffer + es;
    }
  }

  /** While live, a run of entries is displayed in order. */
  lemma {:induction false} LiveReceiveAll(st: Stream, es: seq<LogEntry>)
    requires !st.paused
    ensures ReceiveAll(st, es) == Stream(st.logs + es, st.buffer, false)
    decreases |es|
  {
    if |es| > 0 {
      var next := Receive(st, es[0]);
      LiveReceiveAll(next, es[1..]);
      assert st.logs + [es[0]] + es[1..] == st.logs + es;
    }
  }

  /**
    Pausing, receiving a run of entries and resuming ends with exactly what
    a panel that was never paused would show.
   */
  lemma PauseThenResume(st: Stream, es: seq<LogEntry>)
    requires st.Valid() && !st.paused
    ensures TogglePause(ReceiveAll(TogglePause(st), es)) == ReceiveAll(st, es)
  {
    PausedReceiveAll(TogglePause(st), es);
    LiveReceiveAll(st, es);
  }

  /** The download line of one entry; an entry without a level has none (`toUpperCase` of undefined throws). */
  function ExportLine(e: LogEntry): (r: Option<string>)
    ensures r.Some? <==> e.level.Some?
  {
    match e.level
    case None => None
    case Some(level) => Some("[" + e.timestamp + "] [" + ToUpper(level) + "] " + e.message)
  }

  /** The download lines, one per entry, or nothing when some entry has no level. */
  function ExportLines(logs: seq<LogEntry>): (r: Option<seq<string>>)
    ensures r.Some? <==> forall i :: 0 <= i < |logs| ==> logs[i].level.Some?
    ensures r.Some? ==> |r.value| == |logs|
    ensures r.Some? ==> forall i :: 0 <= i < |logs| ==> Some(r.value[i]) == ExportLine(logs[i])
    decreases |logs|
  {
    if |logs| == 0 then Some([])
    else
      var head := ExportLine(logs[0]);
      var rest := ExportLines(logs[1..]);
      if head.Some? && rest.Some? then Some([head.value] + rest.value) else None
  }

  /** The downloaded text: the lines joined by newlines. */
  function Export(logs: seq<LogEntry>): Option<string> {
    match ExportLines(logs)
    case None => None
    case Some(lines) => Some(JoinLines(lines))
  }

  /** Fields that fit on one line keep every exported entry on its own line. */
  predicate OneLine(e: LogEntry) {
    SingleLine(e.timestamp) && SingleLine(e.message) && e.level.Some? && SingleLine(e.level.value)
  }

  /** Upper-casing does not create newlines. */
  lemma ToUpperSingleLine(s: string)
    requires SingleLine(s)
    ensures SingleLine(ToUpper(s))
  {
  }

  /**
    Splitting the export of a non-empty log at newlines gives back one
    `[timestamp] [LEVEL] message` line per entry, in order.
   */
  lemma ExportSplits(logs: seq<LogEntry>)
    requires |logs| > 0
    requires forall i :: 0 <= i < |logs| ==> OneLine(logs[i])
    ensures Export(logs).Some?
    ensures |SplitLines(Export(logs).value)| == |logs|
    ensures forall i :: 0 <= i < |logs| ==>
      SplitLines(Export(logs).value)[i]
        == "[" + logs[i].timestamp + "] [" + ToUpper(logs[i].level.value) + "] " + logs[i].message
  {
    var lines := ExportLines(logs).value;
    forall k | 0 <= k < |lines|
      ensures SingleLine(lines[k])
    {
      var e := logs[k];
      ToUpperSingleLine(e.level.value);
      var line := "[" + e.timestamp + "] [" + ToUpper(e.level.value) + "] " + e.message;
      assert lines[k] == line;
      forall j | 0 <= j < |line|
        ensures line[j] != '\n'
      {
        var a := |e.timestamp| + 1;
        var b := a + 3 + |ToUpper(e.level.value)|;
        if j == 0 {
        } else if j < a {
          assert line[j] == e.timestamp[j - 1];
        } else if j < a + 3 {
        } else if j < b {
          assert line[j] == ToUpper(e.level.value)[j - a - 3];
        } else if j < b + 2 {
        } else {
          assert line[j] == e.message[j - b - 2];
        }
      }
    }
    SplitJoin(lines);
  }
}

=== FILE: new_session_wizard.dfy ===
/**
  The new-session wizard: configuration (step 1), students and PDFs
  (step 2), review and start of grading (step 3), progress (step 4). The
  answers of the network requests are inputs.
 */
module NewSessionWizard {
  import opened Wrappers
  import opened Text
  import opened StudentUpload

  /** The configuration form; `numStudents` is the form's number. */
  datatype Config = Config(title: string, numStudents: int, subject: string, examYear: string, rubric: string)

  /** The wizard's state. `sessionId` is the id of the session created in step 1, if any. */
  datatype Wizard = Wizard(
    step: int,
    config: Config,
    students: seq<Student>,
    sessionId: Option<string>,
    gradingStarted: bool)

  /** The wizard as it opens. */
  const Start := Wizard(1, Config("", 0, "", "", ""), [], None, false)

  /** The message a step shows when it does not advance, or the request it hands over. */
  datatype Notice =
    | Advanced
    | MissingInformation
    | InvalidJson
    | SessionError(message: string)
    | StudentsIncomplete
    | NoSession
    | SaveError(message: string)
    | StartGradingRequested

  /** How step 1 reaches the server: updating the session already created, or creating one. */
  datatype SessionRequest = Patch(id: string) | Post

  /** A created student record as the server returns it. */
  datatype Created = Created(id: Option<string>, tempId: Option<string>, name: Option<string>)

  /** Every field of the form is filled in (a number is filled in unless it is 0). */
  predicate Filled(c: Config) {
    c.title != "" && c.subject != "" && c.examYear != "" && c.numStudents != 0 && c.rubric != ""
  }

  /** The request step 1 sends. */
  function SessionRequestOf(w: Wizard): (q: SessionRequest)
    ensures q.Patch? <==> Truthy(w.sessionId)
  {
    if Truthy(w.sessionId) then Patch(w.sessionId.value) else Post
  }

  /** The temporary id of the `i`-th new student (counting from 0). */
  function TempId(i: nat): (id: string)
    ensures StartsWith(id, "student-")
  {
    var id := "student-" + NatToString(i + 1);
    assert id[..8] == "student-";
    id
  }

  /** The fresh student list for `n` students (`Array.from` gives none for `n <= 0`). */
  function FreshStudents(n: int): (r: seq<Student>)
    ensures |r| == if n > 0 then n else 0
    ensures forall i :: 0 <= i < |r| ==> r[i] == Student(TempId(i), "", None, None, None)
  {
    if n <= 0 then [] else seq(n, i requires 0 <= i => Student(TempId(i), "", None, None, None))
  }

  /** Whether step 1 rebuilds the student list: it is empty or has the wrong length. */
  predicate NeedsRebuild(students: seq<Student>, n: int) {
    |students| == 0 || |students| != n
  }

  /**
    Step 1 given whether the rubric parses and the answer to the session
    request (the new session's id, or an error message).
   */
  function ConfigStep(w: Wizard, parses: bool, response: Result<string, string>): (r: (Wizard, Notice))
    requires w.step == 1
    ensures r.1 == Advanced <==> Filled(w.config) && parses && response.Ok?
    ensures r.1 != Advanced ==> r.0 == w
    ensures !Filled(w.config) ==> r.1 == MissingInformation
    ensures Filled(w.config) && !parses ==> r.1 == InvalidJson
    ensures r.1 == Advanced ==>
      && r.0.step == 2
      && r.0.config == w.config && r.0.gradingStarted == w.gradingStarted
      && r.0.sessionId == (if Truthy(w.sessionId) then w.sessionId else Some(response.value))
      && r.0.students == (if NeedsRebuild(w.students, w.config.numStudents)
                          then FreshStudents(w.config.numStudents) else w.students)
  {
    if !Filled(w.config) then (w, MissingInformation)
    else if !parses then (w, InvalidJson)
    else match response
      case Err(message) => (w, SessionError(message))
      case Ok(id) =>
        var sid := if Truthy(w.sessionId) then w.sessionId else Some(id);
        var students :=
          if NeedsRebuild(w.students, w.config.numStudents) then FreshStudents(w.config.numStudents) else w.students;
        (w.(step := 2, sessionId := sid, students := students), Advanced)
  }

  /**
    After a successful step 1 the list has one student per requested
    student; a negative count leaves it empty.
   */
  lemma ConfigStepSizesList(w: Wizard, parses: bool, response: Result<string, string>)
    requires w.step == 1 && ConfigStep(w, parses, response).1 == Advanced
    ensures |ConfigStep(w, parses, response).0.students| == if w.config.numStudents > 0 then w.config.numStudents else 0
  {
  }

  /** Every student has a name and an exam PDF. */
  predicate AllReady(students: seq<Student>) {
    forall i :: 0 <= i < |students| ==> students[i].name != "" && students[i].file.Some?
  }

  /** A created record that belongs to the student: by temporary id or by name. */
  predicate Matches(c: Created, s: Student) {
    c.tempId == Some(s.id) || c.name == Some(s.name)
  }

  /** `createdStudents.find(...)`: the first created record that belongs to the student. */
  function FindCreated(created: seq<Created>, s: Student): (r: Option<nat>)
    ensures r.Some? ==> r.value < |created| && Matches(created[r.value], s)
    ensures r.Some? ==> forall j :: 0 <= j < r.value ==> !Matches(created[j], s)
    ensures r.None? ==> forall j :: 0 <= j < |created| ==> !Matches(created[j], s)
    decreases |created|
  {
    if |created| == 0 then None
    else if Matches(created[0], s) then Some(0)
    else match FindCreated(created[1..], s)
      case None => None
      case Some(k) => Some(k + 1)
  }

  /** The student's id after persistence: the matched record's id when it has one, else unchanged. */
  function Remapped(created: seq<Created>, s: Student): (r: Student)
    ensures r == s.(id := r.id)
    ensures r.id != s.id ==> exists j :: 0 <= j < |created| && Matches(created[j], s) && created[j].id == Some(r.id)
    ensures (forall j :: 0 <= j < |created| ==> !Matches(created[j], s)) ==> r == s
  {
    match FindCreated(created, s)
    case None => s
    case Some(j) => if Truthy(created[j].id) then s.(id := created[j].id.value) else s
  }

  /** Every student's id remapped after persistence. */
  function RemapAll(created: seq<Created>, students: seq<Student>): (r: seq<Student>)
    ensures |r| == |students|
    ensures forall i :: 0 <= i < |r| ==> r[i] == Remapped(created, students[i])
  {
    seq(|students|, i requires 0 <= i < |students| => Remapped(created, students[i]))
  }

  /** Step 2 given the answer to the student persistence request. */
  function StudentsStep(w: Wizard, persist: Result<seq<Created>, string>): (r: (Wizard, Notice))
    requires w.step == 2
    ensures r.1 == Advanced <==> AllReady(w.students) && Truthy(w.sessionId) && persist.Ok?
    ensures r.1 != Advanced ==> r.0 == w
    ensures !AllReady(w.students) ==> r.1 == StudentsIncomplete
    ensures AllReady(w.students) && !Truthy(w.sessionId) ==> r.1 == NoSession
    ensures r.1 == Advanced ==> r.0 == w.(step := 3, students := RemapAll(persist.value, w.students))
  {
    if !AllReady(w.students) then (w, StudentsIncomplete)
    else if !Truthy(w.sessionId) then (w, NoSession)
    else match persist
      case Err(message) => (w, SaveError(message))
      case Ok(created) => (w.(step := 3, students := RemapAll(created, w.students)), Advanced)
  }

  /**
    `handleNextStep`. On the review step before grading started it hands
    over to `StartGrading`; past it, it only moves on.
   */
  function NextStep(w: Wizard, parses: bool, session: Result<string, string>, persist: Result<seq<Created>, string>)
    : (r: (Wizard, Notice))
    ensures w.step == 1 ==> r == ConfigStep(w, parses, session)
    ensures w.step == 2 ==> r == StudentsStep(w, persist)
    ensures w.step == 3 && !w.gradingStarted ==> r == (w, StartGradingRequested)
    ensures (w.step == 3 && w.gradingStarted) || w.step < 1 || w.step > 3 ==> r == (w.(step := w.step + 1), Advanced)
    ensures r.0.step == w.step || r.0.step == w.step + 1
    ensures r.0.gradingStarted == w.gradingStarted
  {
    if w.step == 1 then ConfigStep(w, parses, session)
    else if w.step == 2 then StudentsStep(w, persist)
    else if w.step == 3 && !w.gradingStarted then (w, StartGradingRequested)
    else (w.(step := w.step + 1), Advanced)
  }

  /** `handlePreviousStep`: ignored once grading has started. */
  function PreviousStep(w: Wizard): (r: Wizard)
    ensures w.gradingStarted ==> r == w
    ensures !w.gradingStarted ==> r == w.(step := w.step - 1)
  {
    if w.gradingStarted then w else w.(step := w.step - 1)
  }

  /** The Previous button is enabled past step 1 while nothing is running and grading has not started. */
  predicate PreviousEnabled(w: Wizard, submitting: bool) {
    w.step != 1 && !submitting && !w.gradingStarted
  }

  /** The answer of one grading upload. */
  datatype UploadOutcome =
    | Accepted(taskId: Option<string>)
    | Rejected
    | NetworkError

  /** A student's row after the start of grading. */
  function Graded(s: Student, outcome: UploadOutcome): (r: Student)
    ensures r.id == s.id && r.name == s.name && r.file == s.file
    ensures s.file.None? ==> r.status == Some("Skipped - No File") && r.taskId.None?
    ensures s.file.Some? && outcome.Accepted? ==> r.status == Some("PENDING") && r.taskId == outcome.taskId
    ensures s.file.Some? && outcome.Rejected? ==> r.status == Some("Error") && r.taskId.None?
    ensures s.file.Some? && outcome.NetworkError? ==> r.status == Some("Error - Network") && r.taskId.None?
  {
    if s.file.None? then s.(status := Some("Skipped - No File"), taskId := None)
    else match outcome
      case Accepted(taskId) => s.(taskId := taskId, status := Some("PENDING"))
      case Rejected => s.(status := Some("Error"), taskId := None)
      case NetworkError => s.(status := Some("Error - Network"), taskId := None)
  }

  /** An upload started a grading task for the student. */
  predicate Started(s: Student, outcome: UploadOutcome) {
    s.file.Some? && outcome.Accepted?
  }

  /** The task-id write to the database that follows a started upload, for database ids only. */
  function TaskIdWrite(s: Student, outcome: UploadOutcome): (w: Option<(string, string)>)
    ensures w.Some? ==> Started(s, outcome) && s.id != "" && Truthy(outcome.taskId) && !StartsWith(s.id, "student-")
    ensures w.Some? ==> w.value == (s.id, outcome.taskId.value)
    ensures Started(s, outcome) && s.id != "" && Truthy(outcome.taskId) && !StartsWith(s.id, "student-") ==> w.Some?
  {
    if Started(s, outcome) && s.id != "" && Truthy(outcome.taskId) && !StartsWith(s.id, "student-") then
      Some((s.id, outcome.taskId.value))
    else None
  }

  /** The task-id writes for the first `n` students, in order. */
  function TaskIdWrites(students: seq<Student>, upload: int -> UploadOutcome, n: nat): seq<(string, string)>
    requires n <= |students|
  {
    if n == 0 then []
    else
      var prev := TaskIdWrites(students, upload, n - 1);
      match TaskIdWrite(students[n - 1], upload(n - 1))
      case None => prev
      case Some(w) => prev + [w]
  }

  /** Whether some of the first `n` uploads started a task. */
  predicate AnyStarted(students: seq<Student>, upload: int -> UploadOutcome, n: nat)
    requires n <= |students|
  {
    exists i :: 0 <= i < n && Started(students[i], upload(i))
  }

  /**
    `handleStartGrading`: uploads each student's PDF in order (`upload(i)`
    is the answer for the `i`-th student), records each outcome and returns
    the task-id writes it attempts. Grading counts as started and the wizard
    moves on exactly when some upload was accepted.
   */
  method StartGrading(w: Wizard, upload: int -> UploadOutcome) returns (r: Wizard, writes: seq<(string, string)>)
    ensures |r.students| == |w.students|
    ensures forall i :: 0 <= i < |w.students| ==> r.students[i] == Graded(w.students[i], upload(i))
    ensures r.gradingStarted <==> AnyStarted(w.students, upload, |w.students|)
    ensures r.step == (if r.gradingStarted then w.step + 1 else w.step)
    ensures r.config == w.config && r.sessionId == w.sessionId
    ensures writes == TaskIdWrites(w.students, upload, |w.students|)
  {
    var students := [];
    var any := false;
    writes := [];
    var i := 0;
    while i < |w.students|
      invariant 0 <= i <= |w.students|
      invariant |students| == i
      invariant forall k :: 0 <= k < i ==> students[k] == Graded(w.students[k], upload(k))
      invariant any <==> AnyStarted(w.students, upload, i)
      invariant writes == TaskIdWrites(w.students, upload, i)
    {
      var s := w.students[i];
      var outcome := upload(i);
      students := students + [Graded(s, outcome)];
      if Started(s, outcome) {
        any := true;
      }
      var write := TaskIdWrite(s, outcome);
      if write.Some? {
        writes := writes + [write.value];
      }
      i := i + 1;
    }
    r := w.(students := students, gradingStarted := any, step := if any then w.step + 1 else w.step);
  }

  /** Temporary ids never receive a task-id write. */
  lemma {:induction false} NoWritesForTempIds(students: seq<Student>, upload: int -> UploadOutcome, n: nat)
    requires n <= |students|
    ensures forall k :: 0 <= k < |TaskIdWrites(students, upload, n)| ==> !StartsWith(TaskIdWrites(students, upload, n)[k].0, "student-")
  {
    if n > 0 {
      NoWritesForTempIds(students, upload, n - 1);
    }
  }

  /** Writes go only to students whose upload started a task, at most one per student. */
  lemma {:induction false} WritesBounded(students: seq<Student>, upload: int -> UploadOutcome, n: nat)
    requires n <= |students|
    ensures |TaskIdWrites(students, upload, n)| <= n
    ensures |TaskIdWrites(students, upload, n)| > 0 ==> AnyStarted(students, upload, n)
  {
    if n > 0 {
      WritesBounded(students, upload, n - 1);
      if TaskIdWrite(students[n - 1], upload(n - 1)).Some? {
        assert Started(students[n - 1], upload(n - 1));
      }
    }
  }

  /**
    What a wizard reached from the start satisfies: it is on step 1 or
    later, and once grading started it is past the review step.
   */
  predicate Reachable(w: Wizard) {
    w.step >= 1 && (w.gradingStarted ==> w.step >= 4)
  }

  /** The wizard as it opens is reachable. */
  lemma StartReachable()
    ensures Reachable(Start)
  {
  }

  /** Every handler keeps the wizard reachable; Previous only when its button is enabled. */
  lemma StepsKeepReachable(
    w: Wizard, parses: bool, session: Result<string, string>, persist: Result<seq<Created>, string>, submitting: bool)
    requires Reachable(w)
    ensures Reachable(NextStep(w, parses, session, persist).0)
    ensures PreviousEnabled(w, submitting) ==> Reachable(PreviousStep(w))
  {
  }

  /** Starting grading from the review step keeps the wizard reachable. */
  method StartGradingReachable(w: Wizard, upload: int -> UploadOutcome) returns (r: Wizard)
    requires Reachable(w) && w.step == 3 && !w.gradingStarted
    ensures Reachable(r)
    ensures r.gradingStarted ==> r.step == 4
  {
    var writes;
    r, writes := StartGrading(w, upload);
  }
}

=== FILE: seqs.dfy ===
/** Sequence vocabulary shared by the list filters of the model. */
module Seqs {

  /** `a` is an order-preserving subsequence of `b`. */
  predicate IsSubsequence<T(==)>(a: seq<T>, b: seq<T>)
    decreases |b|
  {
    if |a| == 0 then true
    else if |b| == 0 then false
    else (a[0] == b[0] && IsSubsequence(a[1..], b[1..])) || IsSubsequence(a, b[1..])
  }

  /** No element occurs twice. */
  predicate Distinct<T(==)>(s: seq<T>) {
    forall i, j :: 0 <= i < j < |s| ==> s[i] != s[j]
  }

  /** Number of elements satisfying `p`. */
  function CountIf<T>(s: seq<T>, p: T -> bool): (n: nat)
    ensures n <= |s|
  {
    if |s| == 0 then 0 else (if p(s[0]) then 1 else 0) + CountIf(s[1..], p)
  }

  /** `Array.prototype.filter`: keeps exactly the elements satisfying `p`, in order. */
  function Filter<T(==)>(s: seq<T>, p: T -> bool): (r: seq<T>)
    ensures IsSubsequence(r, s)
    ensures forall x :: x in r ==> p(x)
    ensures forall i :: 0 <= i < |s| && p(s[i]) ==> s[i] in r
    ensures |r| == CountIf(s, p)
  {
    if |s| == 0 then []
    else
      var rest := Filter(s[1..], p);
      if p(s[0]) then [s[0]] + rest else rest
  }

  /** A sequence is a subsequence of itself. */
  lemma {:induction false} SubsequenceReflexive<T>(s: seq<T>)
    ensures IsSubsequence(s, s)
    decreases |s|
  {
    if |s| > 0 {
      SubsequenceReflexive(s[1..]);
    }
  }

  /** Filtering with a predicate every element satisfies changes nothing. */
  lemma {:induction false} FilterKeepsAll<T>(s: seq<T>, p: T -> bool)
    requires forall i :: 0 <= i < |s| ==> p(s[i])
    ensures Filter(s, p) == s
    decreases |s|
  {
    if |s| > 0 {
      FilterKeepsAll(s[1..], p);
    }
  }

  /** Every element of a subsequence is an element of the whole. */
  lemma {:induction false} SubsequenceMembers<T>(a: seq<T>, b: seq<T>)
    requires IsSubsequence(a, b)
    ensures forall x :: x in a ==> x in b
    decreases |b|
  {
    if |a| > 0 {
      if a[0] == b[0] && IsSubsequence(a[1..], b[1..]) {
        SubsequenceMembers(a[1..], b[1..]);
        assert forall x :: x in a ==> x == a[0] || x in a[1..];
      } else {
        SubsequenceMembers(a, b[1..]);
      }
    }
  }

  /** A subsequence of a sequence without repetitions has none either. */
  lemma {:induction false} SubsequenceDistinct<T>(a: seq<T>, b: seq<T>)
    requires IsSubsequence(a, b) && Distinct(b)
    ensures Distinct(a)
    decreases |b|
  {
    if |a| > 0 {
      assert Distinct(b[1..]) by {
        forall i, j | 0 <= i < j < |b[1..]| ensures b[1..][i] != b[1..][j] {
          assert b[1..][i] == b[i + 1] && b[1..][j] == b[j + 1];
        }
      }
      if a[0] == b[0] && IsSubsequence(a[1..], b[1..]) {
        SubsequenceDistinct(a[1..], b[1..]);
        SubsequenceMembers(a[1..], b[1..]);
        assert b[0] !in b[1..] by {
          forall j | 0 <= j < |b[1..]| ensures b[1..][j] != b[0] {
            assert b[1..][j] == b[j + 1];
          }
        }
        forall i, j | 0 <= i < j < |a| ensures a[i] != a[j] {
          if i == 0 {
            assert a[j] == a[1..][j - 1];
            assert a[j] in a[1..];
          } else {
            assert a[i] == a[1..][i - 1] && a[j] == a[1..][j - 1];
          }
        }
      } else {
        SubsequenceDistinct(a, b[1..]);
      }
    }
  }

  /**
    The distinct elements of `s` in order of first occurrence (iteration
    order of a JavaScript `Set` built from `s`).
   */
  function Dedupe<T(==,!new)>(s: seq<T>): (r: seq<T>)
    ensures Distinct(r)
    ensures forall x :: x in r <==> x in s
    ensures |r| <= |s|
  {
    if |s| == 0 then []
    else
      var init := Dedupe(s[..|s| - 1]);
      var last := s[|s| - 1];
      assert forall i :: 0 <= i < |s| - 1 ==> s[i] == s[..|s| - 1][i];
      if last in init then init else init + [last]
  }

  /** A subsequence stays one when an element is appended to the whole, or to both. */
  lemma {:induction false} SubsequenceSnoc<T>(a: seq<T>, b: seq<T>, x: T)
    requires IsSubsequence(a, b)
    ensures IsSubsequence(a, b + [x])
    ensures IsSubsequence(a + [x], b + [x])
    decreases |b|
  {
    assert (a + [x])[0] == if |a| == 0 then x else a[0];
    if |b| == 0 {
      assert a == [];
      assert (a + [x])[1..] == [];
    } else {
      assert (b + [x])[1..] == b[1..] + [x];
      if |a| == 0 {
        SubsequenceSnoc(a, b[1..], x);
      } else if a[0] == b[0] && IsSubsequence(a[1..], b[1..]) {
        SubsequenceSnoc(a[1..], b[1..], x);
        assert (a + [x])[1..] == a[1..] + [x];
      } else {
        SubsequenceSnoc(a, b[1..], x);
      }
    }
  }

  /**
    The elements of `r` are ordered by their first occurrence in `s`: every
    occurrence in `s` of a later element is preceded by one of each earlier
    element.
   */
  predicate InFirstOrder<T(==)>(r: seq<T>, s: seq<T>) {
    forall i, j, q :: 0 <= i < j < |r| && 0 <= q < |s| && s[q] == r[j] ==> r[i] in s[..q]
  }

  /** `Dedupe` lists the elements in order of their first occurrence. */
  lemma {:induction false} DedupeFirstOrder<T(!new)>(s: seq<T>)
    ensures InFirstOrder(Dedupe(s), s)
    decreases |s|
  {
    if |s| > 0 {
      var init := s[..|s| - 1];
      var last := s[|s| - 1];
      DedupeFirstOrder(init);
      var d := Dedupe(init);
      var r := Dedupe(s);
      assert r == if last in d then d else d + [last];
      forall i, j, q | 0 <= i < j < |r| && 0 <= q < |s| && s[q] == r[j] ensures r[i] in s[..q] {
        assert r[i] == d[i] && d[i] in init;
        if q == |s| - 1 {
          assert s[..q] == init;
        } else {
          assert s[..q] == init[..q] && init[q] == s[q];
          if j < |d| {
            assert r[j] == d[j];
          } else {
            assert false;
          }
        }
      }
    }
  }

  /** `Dedupe` keeps the elements in the order they occur in `s`. */
  lemma {:induction false} DedupeOrdered<T(!new)>(s: seq<T>)
    ensures IsSubsequence(Dedupe(s), s)
    decreases |s|
  {
    if |s| > 0 {
      var init := s[..|s| - 1];
      DedupeOrdered(init);
      SubsequenceSnoc(Dedupe(init), init, s[|s| - 1]);
      assert init + [s[|s| - 1]] == s;
    }
  }

  /** Filters with predicates that agree on every element give the same result. */
  lemma {:induction false} FilterCongruent<T>(s: seq<T>, p: T -> bool, q: T -> bool)
    requires forall i :: 0 <= i < |s| ==> p(s[i]) == q(s[i])
    ensures Filter(s, p) == Filter(s, q)
    decreases |s|
  {
    if |s| > 0 {
      FilterCongruent(s[1..], p, q);
    }
  }

  /** A prefix of a prefix is a prefix. */
  lemma PrefixOfPrefix<T>(base: seq<T>, a: seq<T>, b: seq<T>)
    requires |base| <= |a| <= |b| && a[..|base|] == base && b[..|a|] == a
    ensures b[..|base|] == base
  {
    assert b[..|base|] == b[..|a|][..|base|];
  }
}

=== FILE: session_log_stream.dfy ===
/**
  The session log panel: one socket per grading task, messages tagged with
  the task's student, persisted, dispatched as status updates, and a tab
  filter that can narrow to one student.
 */
module SessionLogStream {
  import opened Wrappers
  import opened Text
  import opened Statuses
  import opened LogView
  import Seqs
  import TaskLogStream
  import TaskMonitor

  /** A grading task the panel follows. */
  datatype TaskLog = TaskLog(taskId: string, studentName: Option<string>, studentId: Option<string>)

  /** This panel's own copy of `getLevelFromStatus`. */
  function LevelFromStatus(status: string): LogLevel {
    if status == "" then LogLevel.Info
    else if Contains(status, "ERROR") || Contains(status, "FAILED") || Contains(status, "MISSING") then LogLevel.Error
    else if Contains(status, "WARNING") then LogLevel.Warning
    else if Contains(status, "COMPLETED") || Contains(status, "SUCCESS") then LogLevel.Success
    else LogLevel.Info
  }

  /** The two panels classify every status alike. */
  lemma LevelsAgree(status: string)
    ensures LevelFromStatus(status) == TaskLogStream.LevelFromStatus(status)
  {
  }

  /**
    The status update a message's raw status triggers: the panel's own
    vocabulary, compared exactly.
   */
  function StatusDispatch(status: Option<string>): (u: Option<GradingStatus>)
    ensures u == Some(GradingStatus.Completed) <==> status == Some("COMPLETED") || status == Some("SUCCESS")
    ensures u == Some(GradingStatus.Failed) <==> status == Some("FAILED") || status == Some("ERROR")
    ensures u == Some(GradingStatus.Processing) <==> status == Some("PROCESSING") || status == Some("PROCESSING_PDF")
    ensures u != Some(GradingStatus.Pending)
  {
    match status
    case None => None
    case Some(s) =>
      if s == "COMPLETED" || s == "SUCCESS" then Some(GradingStatus.Completed)
      else if s == "FAILED" || s == "ERROR" then Some(GradingStatus.Failed)
      else if s == "PROCESSING" || s == "PROCESSING_PDF" then Some(GradingStatus.Processing)
      else None
  }

  /**
    The panel and the task monitor read the grading server's words
    differently: the monitor acts on FAILURE and PROGRESS, which the panel
    ignores, and ignores FAILED and PROCESSING, which the panel acts on.
   */
  lemma VocabularyDisagreement()
    ensures TaskMonitor.MapStatus("FAILURE", GradingStatus.Pending) == GradingStatus.Failed
    ensures StatusDispatch(Some("FAILURE")).None?
    ensures TaskMonitor.MapStatus("PROGRESS", GradingStatus.Pending) == GradingStatus.Processing
    ensures StatusDispatch(Some("PROGRESS")).None?
    ensures TaskMonitor.MapStatus("FAILED", GradingStatus.Pending) == GradingStatus.Pending
    ensures StatusDispatch(Some("FAILED")) == Some(GradingStatus.Failed)
    ensures TaskMonitor.MapStatus("PROCESSING", GradingStatus.Pending) == GradingStatus.Pending
    ensures StatusDispatch(Some("PROCESSING")) == Some(GradingStatus.Processing)
  {
  }

  /** Where the two vocabularies overlap they agree, for a student still pending. */
  lemma VocabulariesAgreeOnShared(word: string)
    requires word in {"COMPLETED", "SUCCESS", "ERROR", "PROCESSING_PDF"}
    ensures StatusDispatch(Some(word)) == Some(TaskMonitor.MapStatus(word, GradingStatus.Pending))
  {
  }

  /** The body of the log-persistence request. */
  datatype PersistRequest = PersistRequest(level: Option<string>, message: string, context: string, studentId: Option<string>)

  /** The persisted copy of an entry: a missing or empty context is stored as "grading". */
  function Persisted(e: LogEntry, task: TaskLog): (p: PersistRequest)
    ensures p.level == e.level && p.message == e.message && p.studentId == task.studentId
    ensures |p.context| > 0
    ensures Truthy(e.context) ==> p.context == e.context.value
  {
    PersistRequest(e.level, e.message, if Truthy(e.context) then e.context.value else "grading", task.studentId)
  }

  /** What one socket message does: the new panel state, the log to persist, the status update to send. */
  datatype Handled = Handled(stream: Stream, persist: Option<PersistRequest>, update: Option<GradingStatus>)

  /**
    `onmessage` of the socket for `task`. A message that does not parse does
    nothing; otherwise the entry is tagged with the task, persisted, the
    status is dispatched, and the entry is received under the pause flag
    given, all as one step. Failures of the two requests do not affect the
    display.
   */
  function HandleMessage(
    st: Stream, task: TaskLog, data: Option<WireMessage>,
    fmt: string -> string, nowText: string): (r: Handled)
    ensures data.None? ==> r == Handled(st, None, None)
    ensures data.Some? ==> r.persist.Some? && r.update == StatusDispatch(data.value.status)
    ensures r.stream.paused == st.paused
    ensures st.paused ==> r.stream.logs == st.logs
    ensures st.Valid() ==> r.stream.Valid()
    ensures st.Valid() && data.Some? ==>
      var e := FromWire(data.value, LevelFromStatus, fmt, nowText, Some(task.taskId), task.studentName);
      && r.stream.Content() == st.Content() + [e]
      && r.persist == Some(Persisted(e, task))
      && e.taskId == Some(task.taskId) && e.studentName == task.studentName
  {
    match data
    case None => Handled(st, None, None)
    case Some(d) =>
      var e := FromWire(d, LevelFromStatus, fmt, nowText, Some(task.taskId), task.studentName);
      Handled(Receive(st, e), Some(Persisted(e, task)), StatusDispatch(d.status))
  }

  /** The student filter applies when a non-empty student is selected. */
  predicate StudentMatches(e: LogEntry, activeStudent: Option<string>) {
    !Truthy(activeStudent) || e.studentName == activeStudent
  }

  /** Whether the tab and the selected student show the entry; an unknown tab shows everything. */
  predicate Shown(tab: string, activeStudent: Option<string>, e: LogEntry) {
    if tab == "all" then StudentMatches(e, activeStudent)
    else if tab == "errors" then TaskLogStream.IsProblem(e) && StudentMatches(e, activeStudent)
    else if tab == "system" then TaskLogStream.IsSystem(e) && StudentMatches(e, activeStudent)
    else true
  }

  /** The three tabs the panel offers. */
  predicate KnownTab(tab: string) {
    tab == "all" || tab == "errors" || tab == "system"
  }

  /** `Shown` for a fixed tab and selection, as the predicate the filter applies. */
  function ShownBy(tab: string, activeStudent: Option<string>): LogEntry -> bool {
    e => Shown(tab, activeStudent, e)
  }

  /** `filteredLogs`: the entries the tab and the selected student show, in order. */
  function FilterLogs(logs: seq<LogEntry>, tab: string, activeStudent: Option<string>): (r: seq<LogEntry>)
    ensures Seqs.IsSubsequence(r, logs)
    ensures forall i :: 0 <= i < |r| ==> Shown(tab, activeStudent, r[i])
    ensures forall i :: 0 <= i < |logs| && Shown(tab, activeStudent, logs[i]) ==> logs[i] in r
    ensures KnownTab(tab) && Truthy(activeStudent) ==> forall i :: 0 <= i < |r| ==> r[i].studentName == activeStudent
    ensures tab == "errors" ==> forall i :: 0 <= i < |r| ==> TaskLogStream.IsProblem(r[i])
    ensures tab == "system" ==> forall i :: 0 <= i < |r| ==> TaskLogStream.IsSystem(r[i])
    ensures !KnownTab(tab) ==> r == logs
    ensures |r| == Seqs.CountIf(logs, ShownBy(tab, activeStudent))
  {
    var keep := ShownBy(tab, activeStudent);
    var r := Seqs.Filter(logs, keep);
    assert forall i :: 0 <= i < |r| ==> r[i] in r && keep(r[i]);
    if !KnownTab(tab) then
      Seqs.FilterKeepsAll(logs, keep);
      r
    else
      r
  }

  /** Without a selected student the panel filters exactly as the task panel does. */
  lemma {:induction false} NoStudentFiltersLikeTaskPanel(logs: seq<LogEntry>, tab: string, activeStudent: Option<string>)
    requires !Truthy(activeStudent)
    ensures FilterLogs(logs, tab, activeStudent) == TaskLogStream.FilterLogs(logs, tab)
  {
    Seqs.FilterCongruent(logs, ShownBy(tab, activeStudent), TaskLogStream.ShownBy(tab));
  }

  /** A task whose student name survives `filter(Boolean)`. */
  predicate Named(t: TaskLog) {
    Truthy(t.studentName)
  }

  /** The tasks' non-empty student names, in task order (`map` then `filter(Boolean)`). */
  function PresentNames(tasks: seq<TaskLog>): (r: seq<string>)
    ensures forall i :: 0 <= i < |r| ==> |r[i]| > 0 && exists k :: 0 <= k < |tasks| && tasks[k].studentName == Some(r[i])
    ensures forall k {:trigger Truthy(tasks[k].studentName)} :: 0 <= k < |tasks| && Truthy(tasks[k].studentName) ==> tasks[k].studentName.value in r
    decreases |tasks|
  {
    if |tasks| == 0 then []
    else
      var rest := PresentNames(tasks[1..]);
      assert forall i :: 0 <= i < |rest| ==> exists k :: 0 <= k < |tasks| && tasks[k].studentName == Some(rest[i]) by {
        forall i | 0 <= i < |rest|
          ensures exists k :: 0 <= k < |tasks| && tasks[k].studentName == Some(rest[i])
        {
          var k :| 0 <= k < |tasks[1..]| && tasks[1..][k].studentName == Some(rest[i]);
          assert tasks[k + 1] == tasks[1..][k];
        }
      }
      assert forall k :: 1 <= k < |tasks| ==> tasks[k] == tasks[1..][k - 1];
      if Truthy(tasks[0].studentName) then [tasks[0].studentName.value] + rest else rest
  }

  /** There are exactly as many present names as tasks with a non-empty name, repeats included. */
  lemma {:induction false} PresentNamesCount(tasks: seq<TaskLog>)
    ensures |PresentNames(tasks)| == Seqs.CountIf(tasks, Named)
    decreases |tasks|
  {
    if |tasks| > 0 {
      PresentNamesCount(tasks[1..]);
    }
  }

  /**
    The present names are one per named task, the i-th being the name of
    the i-th named task in task order, repeats included.
   */
  lemma {:induction false} PresentNamesOfNamed(tasks: seq<TaskLog>)
    ensures var r, named := PresentNames(tasks), Seqs.Filter(tasks, Named);
      && |r| == |named| == Seqs.CountIf(tasks, Named)
      && forall i :: 0 <= i < |r| ==> named[i].studentName == Some(r[i])
    decreases |tasks|
  {
    if |tasks| > 0 {
      PresentNamesOfNamed(tasks[1..]);
      var rest, named' := PresentNames(tasks[1..]), Seqs.Filter(tasks[1..], Named);
      if Named(tasks[0]) {
        assert PresentNames(tasks) == [tasks[0].studentName.value] + rest;
        assert Seqs.Filter(tasks, Named) == [tasks[0]] + named';
      } else {
        assert PresentNames(tasks) == rest;
        assert Seqs.Filter(tasks, Named) == named';
      }
    }
  }

  /**
    `students`: the distinct non-empty student names of the tasks, in order
    of first appearance (a `Set` built from the present names).
   */
  function StudentNames(tasks: seq<TaskLog>): (r: seq<string>)
    ensures Seqs.Distinct(r)
    ensures forall i :: 0 <= i < |r| ==> |r[i]| > 0 && exists k :: 0 <= k < |tasks| && tasks[k].studentName == Some(r[i])
    ensures forall k {:trigger Truthy(tasks[k].studentName)} :: 0 <= k < |tasks| && Truthy(tasks[k].studentName) ==> tasks[k].studentName.value in r
    ensures Seqs.IsSubsequence(r, PresentNames(tasks))
    ensures Seqs.InFirstOrder(r, PresentNames(tasks))
  {
    var names := PresentNames(tasks);
    var r := Seqs.Dedupe(names);
    assert forall i :: 0 <= i < |r| ==> r[i] in r && r[i] in names;
    Seqs.DedupeOrdered(names);
    Seqs.DedupeFirstOrder(names);
    r
  }

  /**
    One pass of the socket effect over the tasks: a task gets a socket
    unless its id already has one, including one opened earlier in the pass.
   */
  function OpenPass(tasks: seq<TaskLog>, open: set<string>): (r: seq<string>)
    ensures Seqs.Distinct(r)
    ensures forall i :: 0 <= i < |r| ==> r[i] !in open && exists k :: 0 <= k < |tasks| && tasks[k].taskId == r[i]
    ensures forall k :: 0 <= k < |tasks| ==> tasks[k].taskId in open || tasks[k].taskId in r
    decreases |tasks|
  {
    if |tasks| == 0 then []
    else
      var id := tasks[0].taskId;
      assert forall k :: 1 <= k < |tasks| ==> tasks[k] == tasks[1..][k - 1];
      if id in open then OpenPass(tasks[1..], open)
      else
        var rest := OpenPass(tasks[1..], open + {id});
        [id] + rest
  }

  /** The panel follows live sessions only. */
  predicate Live(sessionStatus: string) {
    sessionStatus == "in-progress" || sessionStatus == "pending"
  }

  /** The task ids the socket effect opens sockets for, in order. */
  function SocketsToOpen(tasks: seq<TaskLog>, open: set<string>, sessionStatus: string): (r: seq<string>)
    ensures !Live(sessionStatus) ==> r == []
    ensures Seqs.Distinct(r)
    ensures forall i :: 0 <= i < |r| ==> r[i] !in open && exists k :: 0 <= k < |tasks| && tasks[k].taskId == r[i]
    ensures Live(sessionStatus) ==> forall k :: 0 <= k < |tasks| ==> tasks[k].taskId in open || tasks[k].taskId in r
  {
    if Live(sessionStatus) then OpenPass(tasks, open) else []
  }

  /** The `readyState` of a socket the panel opened. */
  datatype SocketState = Connecting | Open | Closing | Closed

  /** `wsRefs.current` between runs of the socket effect: the socket kept per task id, by its state. */
  type Registry = map<string, SocketState>

  /** What a run of the socket effect leaves: the new registry, and the task ids whose old socket the cleanup closed. */
  datatype Rerun = Rerun(registry: Registry, closed: set<string>)

  /**
    The socket effect running again after a change of tasks, session status
    or pause flag. The previous run's cleanup closes only the sockets that
    are OPEN and empties the registry; the new pass then opens a fresh
    connecting socket for every task id of a live session.
   */
  function RerunEffect(reg: Registry, tasks: seq<TaskLog>, sessionStatus: string): (r: Rerun)
    ensures forall id :: id in r.closed <==> id in reg && reg[id] == Open
    ensures forall id :: id in r.registry ==> r.registry[id] == Connecting
    ensures Live(sessionStatus) ==> forall k :: 0 <= k < |tasks| ==> tasks[k].taskId in r.registry
    ensures forall id :: id in r.registry ==> Live(sessionStatus) && exists k :: 0 <= k < |tasks| && tasks[k].taskId == id
  {
    var started := SocketsToOpen(tasks, {}, sessionStatus);
    Rerun(map id | id in started :: Connecting, set id | id in reg && reg[id] == Open)
  }

  /**
    The new registry does not depend on the old one: every run starts from
    an empty registry, so the guard against an existing socket only skips a
    task id repeated within one pass.
   */
  lemma RerunForgetsRegistry(reg: Registry, reg': Registry, tasks: seq<TaskLog>, sessionStatus: string)
    ensures RerunEffect(reg, tasks, sessionStatus).registry == RerunEffect(reg', tasks, sessionStatus).registry
  {
  }

  /**
    A socket still connecting when the effect re-runs is neither closed nor
    kept, while its task gets a new socket: the task then has two live
    sockets.
   */
  lemma ConnectingSocketDoubled(reg: Registry, tasks: seq<TaskLog>, sessionStatus: string, id: string)
    requires Live(sessionStatus)
    requires id in reg && reg[id] == Connecting
    requires exists k :: 0 <= k < |tasks| && tasks[k].taskId == id
    ensures id !in RerunEffect(reg, tasks, sessionStatus).closed
    ensures id in RerunEffect(reg, tasks, sessionStatus).registry
  {
  }
}

=== FILE: sessions_page.dfy ===
/** The grading-session list page: search and filters, delete, and status labels. */
module SessionsPage {
  import opened Text
  import opened Statuses
  import Seqs

  /** The fields of a listed session the page's logic reads. */
  datatype SessionRow = SessionRow(id: string, title: string, subject: string, sessionStatus: string)

  /** The search box: a case-insensitive substring of the title or the subject. */
  predicate MatchesSearch(s: SessionRow, query: string) {
    Contains(ToLower(s.title), ToLower(query)) || Contains(ToLower(s.subject), ToLower(query))
  }

  /** The status filter; "in-progress" also selects the database spelling "in_progress". */
  predicate MatchesStatus(s: SessionRow, statusFilter: string) {
    || statusFilter == "all"
    || ToLower(s.sessionStatus) == ToLower(statusFilter)
    || (statusFilter == "in-progress" && ToLower(s.sessionStatus) == "in_progress")
  }

  /** The subject filter: "all" or a case-insensitive equal subject. */
  predicate MatchesSubject(s: SessionRow, subjectFilter: string) {
    subjectFilter == "all" || ToLower(s.subject) == ToLower(subjectFilter)
  }

  /** A session is listed when it passes the search and both filters. */
  predicate Listed(s: SessionRow, query: string, statusFilter: string, subjectFilter: string) {
    MatchesSearch(s, query) && MatchesStatus(s, statusFilter) && MatchesSubject(s, subjectFilter)
  }

  /** `filteredSessions`: the listed sessions, in their original order. */
  function FilteredSessions(sessions: seq<SessionRow>, query: string, statusFilter: string, subjectFilter: string)
    : (r: seq<SessionRow>)
    ensures Seqs.IsSubsequence(r, sessions)
    ensures forall i :: 0 <= i < |r| ==> Listed(r[i], query, statusFilter, subjectFilter)
    ensures forall i :: 0 <= i < |sessions| && Listed(sessions[i], query, statusFilter, subjectFilter) ==> sessions[i] in r
  {
    var r := Seqs.Filter(sessions, s => Listed(s, query, statusFilter, subjectFilter));
    assert forall i :: 0 <= i < |r| ==> r[i] in r;
    r
  }

  /** The search is a case-insensitive substring test against the positional definition. */
  lemma SearchIff(s: SessionRow, query: string)
    ensures MatchesSearch(s, query) <==>
      Occurs(ToLower(s.title), ToLower(query)) || Occurs(ToLower(s.subject), ToLower(query))
  {
    ContainsIff(ToLower(s.title), ToLower(query));
    ContainsIff(ToLower(s.subject), ToLower(query));
  }

  /** The search ignores the case of the query. */
  lemma SearchIgnoresQueryCase(s: SessionRow, query: string)
    ensures MatchesSearch(s, query) == MatchesSearch(s, ToLower(query))
  {
    ToLowerIdempotent(query);
  }

  /** With an empty search and both filters on "all", every session is listed, in order. */
  lemma NoFilterListsAll(sessions: seq<SessionRow>)
    ensures FilteredSessions(sessions, "", "all", "all") == sessions
  {
    forall i | 0 <= i < |sessions|
      ensures Listed(sessions[i], "", "all", "all")
    {
      ContainsEmpty(ToLower(sessions[i].title));
    }
    Seqs.FilterKeepsAll(sessions, s => Listed(s, "", "all", "all"));
  }

  /**
    `handleDeleteSession`: the row leaves the list only when the user
    confirmed and the server accepted the delete (`accepted`).
   */
  function DeleteSession(sessions: seq<SessionRow>, id: string, confirmed: bool, accepted: bool)
    : (r: seq<SessionRow>)
    ensures !(confirmed && accepted) ==> r == sessions
    ensures Seqs.IsSubsequence(r, sessions)
    ensures confirmed && accepted ==> forall i :: 0 <= i < |r| ==> r[i].id != id
    ensures forall i :: 0 <= i < |sessions| && sessions[i].id != id ==> sessions[i] in r
  {
    if confirmed && accepted then
      var r := Seqs.Filter(sessions, (s: SessionRow) => s.id != id);
      assert forall i :: 0 <= i < |r| ==> r[i] in r;
      r
    else
      Seqs.SubsequenceReflexive(sessions);
      sessions
  }

  /** Deleting an id that is not listed changes nothing. */
  lemma DeleteAbsentIsNoop(sessions: seq<SessionRow>, id: string, confirmed: bool, accepted: bool)
    requires forall i :: 0 <= i < |sessions| ==> sessions[i].id != id
    ensures DeleteSession(sessions, id, confirmed, accepted) == sessions
  {
    Seqs.FilterKeepsAll(sessions, (s: SessionRow) => s.id != id);
  }

  /** Deleting twice is deleting once. */
  lemma DeleteIdempotent(sessions: seq<SessionRow>, id: string)
    ensures DeleteSession(DeleteSession(sessions, id, true, true), id, true, true)
      == DeleteSession(sessions, id, true, true)
  {
    var once := DeleteSession(sessions, id, true, true);
    DeleteAbsentIsNoop(once, id, true, true);
  }

  /** `formatStatus`: a label for the five known statuses in any case; any other string as it is. */
  function FormatStatus(status: string): (r: string)
    ensures r != status ==> ToLower(status) in {"in_progress", "completed", "pending", "failed", "cancelled"}
  {
    match ToLower(status)
    case "in_progress" => "In Progress"
    case "completed" => "Completed"
    case "pending" => "Pending"
    case "failed" => "Failed"
    case "cancelled" => "Cancelled"
    case _ => status
  }

  /** The lower-case names `formatStatus` recognises. */
  predicate KnownKey(key: string) {
    key in {"in_progress", "completed", "pending", "failed", "cancelled"}
  }

  /** The lower-case key of each database session status. */
  function Key(st: SessionStatus): (k: string)
    ensures KnownKey(k)
  {
    match st
    case InProgress => "in_progress"
    case Completed => "completed"
    case Pending => "pending"
    case Failed => "failed"
    case Cancelled => "cancelled"
  }

  /** The database spelling of a status lower-cases to its key. */
  lemma NameLowersToKey(st: SessionStatus)
    ensures ToLower(st.Name()) == Key(st)
  {
    match st
    case InProgress => LowerOf("IN_PROGRESS", "in_progress");
    case Completed => LowerOf("COMPLETED", "completed");
    case Pending => LowerOf("PENDING", "pending");
    case Failed => LowerOf("FAILED", "failed");
    case Cancelled => LowerOf("CANCELLED", "cancelled");
  }

  /** Every session status of the database gets a label of its own. */
  lemma FormatStatusNames(st: SessionStatus)
    ensures FormatStatus(st.Name()) != st.Name()
    ensures forall other: SessionStatus :: other != st ==> FormatStatus(other.Name()) != FormatStatus(st.Name())
  {
    forall s: SessionStatus
      ensures FormatStatus(s.Name()) == Label(s)
    {
      var n := s.Name();
      NameLowersToKey(s);
      FormatByKey(n);
    }
  }

  /** `formatStatus` depends on the status only through its lower-case form, unless unknown. */
  lemma FormatByKey(status: string)
    ensures FormatStatus(status) == if KnownKey(ToLower(status)) then Label(StatusOfKey(ToLower(status))) else status
  {
  }

  /** Two spellings of a known status that differ only in case get the same label. */
  lemma FormatStatusIgnoresCase(status: string, other: string)
    requires ToLower(status) == ToLower(other)
    requires KnownKey(ToLower(status))
    ensures FormatStatus(other) == FormatStatus(status)
  {
    FormatByKey(status);
    FormatByKey(other);
  }

  /** The page's label for each database status. */
  function Label(st: SessionStatus): string {
    match st
    case InProgress => "In Progress"
    case Completed => "Completed"
    case Pending => "Pending"
    case Failed => "Failed"
    case Cancelled => "Cancelled"
  }

  /** The status a recognised key names. */
  function StatusOfKey(key: string): (st: SessionStatus)
    requires KnownKey(key)
    ensures Key(st) == key
  {
    if key == "in_progress" then SessionStatus.InProgress
    else if key == "completed" then SessionStatus.Completed
    else if key == "pending" then SessionStatus.Pending
    else if key == "failed" then SessionStatus.Failed
    else SessionStatus.Cancelled
  }

  /** Each label formats to itself. */
  lemma LabelIsFixed(st: SessionStatus)
    ensures FormatStatus(Label(st)) == Label(st)
  {
    var l := Label(st);
    match st
    case InProgress => { LowerOf(l, "in progress"); FormatByKey(l); }
    case Completed => { LowerOf(l, "completed"); FormatByKey(l); }
    case Pending => { LowerOf(l, "pending"); FormatByKey(l); }
    case Failed => { LowerOf(l, "failed"); FormatByKey(l); }
    case Cancelled => { LowerOf(l, "cancelled"); FormatByKey(l); }
  }

  /** Formatting a label again leaves it as it is. */
  lemma FormatStatusIdempotent(status: string)
    ensures FormatStatus(FormatStatus(status)) == FormatStatus(status)
  {
    FormatByKey(status);
    if KnownKey(ToLower(status)) {
      LabelIsFixed(StatusOfKey(ToLower(status)));
    }
  }

  /** `getStatusBadgeVariant`. */
  function BadgeVariant(status: string): (v: string)
    ensures v == "default" <==> ToLower(status) == "completed"
    ensures v == "secondary" <==> ToLower(status) == "in_progress"
    ensures v == "default" || v == "secondary" || v == "outline"
  {
    match ToLower(status)
    case "completed" => "default"
    case "in_progress" => "secondary"
    case "pending" => "outline"
    case _ => "outline"
  }

  /** The variant of a lower-case status. */
  function BadgeOfKey(key: string): string {
    if key == "completed" then "default" else if key == "in_progress" then "secondary" else "outline"
  }

  /** Badge variants of the database statuses: only COMPLETED and IN_PROGRESS stand out. */
  lemma BadgeVariantNames(st: SessionStatus)
    ensures BadgeVariant(st.Name()) == (
      if st == SessionStatus.Completed then "default"
      else if st == SessionStatus.InProgress then "secondary"
      else "outline")
  {
    NameLowersToKey(st);
    var n := st.Name();
    assert BadgeVariant(n) == BadgeOfKey(ToLower(n));
  }
}

=== FILE: status_polling.dfy ===
/**
  The session-status polling hook as a state machine: the last status seen,
  whether an interval is running, and the callbacks each poll fires.
 */
module StatusPolling {
  import opened Wrappers

  /** The hook's two refs: the last status seen and whether an interval is active. */
  datatype Poller = Poller(last: Option<string>, active: bool)

  /** The hook before its first poll. */
  const Idle := Poller(None, false)

  /** A callback fired by a poll. */
  datatype Event = StatusChanged(status: string) | Completed

  /** The outcome of one poll: the hook's new state and the callbacks fired, in order. */
  datatype Polled = Polled(next: Poller, events: seq<Event>)

  /**
    `checkSessionStatus` given the fetched status: `None` stands for a
    non-OK response or a failed request, which only logs.
   */
  function Check(p: Poller, response: Option<string>): (r: Polled)
    ensures |r.events| > 0 <==> response.Some? && p.last != response
    ensures |r.events| == 0 ==> r.next == p
    ensures |r.events| > 0 ==>
      && r.next.last == response
      && r.events[0] == StatusChanged(response.value)
    ensures Completed in r.events <==> response == Some("COMPLETED") && p.last != response
    ensures Completed in r.events ==> !r.next.active
    ensures Completed !in r.events ==> r.next.active == p.active
  {
    match response
    case None => Polled(p, [])
    case Some(status) =>
      if p.last == Some(status) then Polled(p, [])
      else if status == "COMPLETED" then Polled(Poller(Some(status), false), [StatusChanged(status), Completed])
      else Polled(p.(last := Some(status)), [StatusChanged(status)])
  }

  /** The same status twice in a row fires nothing the second time. */
  lemma RepeatIsSilent(p: Poller, status: string)
    ensures Check(Check(p, Some(status)).next, Some(status)).events == []
  {
  }

  /** The hook's state after a run of polls. */
  function CheckAll(p: Poller, responses: seq<Option<string>>): Poller
    decreases |responses|
  {
    if |responses| == 0 then p else CheckAll(Check(p, responses[0]).next, responses[1..])
  }

  /** After a run of polls the last status seen is that of the latest successful poll. */
  lemma {:induction false} CheckAllRemembersLatest(p: Poller, responses: seq<Option<string>>, i: nat)
    requires i < |responses| && responses[i].Some?
    requires forall j :: i < j < |responses| ==> responses[j].None?
    ensures CheckAll(p, responses).last == responses[i]
    decreases |responses|
  {
    if i == 0 {
      var q := Check(p, responses[0]).next;
      assert q.last == responses[0];
      FailedPollsChangeNothing(q, responses[1..]);
    } else {
      CheckAllRemembersLatest(Check(p, responses[0]).next, responses[1..], i - 1);
    }
  }

  /** Failed polls leave the hook as it was. */
  lemma {:induction false} FailedPollsChangeNothing(p: Poller, responses: seq<Option<string>>)
    requires forall j :: 0 <= j < |responses| ==> responses[j].None?
    ensures CheckAll(p, responses) == p
    decreases |responses|
  {
    if |responses| > 0 {
      FailedPollsChangeNothing(p, responses[1..]);
    }
  }

  /** `startPolling`: starts an interval unless one runs, polling is disabled, or there is no session id. */
  function StartPolling(p: Poller, enabled: bool, sessionId: string): (r: Poller)
    ensures r.last == p.last
    ensures r.active <==> p.active || (enabled && sessionId != "")
  {
    if !p.active && enabled && sessionId != "" then p.(active := true) else p
  }

  /** `stopPolling`: no interval is left running. */
  function StopPolling(p: Poller): (r: Poller)
    ensures !r.active && r.last == p.last
  {
    p.(active := false)
  }

  /** Stopping twice is stopping once, and starting an active poller changes nothing. */
  lemma StartStopIdempotent(p: Poller, enabled: bool, sessionId: string)
    ensures StopPolling(StopPolling(p)) == StopPolling(p)
    ensures StartPolling(StartPolling(p, enabled, sessionId), enabled, sessionId) == StartPolling(p, enabled, sessionId)
  {
  }

  /**
    The mount effect: unless disabled or without a session id, it starts an
    interval and the first poll's answer then arrives.
   */
  function Mount(p: Poller, enabled: bool, sessionId: string, firstResponse: Option<string>): (r: Polled)
    ensures !enabled || sessionId == "" ==> r == Polled(p, [])
    ensures enabled && sessionId != "" ==> r.next.active <==> Completed !in r.events
  {
    if !enabled || sessionId == "" then Polled(p, [])
    else Check(p.(active := true), firstResponse)
  }

  /** A session already completed on mount fires both callbacks and leaves no interval running. */
  lemma MountOnCompleted(sessionId: string)
    requires sessionId != ""
    ensures Mount(Idle, true, sessionId, Some("COMPLETED"))
      == Polled(Poller(Some("COMPLETED"), false), [StatusChanged("COMPLETED"), Completed])
  {
  }
}

=== FILE: statuses.dfy ===
/** The status vocabularies of the database schema and the log level enum. */
module Statuses {

  /** A student's grading status (Prisma enum `GradingStatus`). */
  datatype GradingStatus = Pending | Processing | Completed | Failed {

    /** COMPLETED and FAILED admit no further transition. */
    predicate IsTerminal() {
      this == GradingStatus.Completed || this == GradingStatus.Failed
    }

    /** The enum's string form, as it appears in results and log messages. */
    function Name(): string {
      match this
      case Pending => "PENDING"
      case Processing => "PROCESSING"
      case Completed => "COMPLETED"
      case Failed => "FAILED"
    }
  }

  /** A session's aggregate status (Prisma enum `SessionStatus`). */
  datatype SessionStatus = Pending | InProgress | Completed | Failed | Cancelled {

    function Name(): string {
      match this
      case Pending => "PENDING"
      case InProgress => "IN_PROGRESS"
      case Completed => "COMPLETED"
      case Failed => "FAILED"
      case Cancelled => "CANCELLED"
    }
  }

  /** Log levels; the database enum and the UI's lower-case levels name the same four values. */
  datatype LogLevel = Info | Warning | Error | Success {

    /** The UI's lower-case level name. */
    function Lower(): string {
      match this
      case Info => "info"
      case Warning => "warning"
      case Error => "error"
      case Success => "success"
    }

    /** `level.toUpperCase()` of the UI's lower-case level name. */
    function Upper(): string {
      match this
      case Info => "INFO"
      case Warning => "WARNING"
      case Error => "ERROR"
      case Success => "SUCCESS"
    }
  }

  /** Distinct grading statuses have distinct names. */
  lemma GradingNameInjective(a: GradingStatus, b: GradingStatus)
    ensures a.Name() == b.Name() ==> a == b
  {
  }
}

=== FILE: store.dfy ===
/**
  The persistent store as immutable values: the student, score, feedback,
  session and log tables. A Prisma transaction becomes one function from
  store to store, so its atomicity is by construction.
 */
module Store {
  import opened Wrappers
  import opened Statuses
  import Seqs

  datatype Student = Student(
    id: string,
    sessionId: string,
    name: string,
    taskId: Option<string>,
    status: GradingStatus,
    totalScore: Option<real>,
    maxScore: Option<real>,
    percentage: Option<real>,
    gradedAt: Option<int>)

  /** One `QuestionScore` row; its owner is the key it is filed under. */
  datatype QuestionScore = QuestionScore(questionId: string, score: real, maxScore: real)

  datatype FeedbackType = General | Strength | Improvement | Suggestion

  /** One `StudentFeedback` row; its owner is the key it is filed under. */
  datatype Feedback = Feedback(
    questionId: string,
    text: string,
    kind: FeedbackType,
    confidence: Option<real>,
    keywords: Option<seq<string>>)

  datatype Stats = Stats(average: real, highest: real, lowest: real, passingRate: real)

  datatype Session = Session(
    id: string,
    status: SessionStatus,
    startedAt: Option<int>,
    completedAt: Option<int>,
    updatedAt: int,
    stats: Option<Stats>)

  datatype LogRow = LogRow(
    sessionId: string,
    level: LogLevel,
    message: string,
    context: string,
    studentId: Option<string>)

  /**
    The database. `order` is the order in which a table scan returns the
    students; `scores` and `feedback` hold each student's rows by student id.
   */
  datatype Db = Db(
    order: seq<string>,
    students: map<string, Student>,
    scores: map<string, seq<QuestionScore>>,
    feedback: map<string, seq<Feedback>>,
    sessions: map<string, Session>,
    logs: seq<LogRow>)
  {
    /** Primary-key integrity of the student table. */
    predicate Valid() {
      && Seqs.Distinct(order)
      && (forall k :: k in students ==> k in order)
      && (forall i :: 0 <= i < |order| ==> order[i] in students)
      && (forall k :: k in students ==> students[k].id == k)
    }
  }

  /** The percentage column's rule: total over max, times 100, guarded against a zero maximum. */
  function Percentage(total: real, max: real): (p: real)
    ensures max > 0.0 ==> p * max == total * 100.0
    ensures max <= 0.0 ==> p == 0.0
  {
    if max > 0.0 then (total / max) * 100.0 else 0.0
  }

  /** A score of at most the maximum gives a percentage in [0, 100]. */
  lemma PercentageBounded(total: real, max: real)
    requires 0.0 <= total <= max
    ensures 0.0 <= Percentage(total, max) <= 100.0
  {
    if max > 0.0 {
      var p := Percentage(total, max);
      assert p * max == total * 100.0;
      assert p * max <= max * 100.0;
    }
  }

  /** The students of session `sid`, in table order. */
  function SessionStudents(order: seq<string>, students: map<string, Student>, sid: string): (r: seq<Student>)
    ensures forall s :: s in r ==> s.sessionId == sid && s in students.Values
    ensures forall k :: k in order && k in students && students[k].sessionId == sid ==> students[k] in r
  {
    if |order| == 0 then []
    else
      var rest := SessionStudents(order[1..], students, sid);
      if order[0] in students && students[order[0]].sessionId == sid then [students[order[0]]] + rest
      else rest
  }

  /** The ids of the student table that belong to session `sid`. */
  function InSession(students: map<string, Student>, sid: string): string -> bool {
    k => k in students && students[k].sessionId == sid
  }

  /**
    `SessionStudents` has one row per matching id of the table order, the
    i-th being the row of the i-th matching id, repeats included.
   */
  lemma {:induction false} SessionStudentsInOrder(order: seq<string>, students: map<string, Student>, sid: string)
    ensures var r, ids := SessionStudents(order, students, sid), Seqs.Filter(order, InSession(students, sid));
      && |r| == |ids| == Seqs.CountIf(order, InSession(students, sid))
      && forall i :: 0 <= i < |r| ==> ids[i] in students && r[i] == students[ids[i]]
    decreases |order|
  {
    if |order| > 0 {
      SessionStudentsInOrder(order[1..], students, sid);
      var rest, ids' := SessionStudents(order[1..], students, sid), Seqs.Filter(order[1..], InSession(students, sid));
      if InSession(students, sid)(order[0]) {
        assert SessionStudents(order, students, sid) == [students[order[0]]] + rest;
        assert Seqs.Filter(order, InSession(students, sid)) == [order[0]] + ids';
      } else {
        assert SessionStudents(order, students, sid) == rest;
        assert Seqs.Filter(order, InSession(students, sid)) == ids';
      }
    }
  }

  /** Changing anything but the students' session ids and statuses leaves the status list alone. */
  lemma {:induction false} SessionStatusesFrame(order: seq<string>, a: map<string, Student>, b: map<string, Student>, sid: string)
    requires a.Keys == b.Keys
    requires forall k :: k in a ==> a[k].sessionId == b[k].sessionId && a[k].status == b[k].status
    ensures StatusesOf(SessionStudents(order, a, sid)) == StatusesOf(SessionStudents(order, b, sid))
    decreases |order|
  {
    if |order| > 0 {
      SessionStatusesFrame(order[1..], a, b, sid);
    }
  }

  function StatusesOf(students: seq<Student>): (r: seq<GradingStatus>)
    ensures |r| == |students|
    ensures forall i :: 0 <= i < |r| ==> r[i] == students[i].status
  {
    if |students| == 0 then [] else [students[0].status] + StatusesOf(students[1..])
  }

  function ScoresOf(db: Db, sid: string): seq<QuestionScore> {
    if sid in db.scores then db.scores[sid] else []
  }

  function FeedbackOf(db: Db, sid: string): seq<Feedback> {
    if sid in db.feedback then db.feedback[sid] else []
  }

  /** `addLog`: appends one row; a failing log table is swallowed and yields no row. */
  function AddLog(db: Db, entry: LogRow, sinkUp: bool): (r: (Db, Option<LogRow>))
    ensures sinkUp ==> r.0 == db.(logs := db.logs + [entry]) && r.1 == Some(entry)
    ensures !sinkUp ==> r.0 == db && r.1 == None
  {
    if sinkUp then (db.(logs := db.logs + [entry]), Some(entry)) else (db, None)
  }
}

=== FILE: student_upload.dfy ===
/** The student-upload step: editing the student list and moving between students. */
module StudentUpload {
  import opened Wrappers

  /** An uploaded file, by name and MIME type. */
  datatype FileRef = FileRef(name: string, mime: string)

  /**
    A student row of the wizard: a temporary or database id, a name, an
    optional exam PDF, and the grading task id and status once grading starts.
   */
  datatype Student = Student(id: string, name: string, file: Option<FileRef>, taskId: Option<string>, status: Option<string>)

  /** The MIME type the step accepts. */
  const PdfMime := "application/pdf"

  /** Applies `edit` to the students with the id, leaving the others and the order alone. */
  function EditWhere(students: seq<Student>, id: string, edit: Student -> Student): (r: seq<Student>)
    ensures |r| == |students|
    ensures forall i :: 0 <= i < |r| ==> r[i] == if students[i].id == id then edit(students[i]) else students[i]
  {
    if |students| == 0 then []
    else
      var s := students[0];
      [if s.id == id then edit(s) else s] + EditWhere(students[1..], id, edit)
  }

  /** `handleNameChange`: renames the students with the id and nothing else. */
  function NameChange(students: seq<Student>, id: string, name: string): (r: seq<Student>)
    ensures |r| == |students|
    ensures forall i :: 0 <= i < |r| ==> r[i] == if students[i].id == id then students[i].(name := name) else students[i]
  {
    EditWhere(students, id, (s: Student) => s.(name := name))
  }

  /** Renaming to the current names changes nothing; the last rename wins. */
  lemma NameChangeLastWins(students: seq<Student>, id: string, first: string, second: string)
    ensures NameChange(NameChange(students, id, first), id, second) == NameChange(students, id, second)
  {
  }

  /** Sets the file of the students with the id. */
  function SetFile(students: seq<Student>, id: string, file: Option<FileRef>): (r: seq<Student>)
    ensures |r| == |students|
    ensures forall i :: 0 <= i < |r| ==> r[i] == if students[i].id == id then students[i].(file := file) else students[i]
  {
    EditWhere(students, id, (s: Student) => s.(file := file))
  }

  /** `handleFileUpload`: a file that is not a PDF is refused and the list is left as it is. */
  function FileUpload(students: seq<Student>, id: string, file: Option<FileRef>): (r: seq<Student>)
    ensures file.Some? && file.value.mime != PdfMime ==> r == students
    ensures !(file.Some? && file.value.mime != PdfMime) ==> r == SetFile(students, id, file)
  {
    if file.Some? && file.value.mime != PdfMime then students else SetFile(students, id, file)
  }

  /** `removeFile`: the students with the id lose their file. */
  function RemoveFile(students: seq<Student>, id: string): (r: seq<Student>)
    ensures |r| == |students|
    ensures forall i :: 0 <= i < |r| ==> r[i] == if students[i].id == id then students[i].(file := None) else students[i]
  {
    FileUpload(students, id, None)
  }

  /** Every student keeps a PDF or nothing, whatever is uploaded or removed. */
  lemma UploadsKeepOnlyPdfs(students: seq<Student>, id: string, file: Option<FileRef>)
    requires forall i :: 0 <= i < |students| ==> students[i].file.None? || students[i].file.value.mime == PdfMime
    ensures var r := FileUpload(students, id, file);
      forall i :: 0 <= i < |r| ==> r[i].file.None? || r[i].file.value.mime == PdfMime
  {
  }

  /** "Next Student": moves on unless on the last student. */
  function NextStudent(active: nat, count: nat): (r: nat)
    ensures r == active || r == active + 1
    ensures r == active + 1 <==> active + 1 < count
  {
    if active < count - 1 then active + 1 else active
  }

  /** "Previous Student": moves back unless on the first student. */
  function PreviousStudent(active: nat): (r: nat)
    ensures r == active || r + 1 == active
    ensures r + 1 == active <==> active > 0
  {
    if active > 0 then active - 1 else active
  }

  /** Navigation keeps the selection on a student, and each move is undone by the other. */
  lemma NavigationInBounds(active: nat, count: nat)
    requires active < count
    ensures NextStudent(active, count) < count
    ensures PreviousStudent(active) < count
    ensures active > 0 ==> NextStudent(PreviousStudent(active), count) == active
    ensures active + 1 < count ==> PreviousStudent(NextStudent(active, count)) == active
  {
  }

  /** Whether "Next Student" is enabled: not on the last student, and this one has a name and a file. */
  predicate NextEnabled(students: seq<Student>, active: nat) {
    active + 1 < |students| && students[active].name != "" && students[active].file.Some?
  }

  /** An enabled "Next Student" always moves. */
  lemma NextEnabledMoves(students: seq<Student>, active: nat)
    requires NextEnabled(students, active)
    ensures NextStudent(active, |students|) == active + 1
  {
  }
}

=== FILE: task_log_stream.dfy ===
/** The single-task log panel: status classification, message intake, pause and tab filter. */
module TaskLogStream {
  import opened Wrappers
  import opened Text
  import opened Statuses
  import opened LogView
  import Seqs

  /** A status naming a failure: it mentions ERROR, FAILED or MISSING. */
  ghost predicate ErrorWord(status: string) {
    Occurs(status, "ERROR") || Occurs(status, "FAILED") || Occurs(status, "MISSING")
  }

  /**
    `getLevelFromStatus`: the level of a new-format message. Failure words
    outrank WARNING, which outranks COMPLETED and SUCCESS; everything else,
    the empty status included, is info.
   */
  function LevelFromStatus(status: string): (l: LogLevel)
    ensures status == "" ==> l == LogLevel.Info
    ensures l == LogLevel.Error <==> ErrorWord(status)
    ensures l == LogLevel.Warning <==> !ErrorWord(status) && Occurs(status, "WARNING")
    ensures l == LogLevel.Success <==>
      !ErrorWord(status) && !Occurs(status, "WARNING")
      && (Occurs(status, "COMPLETED") || Occurs(status, "SUCCESS"))
  {
    ContainsIff(status, "ERROR");
    ContainsIff(status, "FAILED");
    ContainsIff(status, "MISSING");
    ContainsIff(status, "WARNING");
    ContainsIff(status, "COMPLETED");
    ContainsIff(status, "SUCCESS");
    if status == "" then LogLevel.Info
    else if Contains(status, "ERROR") || Contains(status, "FAILED") || Contains(status, "MISSING") then LogLevel.Error
    else if Contains(status, "WARNING") then LogLevel.Warning
    else if Contains(status, "COMPLETED") || Contains(status, "SUCCESS") then LogLevel.Success
    else LogLevel.Info
  }

  /** A status mentioning both ERROR and SUCCESS is an error. */
  lemma ErrorOutranksSuccess(status: string)
    requires Occurs(status, "ERROR") && Occurs(status, "SUCCESS")
    ensures LevelFromStatus(status) == LogLevel.Error
  {
  }

  /**
    The entry a socket message becomes in this panel; `None` is a message
    that does not parse, which the handler drops.
   */
  function ParseMessage(data: Option<WireMessage>, fmt: string -> string, nowText: string): (r: Option<LogEntry>)
    ensures r.Some? <==> data.Some?
    ensures r.Some? ==> r.value.taskId.None? && r.value.studentName.None?
  {
    match data
    case None => None
    case Some(d) => Some(FromWire(d, LevelFromStatus, fmt, nowText, None, None))
  }

  /** A new-format message is shown as an error exactly when its status names a failure. */
  lemma ParsedErrorLevel(d: WireMessage, fmt: string -> string, nowText: string)
    requires IsNewFormat(d)
    ensures ParseMessage(Some(d), fmt, nowText).value.level == Some("error") <==> ErrorWord(d.status.value)
    ensures ParseMessage(Some(d), fmt, nowText).value.context == d.status
  {
    var l := LevelFromStatus(d.status.value);
    assert l.Lower() == "error" <==> l == LogLevel.Error;
  }

  /**
    `onmessage` as written: the handler reads the pause flag captured when
    the socket was opened (`pausedAtConnect`), because the socket effect does
    not re-run when the flag changes.
   */
  function OnMessageAsWritten(
    st: Stream, data: Option<WireMessage>, pausedAtConnect: bool,
    fmt: string -> string, nowText: string): (r: Stream)
    ensures r.paused == st.paused
    ensures data.None? ==> r == st
    ensures pausedAtConnect ==> r.logs == st.logs
    ensures !pausedAtConnect ==> r.buffer == st.buffer
    ensures |r.logs| + |r.buffer| == |st.logs| + |st.buffer| + (if data.Some? then 1 else 0)
  {
    match ParseMessage(data, fmt, nowText)
    case None => st
    case Some(e) => if pausedAtConnect then st.(buffer := st.buffer + [e]) else st.(logs := st.logs + [e])
  }

  /** `onmessage` reading the current pause flag: an entry is held back exactly while paused. */
  function OnMessage(st: Stream, data: Option<WireMessage>, fmt: string -> string, nowText: string): (r: Stream)
    ensures r.paused == st.paused
    ensures st.paused ==> r.logs == st.logs
    ensures st.Valid() ==> r.Valid()
    ensures data.None? ==> r == st
    ensures st.Valid() && data.Some? ==> r.Content() == st.Content() + [ParseMessage(data, fmt, nowText).value]
  {
    match ParseMessage(data, fmt, nowText)
    case None => st
    case Some(e) => Receive(st, e)
  }

  /** A message every handler accepts. */
  const SampleMessage := WireMessage(Some("PROCESSING"), Some("t"), Some("working"), None, None)

  /**
    Pausing a panel whose socket was opened while live does not hold
    messages back: the next message is displayed while the panel shows
    itself as paused.
   */
  lemma StalePauseStillDisplays()
    ensures var paused := TogglePause(Fresh);
      && paused.paused
      && OnMessageAsWritten(paused, Some(SampleMessage), false, s => s, "now").logs != paused.logs
      && OnMessage(paused, Some(SampleMessage), s => s, "now").logs == paused.logs
  {
    var paused := TogglePause(Fresh);
    assert |OnMessageAsWritten(paused, Some(SampleMessage), false, s => s, "now").logs| == 1;
  }

  /**
    A socket opened while paused keeps buffering after resume: the entry is
    stranded in the buffer of a live panel until the next toggle.
   */
  lemma StalePauseStrandsEntries()
    ensures var live := Fresh;
      && !OnMessageAsWritten(live, Some(SampleMessage), true, s => s, "now").Valid()
      && OnMessage(live, Some(SampleMessage), s => s, "now").Valid()
  {
    assert |OnMessageAsWritten(Fresh, Some(SampleMessage), true, s => s, "now").buffer| == 1;
  }

  /** An error or warning entry, as the "errors" tab selects them. */
  predicate IsProblem(e: LogEntry) {
    e.level == Some("error") || e.level == Some("warning")
  }

  /** An entry written by the panel itself. */
  predicate IsSystem(e: LogEntry) {
    e.context == Some("system")
  }

  /** Whether the tab shows the entry; an unknown tab shows everything. */
  predicate Shown(tab: string, e: LogEntry) {
    if tab == "errors" then IsProblem(e)
    else if tab == "system" then IsSystem(e)
    else true
  }

  /** `Shown` for a fixed tab, as the predicate the filter applies. */
  function ShownBy(tab: string): LogEntry -> bool {
    e => Shown(tab, e)
  }

  /** `filteredLogs`: the entries the active tab shows, in order. */
  function FilterLogs(logs: seq<LogEntry>, tab: string): (r: seq<LogEntry>)
    ensures Seqs.IsSubsequence(r, logs)
    ensures tab != "errors" && tab != "system" ==> r == logs
    ensures tab == "errors" ==> forall i :: 0 <= i < |r| ==> IsProblem(r[i])
    ensures tab == "errors" ==> forall i :: 0 <= i < |logs| && IsProblem(logs[i]) ==> logs[i] in r
    ensures tab == "system" ==> forall i :: 0 <= i < |r| ==> IsSystem(r[i])
    ensures tab == "system" ==> forall i :: 0 <= i < |logs| && IsSystem(logs[i]) ==> logs[i] in r
    ensures |r| == Seqs.CountIf(logs, ShownBy(tab))
  {
    var keep := ShownBy(tab);
    if tab != "errors" && tab != "system" then
      Seqs.FilterKeepsAll(logs, keep);
      Seqs.Filter(logs, keep)
    else
      var r := Seqs.Filter(logs, keep);
      assert forall i :: 0 <= i < |r| ==> r[i] in r && keep(r[i]);
      r
  }
}

=== FILE: task_monitor_service.dfy ===
/**
  The task monitor: reconciles students' grading statuses with the grading
  server's task statuses. The server's response for a task id is an input
  (`fetch`), an error standing for any failure of the HTTP request.
 */
module TaskMonitor {
  import opened Wrappers
  import opened Statuses
  import opened Store
  import Seqs
  import SessionService

  /** Students reconciled per batch run. */
  const BatchSize: nat := 10

  datatype FeedbackItem = FeedbackItem(
    questionId: string,
    score: real,
    maxScore: real,
    feedback: string,
    confidence: Option<real>,
    keywords: Option<seq<string>>)

  /** The `result` part of a task response. */
  datatype GradingPayload = GradingPayload(totalScore: real, maxScore: real, feedback: seq<FeedbackItem>)

  /** A task response of the grading server. */
  datatype TaskResult = TaskResult(status: string, result: Option<GradingPayload>)

  /** One entry of a batch report. */
  datatype CheckResult = CheckResult(
    studentId: string,
    taskId: string,
    oldStatus: GradingStatus,
    newStatus: GradingStatus,
    updated: bool,
    error: Option<string>)

  // ---------------------------------------------------------------------------
  // Status mapping

  predicate IsSuccessWord(e: string) { e == "SUCCESS" || e == "COMPLETED" }
  predicate IsFailureWord(e: string) { e == "FAILURE" || e == "ERROR" }
  predicate IsProgressWord(e: string) { e == "PROGRESS" || e == "PROCESSING_PDF" }

  /** The grading status a task status maps to, given the student's current one. */
  function MapStatus(external: string, current: GradingStatus): (next: GradingStatus)
    ensures IsSuccessWord(external) ==> next == GradingStatus.Completed
    ensures IsFailureWord(external) ==> next == GradingStatus.Failed
    ensures IsProgressWord(external) && current == GradingStatus.Pending ==> next == GradingStatus.Processing
    ensures IsProgressWord(external) && current != GradingStatus.Pending ==> next == current
    ensures !IsSuccessWord(external) && !IsFailureWord(external) && !IsProgressWord(external) ==> next == current
  {
    if IsSuccessWord(external) then GradingStatus.Completed
    else if IsFailureWord(external) then GradingStatus.Failed
    else if IsProgressWord(external) && current == GradingStatus.Pending then GradingStatus.Processing
    else current
  }

  /** Mapping the same task status twice gives what mapping it once gave. */
  lemma MapStatusIdempotent(external: string, current: GradingStatus)
    ensures MapStatus(external, MapStatus(external, current)) == MapStatus(external, current)
  {
  }

  /**
    A changed status is a forward move: never back to PENDING, and into
    PROCESSING only from PENDING. COMPLETED may still turn FAILED, because a
    failure word is mapped whatever the old status.
   */
  lemma MapStatusChanges(external: string, current: GradingStatus)
    ensures MapStatus(external, current) == GradingStatus.Pending ==> current == GradingStatus.Pending
    ensures MapStatus(external, current) == GradingStatus.Processing && current != GradingStatus.Processing ==> current == GradingStatus.Pending
    ensures MapStatus(external, current) != current ==> IsSuccessWord(external) || IsFailureWord(external) || IsProgressWord(external)
    ensures MapStatus("FAILURE", GradingStatus.Completed) == GradingStatus.Failed
  {
  }

  // ---------------------------------------------------------------------------
  // Result write

  /** `item.confidence || null`: an absent or zero confidence is stored as null. */
  function ConfidenceOrNull(c: Option<real>): (r: Option<real>)
    ensures r.None? <==> c.None? || c == Some(0.0)
    ensures r.Some? ==> r == c
  {
    match c
    case Some(v) => if v == 0.0 then None else Some(v)
    case None => None
  }

  /** One question-score row per feedback item, in order. */
  function ItemScoreRows(items: seq<FeedbackItem>): (rows: seq<QuestionScore>)
    ensures |rows| == |items|
    ensures forall i :: 0 <= i < |items| ==>
      rows[i] == QuestionScore(items[i].questionId, items[i].score, items[i].maxScore)
  {
    SessionService.ScoreRows(seq(|items|, i requires 0 <= i < |items| =>
      SessionService.ScoreInput(items[i].questionId, items[i].score, items[i].maxScore)))
  }

  /** One GENERAL feedback row per feedback item, in order. */
  function ItemFeedbackRows(items: seq<FeedbackItem>): (rows: seq<Feedback>)
    ensures |rows| == |items|
    ensures forall i :: 0 <= i < |items| ==>
      && rows[i].questionId == items[i].questionId
      && rows[i].text == items[i].feedback
      && rows[i].kind == FeedbackType.General
      && rows[i].confidence == ConfidenceOrNull(items[i].confidence)
      && rows[i].keywords == items[i].keywords
  {
    seq(|items|, i requires 0 <= i < |items| =>
      Feedback(items[i].questionId, items[i].feedback, FeedbackType.General,
               ConfidenceOrNull(items[i].confidence), items[i].keywords))
  }

  /**
    `updateStudentWithResults`, one transaction: totals straight from the
    payload, the guarded percentage, and the student's score and feedback
    rows replaced by one row each per feedback item (none when there are none).
   */
  function ApplyResult(db: Db, studentId: string, payload: GradingPayload): (r: Result<Db, string>)
    ensures r.Err? <==> studentId !in db.students
    ensures r.Ok? ==>
      var s := db.students[studentId];
      && studentId in r.value.students
      && var s' := r.value.students[studentId];
      && s'.totalScore == Some(payload.totalScore)
      && s'.maxScore == Some(payload.maxScore)
      && s'.percentage == Some(Percentage(payload.totalScore, payload.maxScore))
      && s' == s.(totalScore := s'.totalScore, maxScore := s'.maxScore, percentage := s'.percentage)
      && ScoresOf(r.value, studentId) == ItemScoreRows(payload.feedback)
      && FeedbackOf(r.value, studentId) == ItemFeedbackRows(payload.feedback)
    ensures r.Ok? ==>
      && r.value.order == db.order && r.value.sessions == db.sessions && r.value.logs == db.logs
      && r.value.students.Keys == db.students.Keys
      && (forall k :: k in db.students && k != studentId ==> r.value.students[k] == db.students[k])
      && (forall k :: k != studentId ==> ScoresOf(r.value, k) == ScoresOf(db, k) && FeedbackOf(r.value, k) == FeedbackOf(db, k))
  {
    if studentId !in db.students then Err("Failed to update student with results")
    else
      var s := db.students[studentId];
      var s' := s.(totalScore := Some(payload.totalScore), maxScore := Some(payload.maxScore),
                   percentage := Some(Percentage(payload.totalScore, payload.maxScore)));
      Ok(db.(students := db.students[studentId := s'],
             scores := db.scores[studentId := ItemScoreRows(payload.feedback)],
             feedback := db.feedback[studentId := ItemFeedbackRows(payload.feedback)]))
  }

  /** The status write: the new status, and `gradedAt` stamped only for COMPLETED. */
  function WriteStatus(db: Db, studentId: string, next: GradingStatus, now: int): (r: Result<Db, string>)
    ensures r.Err? <==> studentId !in db.students
    ensures r.Ok? ==>
      var s := db.students[studentId];
      && studentId in r.value.students
      && r.value.students[studentId].status == next
      && r.value.students[studentId].gradedAt == (if next == GradingStatus.Completed then Some(now) else s.gradedAt)
      && r.value.students[studentId] == s.(status := next, gradedAt := r.value.students[studentId].gradedAt)
      && r.value == db.(students := r.value.students)
      && r.value.students.Keys == db.students.Keys
      && (forall k :: k in db.students && k != studentId ==> r.value.students[k] == db.students[k])
  {
    if studentId !in db.students then Err("Failed to update student status")
    else
      var s := db.students[studentId];
      var graded := if next == GradingStatus.Completed then Some(now) else s.gradedAt;
      Ok(db.(students := db.students[studentId := s.(status := next, gradedAt := graded)]))
  }

  // ---------------------------------------------------------------------------
  // Reconciling one student

  /**
    The report entry of a student checked against `response`: a failed request
    keeps the old status and reports the error; otherwise the mapped status,
    updated exactly when it differs from the old one.
   */
  function Expected(s: Student, response: Result<TaskResult, string>): (c: CheckResult)
    requires s.taskId.Some?
    ensures c.studentId == s.id && c.taskId == s.taskId.value && c.oldStatus == s.status
    ensures c.error.Some? <==> response.Err?
    ensures c.updated <==> c.newStatus != c.oldStatus
    ensures c.error.Some? ==> c.newStatus == c.oldStatus
  {
    match response
    case Err(e) => CheckResult(s.id, s.taskId.value, s.status, s.status, false, Some(e))
    case Ok(t) =>
      var next := MapStatus(t.status, s.status);
      CheckResult(s.id, s.taskId.value, s.status, next, next != s.status, None)
  }

  /** A report entry never counts as both updated and failed. */
  lemma ExpectedNotBoth(s: Student, response: Result<TaskResult, string>)
    requires s.taskId.Some?
    ensures !(Expected(s, response).updated && Expected(s, response).error.Some?)
  {
  }

  /** A student's row together with the question-score rows and feedback rows that belong to it. */
  datatype Slot = Slot(row: Student, scores: seq<QuestionScore>, feedback: seq<Feedback>)

  function SlotOf(db: Db, k: string): Slot
    requires k in db.students
  {
    Slot(db.students[k], ScoresOf(db, k), FeedbackOf(db, k))
  }

  /**
    What checking the snapshot `s` against the task response `t` makes of the
    student's slot, computed on the slot alone: a success word with a payload
    replaces the totals, the percentage and both row lists; the status is
    written only when the mapped status differs from the snapshot's, and
    `gradedAt` is stamped only when that write is COMPLETED.
   */
  function CheckedSlot(slot: Slot, s: Student, t: TaskResult, now: int): (r: Slot)
    requires s.taskId.Some?
    ensures r.row.id == slot.row.id && r.row.name == slot.row.name
    ensures r.row.taskId == slot.row.taskId && r.row.sessionId == slot.row.sessionId
    ensures slot.row.status == s.status ==> r.row.status == Expected(s, Ok(t)).newStatus
    ensures r.row.gradedAt != slot.row.gradedAt ==> r.row.gradedAt == Some(now) && r.row.status == GradingStatus.Completed
    ensures !IsSuccessWord(t.status) ==> r.scores == slot.scores && r.feedback == slot.feedback
  {
    var c := Expected(s, Ok(t));
    var status := if c.updated then c.newStatus else slot.row.status;
    var graded := if c.updated && c.newStatus == GradingStatus.Completed then Some(now) else slot.row.gradedAt;
    if HasResults(t) then
      var p := t.result.value;
      Slot(slot.row.(status := status, gradedAt := graded, totalScore := Some(p.totalScore), maxScore := Some(p.maxScore),
                     percentage := Some(Percentage(p.totalScore, p.maxScore))),
           ItemScoreRows(p.feedback), ItemFeedbackRows(p.feedback))
    else
      Slot(slot.row.(status := status, gradedAt := graded), slot.scores, slot.feedback)
  }

  /** Whether a task response carries results to write: a success word with a payload. */
  predicate HasResults(t: TaskResult) {
    IsSuccessWord(t.status) && t.result.Some?
  }

  /** The first write of a successful check: the payload's results, when the response carries them. */
  function ResultsWrite(db: Db, id: string, t: TaskResult): (d: Db)
    requires id in db.students
    ensures id in d.students
    ensures !HasResults(t) ==> d == db
    ensures HasResults(t) ==>
      var p := t.result.value;
      SlotOf(d, id) == Slot(db.students[id].(totalScore := Some(p.totalScore), maxScore := Some(p.maxScore),
                                               percentage := Some(Percentage(p.totalScore, p.maxScore))),
                            ItemScoreRows(p.feedback), ItemFeedbackRows(p.feedback))
    ensures d.order == db.order && d.sessions == db.sessions && d.logs == db.logs
    ensures d.students.Keys == db.students.Keys
    ensures forall k :: k in db.students && k != id ==> d.students[k] == db.students[k]
    ensures forall k :: k != id ==> ScoresOf(d, k) == ScoresOf(db, k) && FeedbackOf(d, k) == FeedbackOf(db, k)
  {
    if HasResults(t) then ApplyResult(db, id, t.result.value).value else db
  }

  /** The second write of a successful check: the mapped status, only when it differs from the snapshot's. */
  function StatusWrite(db: Db, s: Student, t: TaskResult, now: int): (d: Db)
    requires s.id in db.students
    ensures var next := MapStatus(t.status, s.status);
      var row := db.students[s.id];
      if next != s.status then
        d == db.(students := db.students[s.id := row.(status := next, gradedAt := if next == GradingStatus.Completed then Some(now) else row.gradedAt)])
      else d == db
  {
    var next := MapStatus(t.status, s.status);
    if next != s.status then WriteStatus(db, s.id, next, now).value else db
  }

  /**
    The writes of a check whose request succeeded with `t`: the payload's
    results first, then the status. The student's slot becomes `CheckedSlot`
    of the old one and nothing else in the database changes.
   */
  function CheckWrites(db: Db, s: Student, t: TaskResult, now: int): (d: Db)
    requires s.taskId.Some? && s.id in db.students
    ensures s.id in d.students && SlotOf(d, s.id) == CheckedSlot(SlotOf(db, s.id), s, t, now)
    ensures d.order == db.order && d.sessions == db.sessions && d.logs == db.logs
    ensures d.students.Keys == db.students.Keys
    ensures forall k :: k in db.students && k != s.id ==> d.students[k] == db.students[k]
    ensures forall k :: k != s.id ==> ScoresOf(d, k) == ScoresOf(db, k) && FeedbackOf(d, k) == FeedbackOf(db, k)
  {
    StatusWrite(ResultsWrite(db, s.id, t), s, t, now)
  }

  /**
    `checkAndUpdateStudentTask` for the snapshot `s` of a student: a failed
    request throws; otherwise the writes of `CheckWrites` and the entry
    `Expected` gives.
   */
  function CheckStudent(db: Db, s: Student, response: Result<TaskResult, string>, now: int): (r: Result<(Db, CheckResult), string>)
    requires s.taskId.Some? && s.id in db.students
    ensures r.Err? <==> response.Err?
    ensures response.Err? ==> r == Err(response.error)
    ensures r.Ok? ==> r.value.1 == Expected(s, response)
    ensures r.Ok? ==>
      && s.id in r.value.0.students
      && SlotOf(r.value.0, s.id) == CheckedSlot(SlotOf(db, s.id), s, response.value, now)
    ensures r.Ok? ==>
      var d := r.value.0;
      && d.order == db.order && d.sessions == db.sessions && d.logs == db.logs
      && d.students.Keys == db.students.Keys
      && (forall k :: k in db.students && k != s.id ==> d.students[k] == db.students[k])
      && (forall k :: k != s.id ==> ScoresOf(d, k) == ScoresOf(db, k) && FeedbackOf(d, k) == FeedbackOf(db, k))
  {
    if response.Err? then Err(response.error)
    else Ok((CheckWrites(db, s, response.value, now), Expected(s, response)))
  }

  /**
    The slot `cur` holds for student `s.id` is the one checking `s` against
    `response` in `db` leaves, or `db`'s own when the request failed.
   */
  ghost predicate CheckedInto(db: Db, s: Student, response: Result<TaskResult, string>, now: int, cur: Db)
    requires s.taskId.Some? && s.id in db.students
  {
    && s.id in cur.students
    && SlotOf(cur, s.id) == (if response.Ok? then CheckedSlot(SlotOf(db, s.id), s, response.value, now) else SlotOf(db, s.id))
  }

  /**
    Reconciliation is idempotent: checking the written student again against
    the same response changes no status.
   */
  lemma ReconcileIdempotent(db: Db, s: Student, response: Result<TaskResult, string>, now: int, later: int)
    requires s.taskId.Some? && s.id in db.students && db.students[s.id] == s
    requires CheckStudent(db, s, response, now).Ok?
    ensures var d := CheckStudent(db, s, response, now).value.0;
      && d.students[s.id].taskId.Some?
      && CheckStudent(d, d.students[s.id], response, later).Ok?
      && !CheckStudent(d, d.students[s.id], response, later).value.1.updated
  {
    var d := CheckStudent(db, s, response, now).value.0;
    MapStatusIdempotent(response.value.status, s.status);
    assert d.students[s.id].status == MapStatus(response.value.status, s.status);
  }

  // ---------------------------------------------------------------------------
  // Batch run

  /** The batch query's filter: a task id and a non-terminal status. */
  predicate Eligible(s: Student) {
    s.taskId.Some? && (s.status == GradingStatus.Pending || s.status == GradingStatus.Processing)
  }

  /** Ids of the eligible students, in table order. */
  function EligibleIds(db: Db): (r: seq<string>)
    ensures Seqs.IsSubsequence(r, db.order)
    ensures forall k :: k in r ==> k in db.students && Eligible(db.students[k])
    ensures forall i :: 0 <= i < |db.order| && db.order[i] in db.students && Eligible(db.students[db.order[i]]) ==> db.order[i] in r
  {
    Seqs.Filter(db.order, k => k in db.students && Eligible(db.students[k]))
  }

  /** `findMany({ where: eligible, take: BATCH_SIZE })`: the first ten eligible ids. */
  function SelectedIds(db: Db): (r: seq<string>)
    ensures |r| <= BatchSize
    ensures forall k :: k in r ==> k in db.students && Eligible(db.students[k])
    ensures |r| == (if |EligibleIds(db)| <= BatchSize then |EligibleIds(db)| else BatchSize)
    ensures r == EligibleIds(db)[..|r|]
  {
    var e := EligibleIds(db);
    if |e| <= BatchSize then e else e[..BatchSize]
  }

  /** On a valid store the batch never names a student twice. */
  lemma SelectedDistinct(db: Db)
    requires db.Valid()
    ensures Seqs.Distinct(SelectedIds(db))
  {
    var e := EligibleIds(db);
    Seqs.SubsequenceDistinct(e, db.order);
  }

  /** Number of report entries with `updated` set. */
  function CountUpdated(rs: seq<CheckResult>): (n: nat)
    ensures n <= |rs|
  {
    if |rs| == 0 then 0 else CountUpdated(rs[..|rs| - 1]) + (if rs[|rs| - 1].updated then 1 else 0)
  }

  /** Number of report entries carrying an error. */
  function CountErrors(rs: seq<CheckResult>): (n: nat)
    ensures n <= |rs|
  {
    if |rs| == 0 then 0 else CountErrors(rs[..|rs| - 1]) + (if rs[|rs| - 1].error.Some? then 1 else 0)
  }

  /** Appending one entry adds its own contribution to each count. */
  lemma CountsAppend(rs: seq<CheckResult>, e: CheckResult)
    ensures CountUpdated(rs + [e]) == CountUpdated(rs) + (if e.updated then 1 else 0)
    ensures CountErrors(rs + [e]) == CountErrors(rs) + (if e.error.Some? then 1 else 0)
  {
    assert (rs + [e])[..|rs|] == rs;
  }

  /** Entries that are never both updated and failed are counted at most once in total. */
  lemma {:induction false} CountsBounded(rs: seq<CheckResult>)
    requires forall i :: 0 <= i < |rs| ==> !(rs[i].updated && rs[i].error.Some?)
    ensures CountUpdated(rs) + CountErrors(rs) <= |rs|
    decreases |rs|
  {
    if |rs| > 0 {
      var init := rs[..|rs| - 1];
      assert forall i :: 0 <= i < |init| ==> init[i] == rs[i];
      CountsBounded(init);
    }
  }

  datatype BatchReport = BatchReport(processed: nat, updated: nat, errors: nat, results: seq<CheckResult>)

  /**
    One turn of the batch loop: check the student; a change is logged, a
    failure is caught, reported with the old status and logged as an error.
    Apart from the log the database is what the check leaves, or untouched
    when the check fails.
   */
  method BatchStep(db: Db, s: Student, response: Result<TaskResult, string>, now: int, sinkUp: bool)
    returns (d: Db, entry: CheckResult)
    requires s.taskId.Some? && s.id in db.students
    ensures entry == Expected(s, response)
    ensures CheckedInto(db, s, response, now, d)
    ensures d.order == db.order && d.sessions == db.sessions && d.students.Keys == db.students.Keys
    ensures forall k :: k in db.students && k != s.id ==> d.students[k] == db.students[k]
    ensures forall k :: k != s.id ==> ScoresOf(d, k) == ScoresOf(db, k) && FeedbackOf(d, k) == FeedbackOf(db, k)
    ensures var logged := sinkUp && (entry.updated || entry.error.Some?);
      && |d.logs| == |db.logs| + (if logged then 1 else 0)
      && d.logs[..|db.logs|] == db.logs
      && (logged ==>
            && d.logs[|db.logs|].sessionId == s.sessionId
            && d.logs[|db.logs|].level == (if entry.updated then Info else LogLevel.Error))
  {
    entry := Expected(s, response);
    var checked := CheckStudent(db, s, response, now);
    if checked.Ok? {
      d := checked.value.0;
      if entry.updated {
        var line := "Student " + s.name + " status updated from " + entry.oldStatus.Name() + " to " + entry.newStatus.Name();
        d := AddLog(d, LogRow(s.sessionId, Info, line, "system", None), sinkUp).0;
      }
    } else {
      var line := "Failed to check task status for student " + s.name + ": " + checked.error;
      d := AddLog(db, LogRow(s.sessionId, LogLevel.Error, line, "system", None), sinkUp).0;
    }
  }

  /** The session ids of the selected students, in batch order. */
  function SessionIdsOf(db: Db, ids: seq<string>): (r: seq<string>)
    requires forall k :: k in ids ==> k in db.students
    ensures |r| == |ids|
    ensures forall i :: 0 <= i < |ids| ==> r[i] == db.students[ids[i]].sessionId
  {
    seq(|ids|, i requires 0 <= i < |ids| => db.students[ids[i]].sessionId)
  }

  /** The snapshot entry expected for the `i`-th selected student. */
  function ExpectedAt(db: Db, sel: seq<string>, fetch: string -> Result<TaskResult, string>, i: nat): CheckResult
    requires i < |sel| && sel[i] in db.students && db.students[sel[i]].taskId.Some?
  {
    var s := db.students[sel[i]];
    Expected(s, fetch(s.taskId.value))
  }

  /** The entries expected for the first `n` students of `sel`, in order. */
  function ExpectedPrefix(db: Db, sel: seq<string>, fetch: string -> Result<TaskResult, string>, n: nat): (r: seq<CheckResult>)
    requires n <= |sel|
    requires forall k :: k in sel ==> k in db.students && db.students[k].taskId.Some?
    ensures |r| == n
    ensures forall j :: 0 <= j < n ==> r[j] == ExpectedAt(db, sel, fetch, j)
  {
    if n == 0 then [] else ExpectedPrefix(db, sel, fetch, n - 1) + [ExpectedAt(db, sel, fetch, n - 1)]
  }

  /**
    `cur` is `db` after checking the students `ids` (each against the response
    for its own task id): each of them holds what its check leaves, and every
    other student row, score row and feedback row is untouched.
   */
  ghost predicate BatchWritten(db: Db, ids: seq<string>, fetch: string -> Result<TaskResult, string>, now: int, cur: Db)
    requires forall k :: k in ids ==> k in db.students && db.students[k].id == k && db.students[k].taskId.Some?
  {
    && cur.order == db.order && cur.students.Keys == db.students.Keys
    && (forall k :: k in ids ==> CheckedInto(db, db.students[k], fetch(db.students[k].taskId.value), now, cur))
    && (forall k :: k in db.students && k !in ids ==> cur.students[k] == db.students[k])
    && (forall k :: k !in ids ==> ScoresOf(cur, k) == ScoresOf(db, k) && FeedbackOf(cur, k) == FeedbackOf(db, k))
  }

  /** `BatchWritten` looks only at the order, the students, the score rows and the feedback rows. */
  lemma BatchWrittenSame(db: Db, ids: seq<string>, fetch: string -> Result<TaskResult, string>, now: int, a: Db, b: Db)
    requires forall k :: k in ids ==> k in db.students && db.students[k].id == k && db.students[k].taskId.Some?
    requires BatchWritten(db, ids, fetch, now, a)
    requires b.order == a.order && b.students == a.students && b.scores == a.scores && b.feedback == a.feedback
    ensures BatchWritten(db, ids, fetch, now, b)
  {
    forall k | k in ids
      ensures CheckedInto(db, db.students[k], fetch(db.students[k].taskId.value), now, b)
    {
      assert ScoresOf(b, k) == ScoresOf(a, k) && FeedbackOf(b, k) == FeedbackOf(a, k);
    }
    forall k | k !in ids
      ensures ScoresOf(b, k) == ScoresOf(db, k) && FeedbackOf(b, k) == FeedbackOf(db, k)
    {
      assert ScoresOf(b, k) == ScoresOf(a, k) && FeedbackOf(b, k) == FeedbackOf(a, k);
    }
  }

  /** A student checked into `cur` holds the status its report entry names. */
  lemma CheckedStatus(db: Db, s: Student, response: Result<TaskResult, string>, now: int, cur: Db)
    requires s.taskId.Some? && s.id in db.students && db.students[s.id] == s
    requires CheckedInto(db, s, response, now, cur)
    ensures cur.students[s.id].status == Expected(s, response).newStatus
  {
  }

  /** `CheckedInto` looks at nothing of `cur` but the student's slot. */
  lemma CheckedIntoSame(db: Db, s: Student, response: Result<TaskResult, string>, now: int, a: Db, b: Db)
    requires s.taskId.Some? && s.id in db.students
    requires s.id in a.students && s.id in b.students && SlotOf(a, s.id) == SlotOf(b, s.id)
    ensures CheckedInto(db, s, response, now, a) <==> CheckedInto(db, s, response, now, b)
  {
  }

  /** In a list without repetitions the next id is not among those before it. */
  lemma NextNotDone(sel: seq<string>, i: nat)
    requires i < |sel| && Seqs.Distinct(sel)
    ensures sel[i] !in sel[..i]
    ensures sel[..i + 1] == sel[..i] + [sel[i]]
  {
    forall j | 0 <= j < i ensures sel[..i][j] != sel[i] {
      assert sel[..i][j] == sel[j];
    }
  }

  /**
    Checking the next student of the batch, whose row is still untouched,
    extends `BatchWritten` to it and leaves the students already done alone.
   */
  lemma BatchWrittenStep(db: Db, sel: seq<string>, fetch: string -> Result<TaskResult, string>, now: int, i: nat, cur: Db, cur': Db)
    requires i < |sel| && Seqs.Distinct(sel)
    requires forall k :: k in sel ==> k in db.students && db.students[k].id == k && db.students[k].taskId.Some?
    requires BatchWritten(db, sel[..i], fetch, now, cur)
    requires var s := db.students[sel[i]];
      && CheckedInto(cur, s, fetch(s.taskId.value), now, cur')
      && cur'.order == cur.order && cur'.students.Keys == cur.students.Keys
      && (forall k :: k in cur.students && k != s.id ==> cur'.students[k] == cur.students[k])
      && (forall k :: k != s.id ==> ScoresOf(cur', k) == ScoresOf(cur, k) && FeedbackOf(cur', k) == FeedbackOf(cur, k))
    ensures BatchWritten(db, sel[..i + 1], fetch, now, cur')
  {
    var s := db.students[sel[i]];
    NextNotDone(sel, i);
    assert SlotOf(cur, sel[i]) == SlotOf(db, sel[i]);
    forall k | k in sel[..i]
      ensures CheckedInto(db, db.students[k], fetch(db.students[k].taskId.value), now, cur')
    {
      assert SlotOf(cur', k) == SlotOf(cur, k);
      CheckedIntoSame(db, db.students[k], fetch(db.students[k].taskId.value), now, cur, cur');
    }
    forall k | k !in sel[..i + 1]
      ensures ScoresOf(cur', k) == ScoresOf(db, k) && FeedbackOf(cur', k) == FeedbackOf(db, k)
    {
      assert ScoresOf(cur', k) == ScoresOf(cur, k) && FeedbackOf(cur', k) == FeedbackOf(cur, k);
    }
  }

  /**
    The report side of the batch loop after the first `i` students of `sel`:
    their expected entries, the two counts, and one log line appended per
    change and per failure when the log table is reachable.
   */
  ghost predicate Tallied(db: Db, sel: seq<string>, fetch: string -> Result<TaskResult, string>, sinkUp: bool, i: nat,
                          cur: Db, results: seq<CheckResult>, updated: nat, errors: nat)
    requires i <= |sel|
    requires forall k :: k in sel ==> k in db.students && db.students[k].taskId.Some?
  {
    && cur.sessions == db.sessions
    && results == ExpectedPrefix(db, sel, fetch, i)
    && updated == CountUpdated(results) && errors == CountErrors(results)
    && |cur.logs| == |db.logs| + (if sinkUp then updated + errors else 0)
    && cur.logs[..|db.logs|] == db.logs
  }

  /** One more student's entry and log line keep `Tallied`. */
  lemma TalliedStep(db: Db, sel: seq<string>, fetch: string -> Result<TaskResult, string>, sinkUp: bool, i: nat,
                    cur: Db, results: seq<CheckResult>, updated: nat, errors: nat, cur': Db, entry: CheckResult)
    requires i < |sel|
    requires forall k :: k in sel ==> k in db.students && db.students[k].taskId.Some?
    requires Tallied(db, sel, fetch, sinkUp, i, cur, results, updated, errors)
    requires entry == ExpectedAt(db, sel, fetch, i) && cur'.sessions == cur.sessions
    requires var logged := sinkUp && (entry.updated || entry.error.Some?);
      && |cur'.logs| == |cur.logs| + (if logged then 1 else 0)
      && cur'.logs[..|cur.logs|] == cur.logs
    ensures Tallied(db, sel, fetch, sinkUp, i + 1, cur', results + [entry],
                    if entry.updated then updated + 1 else updated,
                    if entry.error.Some? then errors + 1 else errors)
  {
    var s := db.students[sel[i]];
    ExpectedNotBoth(s, fetch(s.taskId.value));
    CountsAppend(results, entry);
    Seqs.PrefixOfPrefix(db.logs, cur.logs, cur'.logs);
  }

  /** One turn of the batch loop keeps `Tallied` and `BatchWritten`, one student further. */
  method ReconcileNext(db: Db, sel: seq<string>, fetch: string -> Result<TaskResult, string>, now: int, sinkUp: bool,
                       i: nat, cur: Db, results: seq<CheckResult>, updated: nat, errors: nat)
    returns (cur': Db, results': seq<CheckResult>, updated': nat, errors': nat)
    requires i < |sel| && Seqs.Distinct(sel)
    requires forall k :: k in sel ==> k in db.students && db.students[k].id == k && db.students[k].taskId.Some?
    requires Tallied(db, sel, fetch, sinkUp, i, cur, results, updated, errors)
    requires BatchWritten(db, sel[..i], fetch, now, cur)
    ensures Tallied(db, sel, fetch, sinkUp, i + 1, cur', results', updated', errors')
    ensures BatchWritten(db, sel[..i + 1], fetch, now, cur')
  {
    var s := db.students[sel[i]];
    var entry;
    cur', entry := BatchStep(cur, s, fetch(s.taskId.value), now, sinkUp);
    BatchWrittenStep(db, sel, fetch, now, i, cur, cur');
    TalliedStep(db, sel, fetch, sinkUp, i, cur, results, updated, errors, cur', entry);
    updated' := if entry.updated then updated + 1 else updated;
    errors' := if entry.error.Some? then errors + 1 else errors;
    results' := results + [entry];
  }

  /**
    The reconciliation loop over the batch `sel` (distinct student ids): one
    entry per student, each computed from that student's snapshot and
    response alone; each student holds what its own check leaves, nobody
    else is touched, and one log line is appended per change and per failure.
   */
  method ReconcileBatch(db: Db, sel: seq<string>, fetch: string -> Result<TaskResult, string>, now: int, sinkUp: bool)
    returns (cur: Db, results: seq<CheckResult>, updated: nat, errors: nat)
    requires Seqs.Distinct(sel)
    requires forall k :: k in sel ==> k in db.students && db.students[k].id == k && db.students[k].taskId.Some?
    ensures |results| == |sel|
    ensures forall j :: 0 <= j < |sel| ==> results[j] == ExpectedAt(db, sel, fetch, j)
    ensures updated == CountUpdated(results) && errors == CountErrors(results)
    ensures BatchWritten(db, sel, fetch, now, cur)
    ensures forall j :: 0 <= j < |sel| ==> cur.students[sel[j]].status == results[j].newStatus
    ensures cur.sessions == db.sessions
    ensures |cur.logs| == |db.logs| + (if sinkUp then updated + errors else 0)
    ensures cur.logs[..|db.logs|] == db.logs
  {
    cur := db;
    results := [];
    updated, errors := 0, 0;
    var i := 0;
    while i < |sel|
      invariant 0 <= i <= |sel|
      invariant Tallied(db, sel, fetch, sinkUp, i, cur, results, updated, errors)
      invariant BatchWritten(db, sel[..i], fetch, now, cur)
    {
      cur, results, updated, errors := ReconcileNext(db, sel, fetch, now, sinkUp, i, cur, results, updated, errors);
      i := i + 1;
    }
    assert sel[..i] == sel;
    forall j | 0 <= j < |sel| ensures cur.students[sel[j]].status == results[j].newStatus {
      var s := db.students[sel[j]];
      CheckedStatus(db, s, fetch(s.taskId.value), now, cur);
    }
  }

  /**
    `cur` is `db` after rechecking the first `k` sessions of `sids`: the
    student side untouched, each session rechecked so far holding its
    rechecked record and every other session its original one.
   */
  predicate RecheckedUpTo(db: Db, sids: seq<string>, k: nat, now: int, cur: Db)
    requires k <= |sids|
  {
    && cur.students == db.students && cur.order == db.order
    && cur.scores == db.scores && cur.feedback == db.feedback
    && cur.sessions.Keys == db.sessions.Keys
    && forall x :: x in db.sessions ==>
         cur.sessions[x] == (if x in sids[..k] then SessionService.RecheckedSession(db.order, db.students, x, db.sessions[x], now) else db.sessions[x])
  }

  /** One recheck of the loop keeps `RecheckedUpTo`. */
  lemma RecheckStep(db: Db, sids: seq<string>, k: nat, now: int, sinkUp: bool, cur: Db)
    requires k < |sids| && RecheckedUpTo(db, sids, k, now, cur)
    ensures var rr := SessionService.CheckAndUpdateSessionStatus(cur, sids[k], now, sinkUp);
      RecheckedUpTo(db, sids, k + 1, now, if rr.Ok? then rr.value else cur)
  {
    var sid := sids[k];
    assert sids[..k + 1] == sids[..k] + [sid];
    if sid in cur.sessions {
      SessionService.RecheckFrame(cur, sid, now, sinkUp);
      SessionService.RecheckWritesSession(cur, sid, now, sinkUp);
      SessionService.RecheckedSessionStable(db.order, db.students, sid, db.sessions[sid], now, now);
    }
  }

  /**
    Rechecks each session of `sids` in turn; a failing recheck (an unknown
    session) is skipped. Each listed session ends with the record a single
    recheck against the unchanged students gives, however often it is listed.
   */
  method RecheckSessions(db: Db, sids: seq<string>, now: int, sinkUp: bool) returns (cur: Db)
    ensures cur.students == db.students && cur.order == db.order
    ensures cur.scores == db.scores && cur.feedback == db.feedback
    ensures cur.sessions.Keys == db.sessions.Keys
    ensures forall k :: k in db.sessions && k !in sids ==> cur.sessions[k] == db.sessions[k]
    ensures forall k :: k in db.sessions && k in sids ==>
      cur.sessions[k] == SessionService.RecheckedSession(db.order, db.students, k, db.sessions[k], now)
  {
    cur := db;
    var k := 0;
    while k < |sids|
      invariant 0 <= k <= |sids|
      invariant RecheckedUpTo(db, sids, k, now, cur)
    {
      RecheckStep(db, sids, k, now, sinkUp, cur);
      var rr := SessionService.CheckAndUpdateSessionStatus(cur, sids[k], now, sinkUp);
      if rr.Ok? {
        cur := rr.value;
      }
      k := k + 1;
    }
    assert sids[..k] == sids;
  }

  /**
    The reconciliation half of `checkAllPendingTasks`: the selected batch
    reconciled, and its report with the counts bounded by the batch size.
   */
  method RunBatch(db: Db, fetch: string -> Result<TaskResult, string>, now: int, sinkUp: bool)
    returns (cur: Db, report: BatchReport)
    requires db.Valid()
    ensures report.processed == |SelectedIds(db)| == |report.results|
    ensures forall i :: 0 <= i < |report.results| ==> report.results[i] == ExpectedAt(db, SelectedIds(db), fetch, i)
    ensures report.updated == CountUpdated(report.results)
    ensures report.errors == CountErrors(report.results)
    ensures report.updated + report.errors <= report.processed
    ensures BatchWritten(db, SelectedIds(db), fetch, now, cur)
    ensures forall i :: 0 <= i < |report.results| ==> cur.students[SelectedIds(db)[i]].status == report.results[i].newStatus
    ensures cur.sessions == db.sessions
  {
    var sel := SelectedIds(db);
    SelectedDistinct(db);
    var results, updated, errors;
    cur, results, updated, errors := ReconcileBatch(db, sel, fetch, now, sinkUp);
    forall j | 0 <= j < |results| ensures !(results[j].updated && results[j].error.Some?) {
      ExpectedNotBoth(db.students[sel[j]], fetch(db.students[sel[j]].taskId.value));
    }
    CountsBounded(results);
    report := BatchReport(|sel|, updated, errors, results);
  }

  /**
    The sessions of the batch, each once, in order of first occurrence:
    exactly the sessions some selected student belongs to.
   */
  function AffectedSessions(db: Db): (r: seq<string>)
    requires db.Valid()
    ensures Seqs.Distinct(r)
    ensures forall i :: 0 <= i < |r| ==> r[i] in SessionIdsOf(db, SelectedIds(db))
    ensures forall k :: k in SelectedIds(db) ==> db.students[k].sessionId in r
  {
    var ids := SessionIdsOf(db, SelectedIds(db));
    var r := Seqs.Dedupe(ids);
    assert forall i :: 0 <= i < |r| ==> r[i] in r && r[i] in ids;
    assert forall k :: k in SelectedIds(db) ==> db.students[k].sessionId in ids by {
      forall k | k in SelectedIds(db) ensures db.students[k].sessionId in ids {
        var j :| 0 <= j < |SelectedIds(db)| && SelectedIds(db)[j] == k;
        assert ids[j] == db.students[k].sessionId;
      }
    }
    r
  }

  /** The affected sessions come in the order their first students do. */
  lemma AffectedSessionsOrdered(db: Db)
    requires db.Valid()
    ensures Seqs.InFirstOrder(AffectedSessions(db), SessionIdsOf(db, SelectedIds(db)))
  {
    Seqs.DedupeFirstOrder(SessionIdsOf(db, SelectedIds(db)));
  }

  /**
    `checkAllPendingTasks`: reconciles each selected student against its own
    response, then rechecks every affected session once, in first-occurrence
    order, whether or not any student changed.
   */
  method CheckAllPendingTasks(db: Db, fetch: string -> Result<TaskResult, string>, now: int, sinkUp: bool)
    returns (db': Db, report: BatchReport, rechecked: seq<string>)
    requires db.Valid()
    ensures report.processed == |SelectedIds(db)| == |report.results|
    ensures forall i :: 0 <= i < |report.results| ==> report.results[i] == ExpectedAt(db, SelectedIds(db), fetch, i)
    ensures report.updated == CountUpdated(report.results)
    ensures report.errors == CountErrors(report.results)
    ensures report.updated + report.errors <= report.processed
    ensures BatchWritten(db, SelectedIds(db), fetch, now, db')
    ensures forall i :: 0 <= i < |report.results| ==> db'.students[SelectedIds(db)[i]].status == report.results[i].newStatus
    ensures Seqs.Distinct(rechecked)
    ensures forall i :: 0 <= i < |rechecked| ==> rechecked[i] in SessionIdsOf(db, SelectedIds(db))
    ensures Seqs.InFirstOrder(rechecked, SessionIdsOf(db, SelectedIds(db)))
    ensures forall k :: k in SelectedIds(db) ==> db.students[k].sessionId in rechecked
    ensures db'.sessions.Keys == db.sessions.Keys
    ensures forall k :: k in db.sessions && k !in rechecked ==> db'.sessions[k] == db.sessions[k]
    ensures forall k :: k in db.sessions && k in rechecked ==>
      db'.sessions[k] == SessionService.RecheckedSession(db'.order, db'.students, k, db.sessions[k], now)
  {
    var cur;
    cur, report := RunBatch(db, fetch, now, sinkUp);
    rechecked := AffectedSessions(db);
    AffectedSessionsOrdered(db);
    db' := RecheckSessions(cur, rechecked, now, sinkUp);
    BatchWrittenSame(db, SelectedIds(db), fetch, now, cur, db');
  }

  // ---------------------------------------------------------------------------
  // Checking one task

  /** `findFirst({ where: { taskId } })`: the first student in table order with that task id. */
  function FindByTask(order: seq<string>, students: map<string, Student>, taskId: string): (r: Option<string>)
    ensures r.Some? ==> r.value in order && r.value in students && students[r.value].taskId == Some(taskId)
    ensures r.None? ==> forall i :: 0 <= i < |order| && order[i] in students ==> students[order[i]].taskId != Some(taskId)
  {
    if |order| == 0 then None
    else if order[0] in students && students[order[0]].taskId == Some(taskId) then Some(order[0])
    else FindByTask(order[1..], students, taskId)
  }

  datatype TaskReport = TaskReport(taskId: string, status: string, updated: bool, error: Option<string>)

  /**
    The tail of `checkSpecificTask` once the student is checked into `d` with
    entry `c`: the session `sid` is rechecked only after a change, and a failed
    recheck turns the report into an ERROR. Students, score rows and feedback
    rows are left as the check wrote them.
   */
  function ReportAfterCheck(d: Db, c: CheckResult, sid: string, taskId: string, now: int, sinkUp: bool): (r: (Db, TaskReport))
    ensures r.0.order == d.order && r.0.students == d.students && r.0.scores == d.scores && r.0.feedback == d.feedback
    ensures r.1.taskId == taskId
    ensures r.1.error.Some? ==> r.1.status == "ERROR" && !r.1.updated
    ensures r.1.error.None? ==> r.1.updated == c.updated && r.1.status == c.newStatus.Name()
    ensures !c.updated ==> r == (d, TaskReport(taskId, c.newStatus.Name(), false, None))
    ensures r.1.error.Some? || !r.1.updated ==> r.0.sessions == d.sessions
    ensures r.1.updated ==>
      && sid in d.sessions
      && r.0.sessions == d.sessions[sid := SessionService.RecheckedSession(d.order, d.students, sid, d.sessions[sid], now)]
  {
    if !c.updated then (d, TaskReport(taskId, c.newStatus.Name(), false, None))
    else
      match SessionService.CheckAndUpdateSessionStatus(d, sid, now, sinkUp)
      case Err(e) => (d, TaskReport(taskId, "ERROR", false, Some(e)))
      case Ok(d2) =>
        SessionService.RecheckFrame(d, sid, now, sinkUp);
        SessionService.RecheckWritesSession(d, sid, now, sinkUp);
        (d2, TaskReport(taskId, c.newStatus.Name(), true, None))
  }

  /**
    The body of `checkSpecificTask` once the student `h` holding the task is
    found: its check, then the session recheck after a change. A failed
    request leaves the database as it was.
   */
  function CheckHolder(db: Db, h: string, taskId: string, fetch: string -> Result<TaskResult, string>, now: int, sinkUp: bool)
    : (r: (Db, TaskReport))
    requires h in db.students && db.students[h].id == h && db.students[h].taskId == Some(taskId)
    ensures r.1.taskId == taskId
    ensures r.1.status == "ERROR" <==> r.1.error.Some?
    ensures r.1.error.Some? ==> !r.1.updated
    ensures fetch(taskId).Err? ==> r == (db, TaskReport(taskId, "ERROR", false, Some(fetch(taskId).error)))
    ensures r.0.students.Keys == db.students.Keys && r.0.order == db.order
    ensures var written := if fetch(taskId).Ok? then CheckWrites(db, db.students[h], fetch(taskId).value, now) else db;
      r.0.students == written.students && r.0.scores == written.scores && r.0.feedback == written.feedback
    ensures r.1.error.None? ==>
      var c := Expected(db.students[h], fetch(taskId));
      && r.1.updated == c.updated && r.1.status == c.newStatus.Name()
      && r.0.students[h].status == c.newStatus
    ensures r.1.error.Some? || !r.1.updated ==> r.0.sessions == db.sessions
    ensures r.1.updated ==>
      var sid := db.students[h].sessionId;
      && sid in db.sessions
      && r.0.sessions == db.sessions[sid := SessionService.RecheckedSession(r.0.order, r.0.students, sid, db.sessions[sid], now)]
  {
    var s := db.students[h];
    var checked := CheckStudent(db, s, fetch(taskId), now);
    if checked.Err? then (db, TaskReport(taskId, "ERROR", false, Some(checked.error)))
    else ReportAfterCheck(checked.value.0, checked.value.1, s.sessionId, taskId, now, sinkUp)
  }

  /**
    What `CheckHolder` writes: the holder gets the slot its check leaves (or
    keeps its own when the request failed), and every other student, score
    row and feedback row is untouched.
   */
  lemma CheckHolderWrites(db: Db, h: string, taskId: string, fetch: string -> Result<TaskResult, string>, now: int, sinkUp: bool)
    requires h in db.students && db.students[h].id == h && db.students[h].taskId == Some(taskId)
    ensures var d := CheckHolder(db, h, taskId, fetch, now, sinkUp).0;
      && CheckedInto(db, db.students[h], fetch(taskId), now, d)
      && (forall k :: k in db.students && k != h ==> d.students[k] == db.students[k])
      && (forall k :: k != h ==> ScoresOf(d, k) == ScoresOf(db, k) && FeedbackOf(d, k) == FeedbackOf(db, k))
  {
    var s := db.students[h];
    var d := CheckHolder(db, h, taskId, fetch, now, sinkUp).0;
    var written := if fetch(taskId).Ok? then CheckWrites(db, s, fetch(taskId).value, now) else db;
    assert SlotOf(d, h) == SlotOf(written, h);
    CheckedIntoSame(db, s, fetch(taskId), now, written, d);
    forall k | k != h ensures ScoresOf(d, k) == ScoresOf(db, k) && FeedbackOf(d, k) == FeedbackOf(db, k) {
      assert ScoresOf(d, k) == ScoresOf(written, k) && FeedbackOf(d, k) == FeedbackOf(written, k);
    }
  }

  /**
    `checkSpecificTask`, which never throws: an unknown task id, a failed
    request or a failed session recheck yield status "ERROR", not updated,
    with the message; otherwise the mapped status's name. The session is
    rechecked only when the student changed.
   */
  function CheckSpecificTask(db: Db, taskId: string, fetch: string -> Result<TaskResult, string>, now: int, sinkUp: bool)
    : (r: (Db, TaskReport))
    requires db.Valid()
    ensures r.1.taskId == taskId
    ensures r.1.status == "ERROR" <==> r.1.error.Some?
    ensures r.1.error.Some? ==> !r.1.updated
    ensures (forall k :: k in db.students ==> db.students[k].taskId != Some(taskId)) ==>
      r == (db, TaskReport(taskId, "ERROR", false, Some("No student found with task ID: " + taskId)))
    ensures FindByTask(db.order, db.students, taskId).Some? && fetch(taskId).Err? ==>
      r.0 == db && r == (db, TaskReport(taskId, "ERROR", false, Some(fetch(taskId).error)))
    ensures r.0.students.Keys == db.students.Keys && r.0.order == db.order
    ensures FindByTask(db.order, db.students, taskId).Some? ==>
      var h := FindByTask(db.order, db.students, taskId).value;
      && CheckedInto(db, db.students[h], fetch(taskId), now, r.0)
      && (forall k :: k in db.students && k != h ==> r.0.students[k] == db.students[k])
      && (forall k :: k != h ==> ScoresOf(r.0, k) == ScoresOf(db, k) && FeedbackOf(r.0, k) == FeedbackOf(db, k))
    ensures r.1.error.None? ==>
      && FindByTask(db.order, db.students, taskId).Some?
      && var k := FindByTask(db.order, db.students, taskId).value;
      && var c := Expected(db.students[k], fetch(taskId));
      && r.1.updated == c.updated && r.1.status == c.newStatus.Name()
      && r.0.students[k].status == c.newStatus
    ensures r.1.error.Some? || !r.1.updated ==> r.0.sessions == db.sessions
    ensures r.1.updated ==>
      && FindByTask(db.order, db.students, taskId).Some?
      && var sid := db.students[FindByTask(db.order, db.students, taskId).value].sessionId;
      && sid in db.sessions
      && r.0.sessions == db.sessions[sid := SessionService.RecheckedSession(r.0.order, r.0.students, sid, db.sessions[sid], now)]
  {
    match FindByTask(db.order, db.students, taskId)
    case None => (db, TaskReport(taskId, "ERROR", false, Some("No student found with task ID: " + taskId)))
    case Some(h) =>
      CheckHolderWrites(db, h, taskId, fetch, now, sinkUp);
      CheckHolder(db, h, taskId, fetch, now, sinkUp)
  }

  // ---------------------------------------------------------------------------
  // Where the two total computations part

  /**
    The monitor stores the payload's totals as given, not the sum of the
    per-question rows it writes; unlike `SessionService.GradingTotalsMatchRows`,
    a payload whose totals disagree with its items leaves a student whose
    stored total is not the sum of its stored rows.
   */
  lemma MonitorTotalsMayDisagree()
    ensures var s := Student("s1", "g1", "Ada", Some("t1"), GradingStatus.Processing, None, None, None, None);
      var db := Db(["s1"], map["s1" := s], map[], map[], map[], []);
      var item := FeedbackItem("q1", 5.0, 10.0, "ok", None, None);
      var d := ApplyResult(db, "s1", GradingPayload(7.0, 10.0, [item])).value;
      && d.students["s1"].totalScore == Some(7.0)
      && SessionService.RowTotal(ScoresOf(d, "s1")) == 5.0
  {
    var s := Student("s1", "g1", "Ada", Some("t1"), GradingStatus.Processing, None, None, None, None);
    var db := Db(["s1"], map["s1" := s], map[], map[], map[], []);
    var item := FeedbackItem("q1", 5.0, 10.0, "ok", None, None);
    var d := ApplyResult(db, "s1", GradingPayload(7.0, 10.0, [item])).value;
    var rows := ScoresOf(d, "s1");
    assert rows == [QuestionScore("q1", 5.0, 10.0)];
    assert rows[..0] == [];
  }
}

=== FILE: text.dfy ===
/**
  String helpers: `toLowerCase`, `includes` and `startsWith` as the UI uses
  them (ASCII only), and `length` in UTF-16 code units.
 */
module Text {
  import opened Wrappers

  /** An optional string read with JavaScript truthiness: present and not empty. */
  predicate Truthy(f: Option<string>) {
    f.Some? && |f.value| > 0
  }

  /** The decimal digit for `d`. */
  function DigitChar(d: nat): char
    requires d < 10
  {
    "0123456789"[d]
  }

  /** Decimal rendering of a natural number, as string interpolation gives it. */
  function NatToString(n: nat): (r: string)
    ensures |r| > 0
    ensures forall i :: 0 <= i < |r| ==> '0' <= r[i] <= '9'
  {
    if n < 10 then [DigitChar(n)] else NatToString(n / 10) + [DigitChar(n % 10)]
  }

  /** A character outside the Basic Multilingual Plane, which UTF-16 writes as a surrogate pair. */
  predicate Astral(c: char) {
    c as int > 0xFFFF
  }

  /** `String.prototype.length`: the number of UTF-16 code units. */
  function Utf16Length(s: string): (n: nat)
    ensures |s| <= n <= 2 * |s|
    ensures n == 0 <==> |s| == 0
  {
    if |s| == 0 then 0 else (if Astral(s[0]) then 2 else 1) + Utf16Length(s[1..])
  }

  /** The code-unit length is the character count exactly when no character is astral. */
  lemma {:induction false} Utf16LengthIsCount(s: string)
    ensures Utf16Length(s) == |s| <==> forall i :: 0 <= i < |s| ==> !Astral(s[i])
    decreases |s|
  {
    if |s| > 0 {
      Utf16LengthIsCount(s[1..]);
      assert forall i :: 1 <= i < |s| ==> s[i] == s[1..][i - 1];
    }
  }

  /** ASCII lower-casing of one character; other characters are left alone. */
  function LowerChar(c: char): char {
    if 'A' <= c <= 'Z' then (c as int + 32) as char else c
  }

  /** `String.prototype.toLowerCase`, restricted to ASCII letters. */
  function ToLower(s: string): (r: string)
    ensures |r| == |s|
    ensures forall i :: 0 <= i < |s| ==> r[i] == LowerChar(s[i])
  {
    if |s| == 0 then "" else [LowerChar(s[0])] + ToLower(s[1..])
  }

  predicate StartsWith(s: string, prefix: string) {
    |prefix| <= |s| && s[..|prefix|] == prefix
  }

  /** `String.prototype.includes`: `sub` occurs somewhere in `s`. */
  predicate Contains(s: string, sub: string)
    decreases |s|
  {
    StartsWith(s, sub) || (|s| > 0 && Contains(s[1..], sub))
  }

  /** Every string contains the empty string, so an empty search matches everything. */
  lemma ContainsEmpty(s: string)
    ensures Contains(s, "")
  {
    assert StartsWith(s, "");
  }

  /** `sub` occurs in `s` starting at position `i`. */
  predicate OccursAt(s: string, sub: string, i: int) {
    0 <= i && i + |sub| <= |s| && s[i..i + |sub|] == sub
  }

  /** Reference definition of a substring: some position where `sub` occurs. */
  ghost predicate Occurs(s: string, sub: string) {
    exists i :: OccursAt(s, sub, i)
  }

  /** `Contains` agrees with the positional definition of a substring. */
  lemma {:induction false} ContainsIff(s: string, sub: string)
    ensures Contains(s, sub) <==> exists i :: OccursAt(s, sub, i)
    decreases |s|
  {
    if |s| > 0 {
      ContainsIff(s[1..], sub);
      if Contains(s[1..], sub) {
        var i :| OccursAt(s[1..], sub, i);
        assert s[i + 1..i + 1 + |sub|] == s[1..][i..i + |sub|];
        assert OccursAt(s, sub, i + 1);
      }
      if StartsWith(s, sub) {
        assert OccursAt(s, sub, 0);
      }
      if exists i :: OccursAt(s, sub, i) {
        var i :| OccursAt(s, sub, i);
        if i > 0 {
          assert s[1..][i - 1..i - 1 + |sub|] == s[i..i + |sub|];
          assert OccursAt(s[1..], sub, i - 1);
        } else {
          assert s[..|sub|] == s[0..|sub|];
        }
      }
    } else {
      if StartsWith(s, sub) {
        assert OccursAt(s, sub, 0);
      }
      if exists i :: OccursAt(s, sub, i) {
        var i :| OccursAt(s, sub, i);
        assert s[..|sub|] == s[i..i + |sub|];
      }
    }
  }

  /** Lower-casing computed character by character. */
  lemma LowerOf(s: string, t: string)
    requires |s| == |t| && forall i :: 0 <= i < |s| ==> LowerChar(s[i]) == t[i]
    ensures ToLower(s) == t
  {
  }

  /** Lower-casing twice is lower-casing once. */
  lemma ToLowerIdempotent(s: string)
    ensures ToLower(ToLower(s)) == ToLower(s)
  {
  }

  /** ASCII upper-casing of one character; other characters are left alone. */
  function UpperChar(c: char): char {
    if 'a' <= c <= 'z' then (c as int - 32) as char else c
  }

  /** `String.prototype.toUpperCase`, restricted to ASCII letters. */
  function ToUpper(s: string): (r: string)
    ensures |r| == |s|
    ensures forall i :: 0 <= i < |s| ==> r[i] == UpperChar(s[i])
  {
    if |s| == 0 then "" else [UpperChar(s[0])] + ToUpper(s[1..])
  }

  /** `lines.join("\n")`. */
  function JoinLines(lines: seq<string>): string {
    if |lines| == 0 then ""
    else if |lines| == 1 then lines[0]
    else lines[0] + "\n" + JoinLines(lines[1..])
  }

  /** Position of the first newline, or `|s|` when there is none. */
  function NewlineAt(s: string): (i: nat)
    ensures i <= |s|
    ensures i < |s| ==> s[i] == '\n'
    ensures forall j :: 0 <= j < i ==> s[j] != '\n'
  {
    if |s| == 0 then 0 else if s[0] == '\n' then 0 else 1 + NewlineAt(s[1..])
  }

  /** `s.split("\n")`: the pieces between newlines (one piece for a string without any). */
  function SplitLines(s: string): (r: seq<string>)
    ensures |r| > 0
    decreases |s|
  {
    var i := NewlineAt(s);
    if i == |s| then [s] else [s[..i]] + SplitLines(s[i + 1..])
  }

  /** A line without newline characters. */
  predicate SingleLine(s: string) {
    forall j :: 0 <= j < |s| ==> s[j] != '\n'
  }

  /** Splitting a join of single lines gives the lines back. */
  lemma {:induction false} SplitJoin(lines: seq<string>)
    requires |lines| > 0
    requires forall k :: 0 <= k < |lines| ==> SingleLine(lines[k])
    ensures SplitLines(JoinLines(lines)) == lines
    decreases |lines|
  {
    var first := lines[0];
    if |lines| == 1 {
      assert NewlineAt(first) == |first|;
    } else {
      var rest := JoinLines(lines[1..]);
      var s := first + "\n" + rest;
      assert s[|first|] == '\n';
      assert forall j :: 0 <= j < |first| ==> s[j] == first[j];
      assert NewlineAt(s) == |first|;
      assert s[..|first|] == first;
      assert s[|first| + 1..] == rest;
      SplitJoin(lines[1..]);
    }
  }
}

=== FILE: validation.dfy ===
/**
  The zod schemas for a new session and for one feedback item, as validity
  functions. JSON well-formedness of the rubric is the parameter `parses`.
 */
module Validation {
  import opened Wrappers
  import opened Store
  import Text

  datatype SessionInput = SessionInput(
    title: string,
    subject: string,
    examYear: string,
    numStudents: int,
    gradingRubric: string)

  /**
    The checks of `createGradingSessionSchema` that can fail. String bounds
    count UTF-16 code units, as JavaScript's `length` does.
   */
  datatype SessionIssue =
    | TitleRequired | TitleTooLong
    | SubjectRequired | SubjectTooLong
    | YearTooShort | YearTooLong
    | TooFewStudents | TooManyStudents
    | InvalidJson
  {
    /** The message the schema attaches to the check. */
    function Message(): string {
      match this
      case TitleRequired => "Title is required"
      case TitleTooLong => "Title too long"
      case SubjectRequired => "Subject is required"
      case SubjectTooLong => "Subject too long"
      case YearTooShort => "Invalid year"
      case YearTooLong => "Invalid year"
      case TooFewStudents => "At least 1 student required"
      case TooManyStudents => "Too many students"
      case InvalidJson => "Invalid JSON format"
    }
  }

  /** The check `issue` rejects `input`. */
  predicate SessionFails(input: SessionInput, parses: string -> bool, issue: SessionIssue) {
    match issue
    case TitleRequired => Text.Utf16Length(input.title) < 1
    case TitleTooLong => Text.Utf16Length(input.title) > 255
    case SubjectRequired => Text.Utf16Length(input.subject) < 1
    case SubjectTooLong => Text.Utf16Length(input.subject) > 100
    case YearTooShort => Text.Utf16Length(input.examYear) < 4
    case YearTooLong => Text.Utf16Length(input.examYear) > 4
    case TooFewStudents => input.numStudents < 1
    case TooManyStudents => input.numStudents > 1000
    case InvalidJson => !parses(input.gradingRubric)
  }

  function Check(input: SessionInput, parses: string -> bool, issue: SessionIssue): seq<SessionIssue> {
    if SessionFails(input, parses, issue) then [issue] else []
  }

  /** Every failed check of the session schema, in field order. */
  function SessionIssues(input: SessionInput, parses: string -> bool): (r: seq<SessionIssue>)
    ensures forall issue :: issue in r <==> SessionFails(input, parses, issue)
  {
    var title := Check(input, parses, TitleRequired) + Check(input, parses, TitleTooLong);
    var subject := Check(input, parses, SubjectRequired) + Check(input, parses, SubjectTooLong);
    var year := Check(input, parses, YearTooShort) + Check(input, parses, YearTooLong);
    var count := Check(input, parses, TooFewStudents) + Check(input, parses, TooManyStudents);
    var rubric := Check(input, parses, InvalidJson);
    assert forall issue :: issue in title <==> SessionFails(input, parses, issue) && (issue == TitleRequired || issue == TitleTooLong);
    assert forall issue :: issue in subject <==> SessionFails(input, parses, issue) && (issue == SubjectRequired || issue == SubjectTooLong);
    assert forall issue :: issue in year <==> SessionFails(input, parses, issue) && (issue == YearTooShort || issue == YearTooLong);
    assert forall issue :: issue in count <==> SessionFails(input, parses, issue) && (issue == TooFewStudents || issue == TooManyStudents);
    title + subject + year + count + rubric
  }

  /** `createGradingSessionSchema.safeParse`: the input itself, or all of its issues. */
  function ValidateSession(input: SessionInput, parses: string -> bool): (r: Result<SessionInput, seq<SessionIssue>>)
    ensures r.Ok? <==>
      && 1 <= Text.Utf16Length(input.title) <= 255
      && 1 <= Text.Utf16Length(input.subject) <= 100
      && Text.Utf16Length(input.examYear) == 4
      && 1 <= input.numStudents <= 1000
      && parses(input.gradingRubric)
    ensures r.Ok? ==> r.value == input
    ensures r.Err? ==> |r.error| > 0
  {
    var issues := SessionIssues(input, parses);
    if |issues| == 0 then Ok(input)
    else
      assert SessionFails(input, parses, issues[0]);
      Err(issues)
  }

  /** A feedback item as it arrives, before defaults are applied. */
  datatype RawFeedback = RawFeedback(
    questionId: string,
    feedback: string,
    score: real,
    maxScore: real,
    kind: Option<string>,
    confidence: Option<real>,
    keywords: Option<seq<string>>)

  /** A feedback item after validation: `type` and `keywords` have their defaults. */
  datatype FeedbackInput = FeedbackInput(
    questionId: string,
    feedback: string,
    score: real,
    maxScore: real,
    kind: FeedbackType,
    confidence: Option<real>,
    keywords: seq<string>)

  datatype FeedbackIssue =
    | QuestionIdRequired | FeedbackRequired | NegativeScore | MaxScoreNotPositive
    | UnknownType | ConfidenceOutOfRange

  /** `z.enum(["GENERAL", "STRENGTH", "IMPROVEMENT", "SUGGESTION"])`. */
  function ParseFeedbackType(s: string): (r: Option<FeedbackType>)
    ensures r.Some? <==> s in ["GENERAL", "STRENGTH", "IMPROVEMENT", "SUGGESTION"]
  {
    if s == "GENERAL" then Some(General)
    else if s == "STRENGTH" then Some(Strength)
    else if s == "IMPROVEMENT" then Some(Improvement)
    else if s == "SUGGESTION" then Some(Suggestion)
    else None
  }

  /** The check `issue` rejects `raw`. */
  predicate FeedbackFails(raw: RawFeedback, issue: FeedbackIssue) {
    match issue
    case QuestionIdRequired => |raw.questionId| < 1
    case FeedbackRequired => |raw.feedback| < 1
    case NegativeScore => raw.score < 0.0
    case MaxScoreNotPositive => raw.maxScore < 1.0
    case UnknownType => raw.kind.Some? && ParseFeedbackType(raw.kind.value).None?
    case ConfidenceOutOfRange => raw.confidence.Some? && !(0.0 <= raw.confidence.value <= 1.0)
  }

  function FeedbackCheck(raw: RawFeedback, issue: FeedbackIssue): seq<FeedbackIssue> {
    if FeedbackFails(raw, issue) then [issue] else []
  }

  /** Every failed check of the feedback schema, in field order. */
  function FeedbackIssues(raw: RawFeedback): (r: seq<FeedbackIssue>)
    ensures forall issue :: issue in r <==> FeedbackFails(raw, issue)
  {
    var texts := FeedbackCheck(raw, QuestionIdRequired) + FeedbackCheck(raw, FeedbackRequired);
    var scores := FeedbackCheck(raw, NegativeScore) + FeedbackCheck(raw, MaxScoreNotPositive);
    var rest := FeedbackCheck(raw, UnknownType) + FeedbackCheck(raw, ConfidenceOutOfRange);
    assert forall issue :: issue in texts <==> FeedbackFails(raw, issue) && (issue == QuestionIdRequired || issue == FeedbackRequired);
    assert forall issue :: issue in scores <==> FeedbackFails(raw, issue) && (issue == NegativeScore || issue == MaxScoreNotPositive);
    assert forall issue :: issue in rest <==> FeedbackFails(raw, issue) && (issue == UnknownType || issue == ConfidenceOutOfRange);
    texts + scores + rest
  }

  /** `studentFeedbackSchema.safeParse`, with the schema's defaults. */
  function ValidateFeedback(raw: RawFeedback): (r: Result<FeedbackInput, seq<FeedbackIssue>>)
    ensures r.Ok? <==>
      && |raw.questionId| >= 1
      && |raw.feedback| >= 1
      && raw.score >= 0.0
      && raw.maxScore >= 1.0
      && (raw.kind.Some? ==> raw.kind.value in ["GENERAL", "STRENGTH", "IMPROVEMENT", "SUGGESTION"])
      && (raw.confidence.Some? ==> 0.0 <= raw.confidence.value <= 1.0)
    ensures r.Ok? && raw.kind.None? ==> r.value.kind == General
    ensures r.Ok? && raw.keywords.None? ==> r.value.keywords == []
    ensures r.Ok? ==>
      && r.value.questionId == raw.questionId
      && r.value.feedback == raw.feedback
      && r.value.score == raw.score
      && r.value.maxScore == raw.maxScore
      && r.value.confidence == raw.confidence
      && (raw.keywords.Some? ==> r.value.keywords == raw.keywords.value)
  {
    var issues := FeedbackIssues(raw);
    if |issues| > 0 then
      assert FeedbackFails(raw, issues[0]);
      Err(issues)
    else
      var kind := if raw.kind.Some? then ParseFeedbackType(raw.kind.value).value else General;
      Ok(FeedbackInput(raw.questionId, raw.feedback, raw.score, raw.maxScore,
                            kind, raw.confidence, raw.keywords.GetOr([])))
  }
}

=== FILE: wrappers.dfy ===
/** Failure-compatible wrappers: `Option` for nullable values, `Result` for operations that throw. */
module Wrappers {

  datatype Option<+T> = None | Some(value: T) {

    /** The value, or `default` when absent (JavaScript's `x ?? default`). */
    function GetOr(default: T): T {
      match this
      case Some(v) => v
      case None => default
    }
  }

  datatype Result<+R, +E> = Ok(value: R) | Err(error: E) {

    predicate IsFailure() {
      Err?
    }

    function PropagateFailure<U>(): Result<U, E>
      requires Err?
    {
      Err(error)
    }

    function Extract(): R
      requires Ok?
    {
      value
    }
  }
}
